=== FILE: README.md ===
# FileBrowser core in Dafny

A model of the core of FileBrowser, a web file browser with two halves:
- an ASP.NET server that lets clients work inside one configured home directory — list, search, download, upload, create directories, move and delete;
- a browser client that keeps the current path and search query in the page address and checks search requests before sending them.

The model covers:

- **Path confinement** (`Sandbox`, over `Paths` and `Text`). The repository resolves every caller path the same way:
  - it combines home with the caller's text, as `Path.Combine` does;
  - it canonicalises the result, as `Path.GetFullPath` does, by splitting on `/`, dropping empty and `.` parts, and popping on `..`;
  - it admits the result only when the text starts with the canonical home text, ignoring ASCII case.
  
  Relative paths are produced with an exact-case prefix test followed by trimming leading separators. Both tests are text tests, as in the source, so the model also exhibits what they let through.
- **The file store** (`FileStore`). The disk is a `map<Path, Node>`. A path is its list of canonical segments, with `[]` the root. A node is a file with its content or a directory. Each node carries an opaque last-write time.

  `WellFormed` is the tree invariant: every non-root entry has a directory as its parent. Creating ancestors, removing a subtree and re-rooting a subtree each preserve it.
- **The repository** (`Repository`, `Listing`, `Search`): every operation of `FileSystemRepository`, as a pure function. Each operation returns its outcome (a value or a .NET exception as data) together with the store after it.
- **The domain entities**: `FileSystemItem`, `DirectoryDetails`, `SearchRequest` and `UploadResult`, with their factories and the invariants those factories establish.
- **The application service** (`Service`): composes the upload target, maps the repository's outcome to an upload report, reports on home, and forwards every other call unchanged.
- **The client** (`Navigation`, `ClientSearchRequest`):
  - the navigation state and its page address;
  - the parent-path and breadcrumb helpers;
  - the client's search request with its loose defaults, its conversion to and from the wire object, and its validation.

Every module is a single file. `Wrappers` holds `Option` and `Result`, and `Exceptions` holds the .NET exception kinds and messages.

Source paths in the table below are relative to the repository root.

## Model

| member | source | states |
|---|---|---|
| Sandbox.IsPathWithinHomeDirectory | FileBrowser.Infrastructure/Repositories/FileSystemRepository.cs:265-270 | The canonical target text starts with the canonical home text, ignoring ASCII case. |
| Sandbox.GetFullPath | FileBrowser.Infrastructure/Repositories/FileSystemRepository.cs:243-253 | Succeeds exactly when the canonical form of home combined with the path starts with canonical home, ignoring case. The result is that canonical text, which is its own canonical form. Any other input is refused with the access-denied exception. |
| Sandbox.GetRelativePath | FileBrowser.Infrastructure/Repositories/FileSystemRepository.cs:255-263 | A text with home as an exact-case prefix gives the rest after home, without its leading separators; home itself gives "". Any other text comes back unchanged. |
| Sandbox.ResolveDescendant | FileBrowser.Infrastructure/Repositories/FileSystemRepository.cs:243-253 | A relative path without ".." parts is admitted and resolves to home's segments followed by its own. |
| Sandbox.ResolveEmpty | FileBrowser.Infrastructure/Repositories/FileSystemRepository.cs:245 | The empty path resolves to canonical home. |
| Sandbox.ParentOfHomeDenied | FileBrowser.Infrastructure/Repositories/FileSystemRepository.cs:243-250 | ".." from any home other than the root is refused with access denied. |
| Sandbox.ResolveRelativeRoundTrip | FileBrowser.Infrastructure/Repositories/FileSystemRepository.cs:243-263 | For a canonical home, resolving the relative form of any path at or below home gives that path back. |
| Sandbox.SiblingAdmitted | FileBrowser.Infrastructure/Repositories/FileSystemRepository.cs:265-270 | The admission test is a text prefix, not a path prefix: under home "/srv/data", "../data2" is admitted as "/srv/data2". |
| Sandbox.CaseMismatchStaysAbsolute | FileBrowser.Infrastructure/Repositories/FileSystemRepository.cs:255-270 | Admission ignores case but relativisation does not: under "/srv/data", "/SRV/DATA/x" is admitted yet its relative form is the whole text. |
| Sandbox.TrailingSeparatorSegments | FileBrowser.Infrastructure/Repositories/FileSystemRepository.cs:245 | A trailing separator does not change a text's canonical segments. |
| Sandbox.TrailingSeparatorIgnored | FileBrowser.Infrastructure/Repositories/FileSystemRepository.cs:243-253 | A caller's path with a trailing separator resolves, and is admitted or refused, exactly as without it. |
| Sandbox.HomeTrailingSeparatorIgnored | FileBrowser.Infrastructure/Repositories/FileSystemRepository.cs:265-270 | Under a home text with one trailing separator added, every caller's path resolves and is admitted exactly as under the bare home text. |
| Sandbox.TrailingSeparatorHome | FileBrowser.Infrastructure/Repositories/FileSystemRepository.cs:267 | The home text "/srv/data/" has the segments "srv" and "data" and canonicalises to "/srv/data". |
| Sandbox.TrailingHomeAdmitsItself | FileBrowser.Infrastructure/Repositories/FileSystemRepository.cs:243-253 | Under home "/srv/data/", "." is admitted as "/srv/data", a text that does not start with the home text as written. |
| Sandbox.TrailingHomeAdmitsSibling | FileBrowser.Infrastructure/Repositories/FileSystemRepository.cs:243-253 | Under home "/srv/data/", "../data2" is admitted as "/srv/data2", a text that does not start with the home text as written. |
| Paths.Normalize | FileBrowser.Infrastructure/Repositories/FileSystemRepository.cs:245 | `Path.GetFullPath`: the text read as rooted, with empty and "." parts dropped, each ".." removing the segment before it and never rising above the root, rendered as "/" and the segments joined by "/", with no trailing separator. Its idempotence is Paths.NormalizeIdempotent. |
| Paths.Combine | FileBrowser.Infrastructure/Repositories/FileSystemRepository.cs:245 | An empty second part leaves the first. A rooted second part, or an empty first part, gives the second part. Otherwise the result extends the first part. |
| Paths.NormalizeIdempotent | FileBrowser.Infrastructure/Repositories/FileSystemRepository.cs:267-268 | Canonicalising a canonical text changes nothing. |
| Paths.SegmentsOfRender | FileBrowser.Infrastructure/Repositories/FileSystemRepository.cs:245 | The segments of the text of a canonical path are that path. |
| Paths.RenderInjective | FileBrowser.Infrastructure/Repositories/FileSystemRepository.cs:245 | Distinct canonical paths have distinct texts. |
| Paths.SegmentsCombine | FileBrowser.Infrastructure/Repositories/FileSystemRepository.cs:245 | Canonicalising home combined with a relative text continues from home's segments through the text's parts. |
| Paths.WalkConcat | FileBrowser.Infrastructure/Repositories/FileSystemRepository.cs:245 | Canonicalising two runs of parts is canonicalising the first, then the second from where the first ended. |
| Paths.WalkDescends | FileBrowser.Infrastructure/Repositories/FileSystemRepository.cs:245 | Without ".." parts, canonicalisation only appends to the starting directory. |
| Paths.FileName | FileBrowser.Infrastructure/Repositories/FileSystemRepository.cs:97 | The file name holds no separator. |
| Paths.FileNameOfChild | FileBrowser.Infrastructure/Repositories/FileSystemRepository.cs:97 | The file name of "dir/name" is `name`. |
| Paths.Extension | FileBrowser.Infrastructure/Repositories/FileSystemRepository.cs:275 | The extension is empty, or a '.' followed by at least one character and no further '.'; it holds no separator. |
| Paths.FileInfoExtension | FileBrowser.Infrastructure/Repositories/FileSystemRepository.cs:64 | The file property's extension is non-empty exactly when the file name holds a '.'. It is then the tail of the name from its last '.', so a name ending with '.' has ".". |
| Paths.ExtensionOfFileInfo | FileBrowser.Infrastructure/Repositories/FileSystemRepository.cs:275 | The two extensions agree except when the property's is ".", where `Path.GetExtension` gives the empty text. |
| Paths.TrailingDotExtension | FileBrowser.Infrastructure/Repositories/FileSystemRepository.cs:64 | For "notes." the file property gives "." and `Path.GetExtension` gives the empty text. |
| Paths.RenderPrefix | FileBrowser.Infrastructure/Repositories/FileSystemRepository.cs:52 | The text of a directory is a prefix of the text of everything below it. |
| FileStore.CreateDirectories | FileBrowser.Infrastructure/Repositories/FileSystemRepository.cs:200 | Fails, leaving nothing, exactly when a file sits at or above the path. Otherwise the path and all its ancestors are directories, every old entry is kept, and every new entry is a fresh directory on the path. |
| FileStore.CreatedTree | FileBrowser.Infrastructure/Repositories/FileSystemRepository.cs:200 | Adding the missing ancestors of a path as directories keeps the store a tree. |
| FileStore.DirectoryAncestors | FileBrowser.Infrastructure/Repositories/FileSystemRepository.cs:182 | In a tree, everything above a directory is a directory. |
| FileStore.RemoveTree | tests/FileBrowser.Infrastructure.UnitTests/Repositories/FileSystemRepositoryTests.cs:353-380 | Removes exactly the entries at or below the path, keeps all others unchanged, and keeps the store a tree. |
| FileStore.MoveTree | FileBrowser.Infrastructure/Repositories/FileSystemRepository.cs:225-232 | The source is gone, each `s + x` now sits at `t + x` with the same node, entries outside both subtrees are kept, and the store stays a tree. |
| FileStore.MoveTreeInverse | FileBrowser.Infrastructure/Repositories/FileSystemRepository.cs:225-232 | After a move, moving the destination back is allowed and restores the store exactly. |
| Repository.FileExistsAt | FileBrowser.Infrastructure/Repositories/FileSystemRepository.cs:165-169 | Access denied exactly when the path is refused; otherwise whether the resolved path is a file. |
| Repository.DirectoryExistsAt | FileBrowser.Infrastructure/Repositories/FileSystemRepository.cs:171-175 | Access denied exactly when the path is refused; otherwise whether the resolved path is a directory. |
| Repository.GetFileStream | FileBrowser.Infrastructure/Repositories/FileSystemRepository.cs:153-163 | Access denied for a refused path; the file's content exactly when the resolved path is a file; otherwise not-found naming the caller's path. |
| Repository.PathDenied | FileBrowser.Infrastructure/Repositories/FileSystemRepository.cs:187 | Creating a file over a directory is refused as unauthorised access. |
| Repository.EnsureParent | FileBrowser.Infrastructure/Repositories/FileSystemRepository.cs:180-185 | Succeeds exactly at the root or when no file sits at or above the parent. On success the parent is a directory, every old entry is kept, and new entries are fresh directories above the target. |
| Repository.Upload | FileBrowser.Infrastructure/Repositories/FileSystemRepository.cs:177-189 | A refused path is access denied. Every failure leaves the store unchanged. Once the path resolves, success holds exactly when the path is not the root, is not a directory, and no file sits at or above its parent. The root or a directory there is refused as unauthorised access; a file above the parent is an I/O error. On success the path holds a file with exactly the uploaded text, everything above it is a directory, and every other entry is kept. |
| Repository.UploadKeepsTree | FileBrowser.Infrastructure/Repositories/FileSystemRepository.cs:187-188 | Writing a file under a directory keeps the store a tree and leaves every other entry alone. |
| Repository.UploadThenRead | tests/FileBrowser.Infrastructure.UnitTests/Repositories/FileSystemRepositoryTests.cs:249-306 | After a successful upload the path is a file, not a directory, and reading it gives exactly the uploaded text. |
| Repository.UploadOntoDirectory | FileBrowser.Infrastructure/Repositories/FileSystemRepository.cs:180-188 | When the target is the root or a directory, creating its parent changes nothing, and the target was already a directory. |
| Repository.UploadOverwritesFile | FileBrowser.Infrastructure/Repositories/FileSystemRepository.cs:187-188 | Uploading over an existing file succeeds, and reading the file back gives the new text. |
| Repository.CreateDirectory | FileBrowser.Infrastructure/Repositories/FileSystemRepository.cs:191-201 | Access denied for a refused path. "Directory already exists: " plus the caller's path exactly when it is a directory. Success exactly when it is not a directory and no file sits at or above it; the directory then exists, old entries are kept and new ones are fresh directories. A failure changes nothing. |
| Repository.CreateDirectoryThenExists | FileBrowser.Infrastructure/Repositories/FileSystemRepository.cs:191-201 | After a successful creation the directory exists, and a second creation fails with already-exists and changes nothing. |
| Repository.Move | FileBrowser.Infrastructure/Repositories/FileSystemRepository.cs:203-233 | Either path refused: access denied, store unchanged. Missing source: not-found, store unchanged. Taken destination, file or directory: already-exists, store unchanged. Success moves the source's subtree to the destination. Exactly what the source held lands below the destination. Nothing else appears except directories above the destination. |
| Repository.MoveEntries | FileBrowser.Infrastructure/Repositories/FileSystemRepository.cs:218-232 | Succeeds exactly when the destination is not the root, not inside the source, and has no file at or above its parent. Success is a complete and exact move: nothing is below the destination that was not below the source, and the only other new entries are directories above the destination. Failure is an I/O error. |
| Repository.MoveOutcome | FileBrowser.Infrastructure/Repositories/FileSystemRepository.cs:218-232 | Creating the destination's directory and then moving the subtree gives a complete and exact move relative to the original store. |
| Repository.MoveAddsNothing | FileBrowser.Infrastructure/Repositories/FileSystemRepository.cs:218-232 | After the parent is created and the subtree moved, everything below the destination came from below the source. Every other entry is either an original entry outside the source or a directory above the destination. |
| Repository.MoveEntriesBack | FileBrowser.Infrastructure/Repositories/FileSystemRepository.cs:218-232 | Moving the entries back succeeds and restores every original entry; all that remains new are the directories the first move created. |
| Repository.MoveThenBack | FileBrowser.Infrastructure/Repositories/FileSystemRepository.cs:203-233 | A successful move can be undone by the reverse move, which restores every entry and leaves only the directories the first move created. |
| Repository.MoveChecked | FileBrowser.Infrastructure/Repositories/FileSystemRepository.cs:203-217 | Once both paths resolve, the source exists and the destination is free, a move comes down to moving the entries. |
| Repository.Delete | tests/FileBrowser.Infrastructure.UnitTests/Repositories/FileSystemRepositoryTests.cs:353-391 | Access denied for a refused path. Success exactly when the path exists, removing it with everything below it and keeping all else. Otherwise not-found, store unchanged. |
| Repository.DeleteThenGone | tests/FileBrowser.Infrastructure.UnitTests/Repositories/FileSystemRepositoryTests.cs:353-391 | After a deletion the path is neither a file nor a directory, and deleting it again fails. |
| Listing.Children | FileBrowser.Infrastructure/Repositories/FileSystemRepository.cs:48-65 | A name is listed exactly when it is an immediate child of the required kind. |
| Listing.Entry | FileBrowser.Infrastructure/Repositories/FileSystemRepository.cs:50-64 | A child's item carries its name and is a directory item exactly when the child is a directory. A file item's extension is the file property's extension of the name. |
| Listing.Group | FileBrowser.Infrastructure/Repositories/FileSystemRepository.cs:47-68 | Each group holds entries of children of its kind only, in strictly ascending name order. |
| Listing.GroupComplete | FileBrowser.Infrastructure/Repositories/FileSystemRepository.cs:47-65 | Every immediate child appears in the group of its kind. |
| Listing.Items | FileBrowser.Infrastructure/Repositories/FileSystemRepository.cs:67-68 | Every item is the entry of an immediate child. |
| Listing.ConcatArranged | FileBrowser.Infrastructure/Repositories/FileSystemRepository.cs:68 | Ascending directories followed by ascending files are in listing order. |
| Listing.ItemsOrdered | FileBrowser.Infrastructure/Repositories/FileSystemRepository.cs:68 | Directories precede files, and each group ascends by name. |
| Listing.ItemsComplete | FileBrowser.Infrastructure/Repositories/FileSystemRepository.cs:47-65 | Every immediate child appears in the listing by name. |
| Listing.ItemsExact | FileBrowser.Infrastructure/Repositories/FileSystemRepository.cs:47-68 | The listing's names are exactly the immediate children, in listing order. |
| Listing.ParentPath | FileBrowser.Infrastructure/Repositories/FileSystemRepository.cs:40-45 | No parent at the filesystem root. A parent within home is given relative to home; any other parent keeps its full text. |
| Listing.Unlisted | FileBrowser.Infrastructure/Repositories/FileSystemRepository.cs:34-37 | A directory that cannot be listed reports the caller's path, no items and the message. |
| Listing.GetDirectoryInfo | FileBrowser.Infrastructure/Repositories/FileSystemRepository.cs:27-77 | Never fails, and the reported path is the caller's. A refused path gives the access-denied message; a missing directory gives "Directory does not exist". An existing one gives its items and parent path with consistent counts. |
| Listing.ListingExact | FileBrowser.Infrastructure/Repositories/FileSystemRepository.cs:39-70 | A successful listing holds exactly the immediate children, directories first and each group by name, with file and directory counts adding up to the number of items. |
| Listing.HomeListingParentIsAbsolute | FileBrowser.Infrastructure/Repositories/FileSystemRepository.cs:40-45 | Listing home itself reports the parent's full text, not null. |
| Listing.ChildListingParentIsEmpty | FileBrowser.Infrastructure/Repositories/FileSystemRepository.cs:40-45 | Listing a directory directly inside a canonical home reports the parent path "". |
| Listing.HomeRelativeToItself | FileBrowser.Infrastructure/Repositories/FileSystemRepository.cs:255-270 | Home is within itself, and its relative form is "". |
| Search.Take | FileBrowser.Infrastructure/Repositories/FileSystemRepository.cs:144 | The first `n` elements, or all of them when there are fewer; none for `n <= 0`. |
| Search.Filter | FileBrowser.Infrastructure/Repositories/FileSystemRepository.cs:97 | Keeps exactly the elements satisfying the test. |
| Search.FilterIncreasing | FileBrowser.Infrastructure/Repositories/FileSystemRepository.cs:96-98 | Filtering keeps ascending order. |
| Search.Enumerate | FileBrowser.Infrastructure/Repositories/FileSystemRepository.cs:96 | Lists, in ascending order and as the platform's texts, exactly the files below the directory, or only those directly inside it when subdirectories are not searched. |
| Search.FoundTextSegments | FileBrowser.Infrastructure/Repositories/FileSystemRepository.cs:96 | An enumerated text resolves to its file and is the directory's text, one separator and the rest. |
| Search.NameMatcher | FileBrowser.Infrastructure/Repositories/FileSystemRepository.cs:97 | The test holds exactly when the file name contains the query, ignoring case. |
| Search.NameMatch | FileBrowser.Infrastructure/Repositories/FileSystemRepository.cs:97 | The file name of the text contains the query, ignoring ASCII case. |
| Search.ContentMatch | FileBrowser.Infrastructure/Repositories/FileSystemRepository.cs:121-122 | The text names a file of the store whose content contains the query, ignoring ASCII case. |
| Search.IsTextFile | FileBrowser.Infrastructure/Repositories/FileSystemRepository.cs:272-277 | The ASCII-lower-cased `Path.GetExtension` of the text is one of the 13 listed extensions. |
| Search.TextFileByName | FileBrowser.Infrastructure/Repositories/FileSystemRepository.cs:272-277 | Whether a file counts as text depends only on its file name. |
| Search.TextFileExtension | FileBrowser.Infrastructure/Repositories/FileSystemRepository.cs:272-277 | A text file has a non-empty extension, and `Path.GetExtension` and the file property give the same one. |
| Search.NamePhase | FileBrowser.Infrastructure/Repositories/FileSystemRepository.cs:94-98 | Only enumerated files whose name matches; none when the cap is not positive. |
| Search.ContentPhase | FileBrowser.Infrastructure/Repositories/FileSystemRepository.cs:118-141 | Keeps what was already chosen and adds only files whose content matches. Every scanned text file whose content matches ends with its relative path among the chosen ones. |
| Search.ContentPhaseDistinct | FileBrowser.Infrastructure/Repositories/FileSystemRepository.cs:126 | The content phase never adds a second file with a relative path already chosen. |
| Search.Phases | FileBrowser.Infrastructure/Repositories/FileSystemRepository.cs:94-142 | Both phases choose only enumerated files. |
| Search.PhasesKeepNamed | FileBrowser.Infrastructure/Repositories/FileSystemRepository.cs:94-142 | The name hits come first. |
| Search.Chosen | FileBrowser.Infrastructure/Repositories/FileSystemRepository.cs:144 | At most `MaxResults` files, each enumerated. |
| Search.Entries | FileBrowser.Infrastructure/Repositories/FileSystemRepository.cs:100-109 | One result entry per chosen file, in order. |
| Search.Found | FileBrowser.Infrastructure/Repositories/FileSystemRepository.cs:102-108 | A result entry is a file item named by the file name, whose path is the file's relative path and whose extension is the file property's extension. |
| Search.SearchDirectory | FileBrowser.Infrastructure/Repositories/FileSystemRepository.cs:82 | An absent or empty path searches home's own text; any other path is resolved and may be refused. |
| Search.Search | FileBrowser.Infrastructure/Repositories/FileSystemRepository.cs:79-151 | Fails, with access denied, exactly when the search path is refused. A missing directory gives no results. Otherwise at most `MaxResults` results, all files. Which files appear is stated by Search.SearchSound, Search.SearchNamesComplete and Search.SearchContentsComplete. |
| Search.NamedOf | FileBrowser.Infrastructure/Repositories/FileSystemRepository.cs:94-98 | Every name hit is enumerated and matches by name. |
| Search.ChosenNamesFirst | FileBrowser.Infrastructure/Repositories/FileSystemRepository.cs:94-142 | The chosen files begin with the name hits in order; every later one is a text file whose content matches, chosen only when contents are searched. |
| Search.ChosenSound | FileBrowser.Infrastructure/Repositories/FileSystemRepository.cs:94-142 | Every chosen file is reached from the search directory and matches by name (names searched) or by content as a text file (contents searched). |
| Search.ChosenNamesComplete | FileBrowser.Infrastructure/Repositories/FileSystemRepository.cs:94-144 | When no more files match by name than `MaxResults`, every file matching by name is chosen. |
| Search.TakeKeepsPrefix | FileBrowser.Infrastructure/Repositories/FileSystemRepository.cs:144 | Cutting to `MaxResults` keeps a prefix no longer than the cap. |
| Search.RelativeDistinct | FileBrowser.Infrastructure/Repositories/FileSystemRepository.cs:255-263 | Texts that share a prefix at least as long as home and then differ have distinct relative paths. |
| Search.EnumeratedRelativeDistinct | FileBrowser.Infrastructure/Repositories/FileSystemRepository.cs:96 | Distinct enumerated files have distinct relative paths whenever home fits the search directory. Home fits when it is no longer than the directory's text with its separator, or when its canonical form is no longer than the canonical directory. |
| Search.IncreasingRelativeDistinct | FileBrowser.Infrastructure/Repositories/FileSystemRepository.cs:96 | Ascending enumerated files all have distinct relative paths whenever home fits the search directory. |
| Search.ChosenDistinct | FileBrowser.Infrastructure/Repositories/FileSystemRepository.cs:126 | No two chosen files share a relative path whenever home fits the search directory. |
| Search.HomeInsideFound | FileBrowser.Infrastructure/Repositories/FileSystemRepository.cs:255-263 | If a home text ends inside a found text just before a separator, past the directory's own text, its canonical form is longer than the canonical directory. |
| Search.LongHomeRelative | FileBrowser.Infrastructure/Repositories/FileSystemRepository.cs:255-263 | When home is longer than the directory's text but fits canonically, a found text is rooted, and when home prefixes it, its relative path is all the rest. |
| Search.LongHomeDistinct | FileBrowser.Infrastructure/Repositories/FileSystemRepository.cs:96 | In that case too, distinct enumerated files have distinct relative paths. |
| Search.SearchSound | FileBrowser.Infrastructure/Repositories/FileSystemRepository.cs:79-151 | Each result is the entry of a file reached from the search directory that matches by name, or by content as a text file when contents are searched. |
| Search.SearchDistinctPaths | FileBrowser.Infrastructure/Repositories/FileSystemRepository.cs:126 | For any home text, no two results share a path. |
| Search.SearchNamesComplete | FileBrowser.Infrastructure/Repositories/FileSystemRepository.cs:94-110 | When names are searched and no more files match by name than `MaxResults`, every such file is among the results. |
| Search.PhasesContentsComplete | FileBrowser.Infrastructure/Repositories/FileSystemRepository.cs:112-141 | When contents are searched, a matching text file among the first `MaxResults` enumerated text files ends with its relative path among the phases' picks. |
| Search.ChosenContentsComplete | FileBrowser.Infrastructure/Repositories/FileSystemRepository.cs:112-144 | The same holds for the chosen files when the final cut to `MaxResults` drops nothing. |
| Search.EntriesPaths | FileBrowser.Infrastructure/Repositories/FileSystemRepository.cs:100-109 | The result entries' paths are exactly the chosen files' relative paths. |
| Search.SearchContentsComplete | tests/FileBrowser.Infrastructure.UnitTests/Repositories/FileSystemRepositoryTests.cs:141-164 | When contents are searched, a matching text file among the first `MaxResults` enumerated text files appears among the results by its relative path, provided the final cut drops nothing. |
| Ordering.BelowIrreflexive | FileBrowser.Infrastructure/Repositories/FileSystemRepository.cs:68 | No name sorts before itself. |
| Ordering.BelowAsymmetric | FileBrowser.Infrastructure/Repositories/FileSystemRepository.cs:68 | Two names never sort before each other. |
| Ordering.BelowTransitive | FileBrowser.Infrastructure/Repositories/FileSystemRepository.cs:68 | The name order is transitive. |
| Ordering.BelowTotal | FileBrowser.Infrastructure/Repositories/FileSystemRepository.cs:68 | Of two distinct names, one sorts first. |
| Ordering.LeastExists | FileBrowser.Infrastructure/Repositories/FileSystemRepository.cs:68 | A non-empty set of names has a first one. |
| Ordering.LeastUnique | FileBrowser.Infrastructure/Repositories/FileSystemRepository.cs:68 | That first name is unique. |
| Ordering.Least | FileBrowser.Infrastructure/Repositories/FileSystemRepository.cs:68 | The member of the set that sorts before every other. |
| Ordering.Sorted | FileBrowser.Infrastructure/Repositories/FileSystemRepository.cs:68 | Exactly the elements of the set, each once, strictly ascending. |
| Ordering.IncreasingDistinct | FileBrowser.Infrastructure/Repositories/FileSystemRepository.cs:68 | A strictly ascending sequence has no repeats. |
| DirectoryDetails.Files | FileBrowser.Domain/Entities/DirectoryInfo.cs:25 | Exactly the file items, each drawn from the list. |
| DirectoryDetails.Directories | FileBrowser.Domain/Entities/DirectoryInfo.cs:26 | Exactly the directory items, each drawn from the list. |
| DirectoryDetails.CountsPartition | FileBrowser.Domain/Entities/DirectoryInfo.cs:25-26 | File count plus directory count is the number of items. |
| DirectoryDetails.DirectoriesAddNoSize | FileBrowser.Domain/Entities/DirectoryInfo.cs:27 | The total over the files equals the total over all items, since directories have no size. |
| DirectoryDetails.SizeSumAppend | FileBrowser.Domain/Entities/DirectoryInfo.cs:27 | Totals add over concatenation. |
| DirectoryDetails.CreateExisting | FileBrowser.Domain/Entities/DirectoryInfo.cs:19-40 | Rejects a null path. Otherwise keeps the path, the items (null as empty) and the parent as given, exists with no error, and has counts and total derived from the items. |
| DirectoryDetails.CreateNonExistent | FileBrowser.Domain/Entities/DirectoryInfo.cs:42-55 | Rejects a null path, then a null message. Otherwise no items, zero counts and size, no parent, not existing, and the given message. |
| FileSystemItem.Size | FileBrowser.Domain/Entities/FileSystemItem.cs:19-50 | A size exactly for file items, namely the file's own; directories have none. |
| FileSystemItem.CheckNames | FileBrowser.Domain/Entities/FileSystemItem.cs:12-17 | Passes exactly when both name and path are present. |
| FileSystemItem.CreateFile | FileBrowser.Domain/Entities/FileSystemItem.cs:39-42 | Succeeds exactly when name and path are present, storing every argument unchanged, with `Size` the given size. A null argument is rejected. |
| FileSystemItem.CreateDirectory | FileBrowser.Domain/Entities/FileSystemItem.cs:57-60 | Succeeds exactly when name and path are present, storing every argument unchanged, with no `Size`. A null argument is rejected. |
| SearchRequest.Create | FileBrowser.Domain/Entities/SearchRequest.cs:17-40 | Succeeds exactly for a present, non-blank query and a positive cap. The query error takes precedence. The query and path are stored trimmed and the switches and cap unchanged, so the request is valid. |
| SearchRequest.CreateWithDefaults | FileBrowser.Domain/Entities/SearchRequest.cs:17-23 | The defaults: no path, subdirectories and names on, contents off, 100 results. |
| UploadResult.CreateSuccess | FileBrowser.Domain/Entities/UploadResult.cs:15-24 | Success with the given path and size, and the given message or "File uploaded successfully". |
| UploadResult.CreateFailure | FileBrowser.Domain/Entities/UploadResult.cs:26-35 | Rejects a null message. Otherwise a failure with that message and neither path nor size. |
| Text.IsWhiteSpace | FileBrowser.Domain/Entities/SearchRequest.cs:25 | `char.IsWhiteSpace`: U+0009 to U+000D, the Unicode space separators (category Zs), U+2028, U+2029 and the next-line character U+0085. |
| Text.IsBlank | FileBrowser.Domain/Entities/SearchRequest.cs:25 | `string.IsNullOrWhiteSpace` of a present text: every character is white space, so the empty text is blank. |
| Text.LeadingBlanks | FileBrowser.Domain/Entities/SearchRequest.cs:33 | Counts the white space a text starts with, stopping at the first other character. |
| Text.TrailingBlanks | FileBrowser.Domain/Entities/SearchRequest.cs:33 | Counts the white space a text ends with, stopping at the last other character. |
| Text.TrimStart | FileBrowser.Domain/Entities/SearchRequest.cs:33 | A suffix of the text after white space only, not starting with white space. |
| Text.TrimEnd | FileBrowser.Domain/Entities/SearchRequest.cs:33 | A prefix of the text before white space only, not ending with white space. |
| Text.Trim | FileBrowser.Domain/Entities/SearchRequest.cs:33-34 | A slice of the text with only white space around it, neither starting nor ending with white space; empty exactly for a blank text. |
| Text.TrimIdempotent | FileBrowser.Domain/Entities/SearchRequest.cs:33 | Trimming twice is trimming once. |
| Text.TrimmedUnchanged | FileBrowser.Domain/Entities/SearchRequest.cs:33 | A text without surrounding white space is its own trim. |
| Text.TrimLeading | FileBrowser.Infrastructure/Repositories/FileSystemRepository.cs:260 | A suffix after leading copies of the character only, not starting with it. |
| Text.TrimLeadingConcat | FileBrowser.Infrastructure/Repositories/FileSystemRepository.cs:260 | Trimming leaves a tail that does not start with the character untouched. |
| Text.LowerAll | FileBrowser.Infrastructure/Repositories/FileSystemRepository.cs:269 | Same length, each character lower-cased. |
| Text.StartsWithFolds | FileBrowser.Infrastructure/Repositories/FileSystemRepository.cs:257-269 | An exact-case prefix is also a prefix ignoring case. |
| Text.ContainsOccurrence | FileBrowser.Infrastructure/Repositories/FileSystemRepository.cs:97 | Containment holds exactly when the query occurs at some position. |
| Text.Split | FileBrowser.Web/wwwroot/js/services/NavigationService.js:146 | At least one part, none holding the separator. |
| Text.JoinSplit | FileBrowser.Web/wwwroot/js/services/NavigationService.js:146-148 | Joining the parts of a split gives the text back. |
| Text.SplitJoin | FileBrowser.Web/wwwroot/js/services/NavigationService.js:146-148 | Splitting the join of separator-free parts gives the parts back. |
| Text.JoinConcat | FileBrowser.Web/wwwroot/js/services/NavigationService.js:148 | Joining two runs is joining each, with one separator between. |
| Text.SplitConcat | FileBrowser.Web/wwwroot/js/services/NavigationService.js:146 | Splitting at a separator splits each side. |
| Text.SplitWithoutSeparator | FileBrowser.Web/wwwroot/js/services/NavigationService.js:146 | A text without the separator is a single part. |
| Text.SplitSingle | FileBrowser.Web/wwwroot/js/services/NavigationService.js:146 | A single part exactly when the separator is absent. |
| Text.JoinLast | FileBrowser.Web/wwwroot/js/services/NavigationService.js:147-148 | A join of two or more parts is the join of all but the last, a separator and the last. |
| Text.JoinInjective | FileBrowser.Web/wwwroot/js/services/NavigationService.js:148 | Separator-free parts with equal joins are equal. |
| Service.ReplaceChar | FileBrowser.Infrastructure/Services/FileSystemService.cs:35 | Same length. The replaced character no longer occurs. Every other character is kept, and a text without it is unchanged. |
| Service.UploadTarget | FileBrowser.Infrastructure/Services/FileSystemService.cs:35 | Never holds a back-slash. A plain name goes inside the target directory after one separator. A rooted name, or an empty target, is the name itself. |
| Service.UploadTargetInDirectory | tests/FileBrowser.Infrastructure.UnitTests/Services/FileSystemServiceTests.cs:91-112 | "test.txt" uploaded to "/test/path" targets "/test/path/test.txt". |
| Service.UploadFile | FileBrowser.Infrastructure/Services/FileSystemService.cs:31-44 | Never fails, and the store is the repository's. The report succeeds exactly when the upload did, with the target, the declared length and the default message. Otherwise it carries the exception's message and no path or size. |
| Service.UploadThenDownload | FileBrowser.Infrastructure/Services/FileSystemService.cs:26-44 | A reported upload downloads from the reported path with the uploaded content. |
| Service.GetHomeDirectory | FileBrowser.Infrastructure/Services/FileSystemService.cs:46-53 | Reports home and whether it is a directory. The message is absent exactly when it exists, and is "Home directory does not exist" otherwise. |
| Service.HomeReportMatchesBrowse | FileBrowser.Infrastructure/Services/FileSystemService.cs:46-53 | Home is reported to exist exactly when browsing the empty path finds it. |
| Service.BrowseDirectory | FileBrowser.Infrastructure/Services/FileSystemService.cs:16-19 | Forwards the path unchanged and returns the repository's listing as it is. |
| Service.SearchFiles | FileBrowser.Infrastructure/Services/FileSystemService.cs:21-24 | Forwards the request unchanged and returns the repository's results in the same order. |
| Service.DownloadFile | FileBrowser.Infrastructure/Services/FileSystemService.cs:26-29 | Forwards the path unchanged and returns the repository's content or exception as it is. |
| Service.CreateDirectoryAt | FileBrowser.Infrastructure/Services/FileSystemService.cs:55-58 | Forwards the path unchanged; outcome and store are the repository's. |
| Service.MoveEntry | FileBrowser.Infrastructure/Services/FileSystemService.cs:60-63 | Forwards both paths unchanged; outcome and store are the repository's. |
| Service.DeleteEntry | FileBrowser.Infrastructure/Services/FileSystemService.cs:65-68 | Forwards the path unchanged; outcome and store are the repository's. |
| Navigation.Initial | FileBrowser.Web/wwwroot/js/services/NavigationService.js:5-9 | A new service is at "", with no query and search mode off. |
| Navigation.Param | FileBrowser.Web/wwwroot/js/services/NavigationService.js:17-18 | A missing address parameter reads as "". |
| Navigation.LoadFromUrl | FileBrowser.Web/wwwroot/js/services/NavigationService.js:15-29 | Takes path and query from the address. Search mode is on exactly when the query is non-empty. The returned location repeats the new state. |
| Navigation.UpdateParam | FileBrowser.Web/wwwroot/js/services/NavigationService.js:39-53 | An absent value leaves the parameter. Any other value is what the parameter then reads, and "" removes it. |
| Navigation.UpdateUrl | FileBrowser.Web/wwwroot/js/services/NavigationService.js:36-56 | Each given parameter reads back as given; each absent one is left alone. |
| Navigation.NavigateToPath | FileBrowser.Web/wwwroot/js/services/NavigationService.js:62-66 | Goes to the path and leaves search mode, keeping the query. The address holds the path and no search. |
| Navigation.SetSearchMode | FileBrowser.Web/wwwroot/js/services/NavigationService.js:72-76 | Keeps the path, records the query and enters search mode. The address holds both. |
| Navigation.ClearSearchMode | FileBrowser.Web/wwwroot/js/services/NavigationService.js:81-85 | Keeps the path, empties the query and leaves search mode. The address holds the path and no search. |
| Navigation.ShareableUrl | FileBrowser.Web/wwwroot/js/services/NavigationService.js:115-127 | The address with the path and query written when they are non-empty, and otherwise as it was. |
| Navigation.LoadThenReload | FileBrowser.Web/wwwroot/js/services/NavigationService.js:15-29 | A state just loaded from the address reloads as itself. |
| Navigation.NavigateThenReload | FileBrowser.Web/wwwroot/js/services/NavigationService.js:62-66 | After navigating, a reload is at the path with no query and search mode off. It restores the state exactly when no query was kept. |
| Navigation.SearchThenReload | FileBrowser.Web/wwwroot/js/services/NavigationService.js:72-76 | After entering search mode, a reload restores the state exactly when the query is non-empty. |
| Navigation.ClearThenReload | FileBrowser.Web/wwwroot/js/services/NavigationService.js:81-85 | After leaving search mode, a reload restores the state. |
| Navigation.ShareThenOpen | FileBrowser.Web/wwwroot/js/services/NavigationService.js:115-127 | Opening the shareable address of a reloadable state restores its path, query and mode. |
| Navigation.ShareAfterNavigateSearches | FileBrowser.Web/wwwroot/js/services/NavigationService.js:62-66 | After navigating away from a search, the kept query still goes into the shareable address, so opening that address enters search mode. |
| Navigation.GetParentPath | FileBrowser.Web/wwwroot/js/services/NavigationService.js:143-149 | "" for the empty path and for a path without '/'. Otherwise the path is the result, a '/' and a last part without '/'. |
| Navigation.ParentSplit | FileBrowser.Web/wwwroot/js/services/NavigationService.js:146-148 | A path with a '/' is the join of all its parts but the last, a '/' and the last part. |
| Navigation.ParentOfChild | FileBrowser.Web/wwwroot/js/services/NavigationService.js:143-149 | The parent of `p + "/" + s` is `p` when `s` holds no '/'. |
| Navigation.NonEmptyParts | FileBrowser.Web/wwwroot/js/services/NavigationService.js:158 | Keeps exactly the non-empty parts, in order. |
| Navigation.NonEmptyPartsKeepsAll | FileBrowser.Web/wwwroot/js/services/NavigationService.js:158 | Parts that are all non-empty are kept as they are. |
| Navigation.GetPathSegments | FileBrowser.Web/wwwroot/js/services/NavigationService.js:156-170 | One crumb per non-empty part, in order, named by the part. Each crumb's path joins the parts up to it. The first path is its name and each later one is the previous path, a '/' and its name. |
| Navigation.Crumbs | FileBrowser.Web/wwwroot/js/services/NavigationService.js:159-167 | The breadcrumb loop over non-empty parts builds those crumbs. |
| Navigation.JoinPrefixStep | FileBrowser.Web/wwwroot/js/services/NavigationService.js:162 | One more part extends the running path by a '/' and the part, except at the start. |
| Navigation.CrumbTrailEndsAtPath | FileBrowser.Web/wwwroot/js/services/NavigationService.js:156-170 | For a path without empty parts, the last crumb's parts join back to the path. |
| ClientSearchRequest.TextOr | FileBrowser.Web/wwwroot/js/models/SearchRequest.js:7-8 | A missing or empty text falls back. |
| ClientSearchRequest.FlagOr | FileBrowser.Web/wwwroot/js/models/SearchRequest.js:9-11 | Only `true` survives; anything else falls back. |
| ClientSearchRequest.NumberOr | FileBrowser.Web/wwwroot/js/models/SearchRequest.js:12 | A missing or zero number falls back. |
| ClientSearchRequest.Construct | FileBrowser.Web/wwwroot/js/models/SearchRequest.js:6-13 | Query and path default to "" and the two switches to off. The cap defaults to 100, so 0 becomes 100. The file-name switch is always on, even when false is given. |
| ClientSearchRequest.FromApiRequest | FileBrowser.Web/wwwroot/js/models/SearchRequest.js:20-29 | The same six fields, with the constructor's defaults. |
| ClientSearchRequest.ToApiRequest | FileBrowser.Web/wwwroot/js/models/SearchRequest.js:35-44 | Every field of the request, present. |
| ClientSearchRequest.ApiRoundTrip | FileBrowser.Web/wwwroot/js/models/SearchRequest.js:20-44 | Converting to the wire object and back reproduces a request exactly when its file-name switch is on and its cap is non-zero. |
| ClientSearchRequest.ConstructThenRoundTrip | FileBrowser.Web/wwwroot/js/models/SearchRequest.js:6-44 | Every constructed request survives the conversion and back. |
| ClientSearchRequest.Validate | FileBrowser.Web/wwwroot/js/models/SearchRequest.js:50-65 | "Search query is required" exactly when the query is empty or only JavaScript white space. "Max results must be between 1 and 1000" exactly when the cap is outside 1..1000. At most those two, query first. Valid exactly when there are none. |
| ClientSearchRequest.ValidatedRequestAccepted | FileBrowser.Web/wwwroot/js/models/SearchRequest.js:50-65 | For a query holding neither U+0085 nor U+FEFF, the server's factory accepts every request the client finds valid. The client finds valid every such request the server accepts with a cap of at most 1000. |
| ClientSearchRequest.IsJsWhiteSpace | FileBrowser.Web/wwwroot/js/models/SearchRequest.js:53 | JavaScript's `trim` set: U+0009 to U+000D, the Unicode space separators, U+2028, U+2029 and the byte-order mark U+FEFF. |
| ClientSearchRequest.IsJsBlank | FileBrowser.Web/wwwroot/js/models/SearchRequest.js:53 | `query.trim() === ""`: every character is JavaScript white space. |
| ClientSearchRequest.WhiteSpaceSetsDiffer | FileBrowser.Web/wwwroot/js/models/SearchRequest.js:53 | JavaScript's `trim` white space and .NET's `char.IsWhiteSpace` differ exactly on U+0085 and U+FEFF. |
| ClientSearchRequest.SameBlankness | FileBrowser.Domain/Entities/SearchRequest.cs:25 | On a text without those two characters, blank for the server and blank for the client coincide. |
| ClientSearchRequest.ClientServerDisagreement | FileBrowser.Domain/Entities/SearchRequest.cs:25-29 | A request valid for the client is refused by the server exactly when its cap is in 1..1000 and its query is blank for the server only. A request accepted by the server with a cap of at most 1000 fails the client exactly when its cap is positive and its query is blank for the client only. |
| ClientSearchRequest.NextLineQuery | FileBrowser.Domain/Entities/SearchRequest.cs:25-26 | The query U+0085 is valid for the client, but the server refuses it as empty. |
| ClientSearchRequest.ByteOrderMarkQuery | FileBrowser.Web/wwwroot/js/models/SearchRequest.js:53-55 | The query U+FEFF is accepted by the server, but the client reports that a query is required. |

## Left out

- Streams, `File.ReadAllTextAsync` and `LastWriteTime` are not modelled as I/O. Contents are text, and times are an opaque integer passed in as `now`. Reading a file's text never fails, so the catch around each file read (FileSystemRepository.cs:137-140) and the outer catch (146-150) are unreachable in the model.
- The repository constructor, `EnsureHomeDirectoryExists` and the home default taken from the environment are not modelled. Home is a parameter.
- Async, tasks, logging and concurrent access are not modelled; every operation runs alone.
- Name order and `String.StartsWith(string)` are culture-sensitive in .NET. The model uses ordinal order and ordinal prefix tests on character codes, with ASCII case folding. White space is listed by code point: .NET's `char.IsWhiteSpace` set on the server and JavaScript's `trim` set in the browser.
- Directory enumeration order is the platform's. The model enumerates files in ascending ordinal order of their texts.
- Paths are read as rooted, so a relative home is not resolved against a working directory. A trailing separator is not kept by canonicalisation, unlike .NET's `Path.GetFullPath`; the lines below say what that changes. Symbolic links and real case sensitivity are not modelled.
- The platform's I/O messages are not modelled. Every I/O failure carries one message of kind I/O.
- Last-write times of parent directories are not updated by mutations.
- A null path given to the listing, and null arguments to `FileUpload.Create`, are not modelled. Texts are never null, and `FileUpload` is a plain record.
- Repository.Delete: no implementation of `DeleteAsync` exists in the repository class; only the interface declares it. Its behaviour is taken from the repository tests, and its not-found message is "Path does not exist: " plus the path.
- Repository.PathDenied: creating a file over an existing directory is refused as unauthorised access, as .NET does on Linux. The platform's message text is not modelled.
- Search.Search: requires a request made by `SearchRequest.Create`, whose constructor is private, so every request the repository sees satisfies `Valid`.
- ClientSearchRequest.ValidatedRequestAccepted: browser and server agree only on queries without U+0085 and U+FEFF. .NET counts the next-line character U+0085 as white space and JavaScript does not. JavaScript counts the byte-order mark U+FEFF as white space and .NET does not. ClientServerDisagreement states the exact cases where they part.
- Sandbox.GetFullPath: under a home text ending with a separator, such as "/srv/data/", .NET keeps that separator in the canonical home and refuses every path that resolves to "/srv/data" or to a sibling such as "/srv/data2". The model drops it, so it admits ".", "x/.." and "../data2" there (Sandbox.TrailingHomeAdmitsItself, Sandbox.TrailingHomeAdmitsSibling).
- Repository.FileExistsAt: a caller's path ending with a separator names the same entry as without it (Sandbox.TrailingSeparatorIgnored). .NET's `File.Exists` is false for such a text, so the model answers true where the program answers false.
- Repository.GetFileStream: likewise, a caller's path ending with a separator reads the file, where .NET reports it missing.
- Repository.Upload: likewise, a target ending with a separator writes the file, where .NET's `File.Create` fails.
- Repository.Move: likewise, a source file named with a trailing separator is moved, where .NET reports the source missing; and such a destination naming an existing file is reported as taken, where .NET passes the check and the move itself fails.
- Lengths and counts are unbounded integers; the `long` and `int` ranges are not modelled.
- Listing.Entry: a file's size is the number of characters of its text. .NET's `FileInfo.Length` counts bytes, so the two differ for text outside ASCII, and the directory total inherits the difference.
- Search.Found: a found file's size is likewise its character count, not its length in bytes.
- Sandbox.GetFullPath: the `ArgumentException` that .NET raises for a path text holding a NUL character is not modelled. Such a text resolves like any other.
- The accessors `getCurrentPath`, `getCurrentSearchQuery`, `isInSearchMode` and `parseBreadcrumbPath` return a field or `breadcrumbPath || ""` and are not modelled. `history.pushState` is modelled as replacing the address.
- The client request's loose typing is not modelled. Each field is either absent or a value of its intended type, so a string or object passed where a number or flag is expected is not represented.

=== FILE: client_search_request.dfy ===
/**
 * The browser's search request (the client-side SearchRequest model): its
 * construction from loosely typed data with defaults for missing or falsy
 * fields, its conversion to and from the plain object sent to the server,
 * and its validation. A field the data does not carry, or carries as
 * `null` or `undefined`, is `None`.
 */
module ClientSearchRequest {
  import opened Wrappers
  import opened Text
  import SearchRequest

  /** The plain object a request is built from and turned into. */
  datatype RequestData = RequestData(
    query: Option<string>,
    path: Option<string>,
    includeSubdirectories: Option<bool>,
    searchInFileNames: Option<bool>,
    searchInFileContents: Option<bool>,
    maxResults: Option<int>)

  datatype ClientSearchRequest = ClientSearchRequest(
    query: string,
    path: string,
    includeSubdirectories: bool,
    searchInFileNames: bool,
    searchInFileContents: bool,
    maxResults: int)

  /** The outcome of `validate`: the messages in the order they were found, and whether there are none. */
  datatype Validation = Validation(isValid: bool, errors: seq<string>)

  const DefaultMaxResults := 100
  const QueryRequired := "Search query is required"
  const MaxResultsOutOfRange := "Max results must be between 1 and 1000"

  /** `value || fallback` on a text: null, undefined and the empty text fall back. */
  function TextOr(value: Option<string>, fallback: string): (r: string)
    ensures value.Some? && value.value != [] ==> r == value.value
    ensures value.None? || value.value == [] ==> r == fallback
  {
    if value.Some? && value.value != [] then value.value else fallback
  }

  /** `value || fallback` on a flag: only `true` survives. */
  function FlagOr(value: Option<bool>, fallback: bool): (r: bool)
    ensures value == Some(true) ==> r
    ensures value != Some(true) ==> r == fallback
  {
    if value == Some(true) then true else fallback
  }

  /** `value || fallback` on a number: null, undefined and zero fall back. */
  function NumberOr(value: Option<int>, fallback: int): (r: int)
    ensures value.Some? && value.value != 0 ==> r == value.value
    ensures value.None? || value.value == 0 ==> r == fallback
  {
    if value.Some? && value.value != 0 then value.value else fallback
  }

  /**
   * The constructor: query and path default to the empty text, the two
   * switches to off, the cap to 100 (so a cap of 0 becomes 100), and the
   * file-name switch is on whatever the data says.
   */
  function Construct(data: RequestData): (r: ClientSearchRequest)
    ensures r.query == Param(data.query) && r.path == Param(data.path)
    ensures r.includeSubdirectories <==> data.includeSubdirectories == Some(true)
    ensures r.searchInFileContents <==> data.searchInFileContents == Some(true)
    ensures r.searchInFileNames
    ensures data.maxResults.None? || data.maxResults == Some(0) ==> r.maxResults == DefaultMaxResults
    ensures data.maxResults.Some? && data.maxResults != Some(0) ==> r.maxResults == data.maxResults.value
  {
    ClientSearchRequest(
      TextOr(data.query, ""),
      TextOr(data.path, ""),
      FlagOr(data.includeSubdirectories, false),
      FlagOr(data.searchInFileNames, true),
      FlagOr(data.searchInFileContents, false),
      NumberOr(data.maxResults, DefaultMaxResults))
  }

  /** An absent text reads as empty. */
  function Param(value: Option<string>): string {
    value.GetOr("")
  }

  /** fromApiRequest: builds a request from the same six fields of the data, with the constructor's defaults. */
  function FromApiRequest(data: RequestData): (r: ClientSearchRequest)
    ensures r.query == Param(data.query) && r.path == Param(data.path)
    ensures r.includeSubdirectories <==> data.includeSubdirectories == Some(true)
    ensures r.searchInFileContents <==> data.searchInFileContents == Some(true)
    ensures r.searchInFileNames
    ensures r.maxResults == if data.maxResults.None? || data.maxResults == Some(0) then DefaultMaxResults
                            else data.maxResults.value
  {
    Construct(RequestData(data.query, data.path, data.includeSubdirectories,
                          data.searchInFileNames, data.searchInFileContents, data.maxResults))
  }

  /** toApiRequest: every field of the request, as present values. */
  function ToApiRequest(r: ClientSearchRequest): (data: RequestData)
    ensures data.query == Some(r.query) && data.path == Some(r.path)
    ensures data.includeSubdirectories == Some(r.includeSubdirectories)
    ensures data.searchInFileNames == Some(r.searchInFileNames)
    ensures data.searchInFileContents == Some(r.searchInFileContents)
    ensures data.maxResults == Some(r.maxResults)
  {
    RequestData(Some(r.query), Some(r.path), Some(r.includeSubdirectories),
                Some(r.searchInFileNames), Some(r.searchInFileContents), Some(r.maxResults))
  }

  /** What every constructed request looks like: the file-name switch on and a non-zero cap. */
  predicate Constructed(r: ClientSearchRequest) {
    r.searchInFileNames && r.maxResults != 0
  }

  /** Converting a request to data and back reproduces it exactly when it is one the constructor can build. */
  lemma ApiRoundTrip(r: ClientSearchRequest)
    ensures FromApiRequest(ToApiRequest(r)) == r <==> Constructed(r)
  {
  }

  /** Every constructed request survives the conversion to data and back. */
  lemma ConstructThenRoundTrip(data: RequestData)
    ensures Constructed(Construct(data))
    ensures FromApiRequest(ToApiRequest(Construct(data))) == Construct(data)
  {
    ApiRoundTrip(Construct(data));
  }

  /** JavaScript's white space and line terminators: the shared set and the byte-order mark U+FEFF. */
  predicate IsJsWhiteSpace(c: char) {
    IsUnicodeSpace(c) || c as int == 0xFEFF
  }

  /** `s.trim() === ""`: every character is JavaScript white space. */
  predicate IsJsBlank(s: string) {
    forall i :: 0 <= i < |s| ==> IsJsWhiteSpace(s[i])
  }

  /** The browser's and the server's white space differ on exactly two characters. */
  lemma WhiteSpaceSetsDiffer(c: char)
    ensures IsWhiteSpace(c) != IsJsWhiteSpace(c) <==> c as int == 0x85 || c as int == 0xFEFF
  {
  }

  /** A text holding neither U+0085 nor U+FEFF, the characters the two white-space sets disagree on. */
  predicate SharedBlanksOnly(s: string) {
    forall i :: 0 <= i < |s| ==> s[i] as int != 0x85 && s[i] as int != 0xFEFF
  }

  /**
   * validate: the query message when the query is empty or white space
   * only, then the cap message when the cap lies outside 1..1000; valid
   * exactly when there is no message.
   */
  function Validate(r: ClientSearchRequest): (v: Validation)
    ensures QueryRequired in v.errors <==> IsJsBlank(r.query)
    ensures MaxResultsOutOfRange in v.errors <==> r.maxResults < 1 || r.maxResults > 1000
    ensures forall e :: e in v.errors ==> e == QueryRequired || e == MaxResultsOutOfRange
    ensures |v.errors| <= 2 && (|v.errors| == 2 ==> v.errors == [QueryRequired, MaxResultsOutOfRange])
    ensures v.isValid <==> v.errors == []
  {
    var queryErrors := if r.query == [] || IsJsBlank(r.query) then [QueryRequired] else [];
    var capErrors := if r.maxResults < 1 || r.maxResults > 1000 then [MaxResultsOutOfRange] else [];
    var errors := queryErrors + capErrors;
    Validation(|errors| == 0, errors)
  }

  /**
   * For a query without the two disputed characters, the server's factory
   * accepts every request the browser finds valid, and a request the server
   * accepts with a cap of at most 1000 is one the browser finds valid.
   */
  lemma ValidatedRequestAccepted(r: ClientSearchRequest)
    ensures var created := SearchRequest.Create(Some(r.query), Some(r.path), r.includeSubdirectories,
                                                r.searchInFileNames, r.searchInFileContents, r.maxResults);
      SharedBlanksOnly(r.query) ==>
        && (Validate(r).isValid ==> created.Ok?)
        && (created.Ok? && r.maxResults <= 1000 ==> Validate(r).isValid)
  {
    if SharedBlanksOnly(r.query) {
      SameBlankness(r.query);
    }
  }

  /** On such a text the two readings of "blank" agree. */
  lemma SameBlankness(s: string)
    requires SharedBlanksOnly(s)
    ensures IsBlank(s) <==> IsJsBlank(s)
  {
    forall i | 0 <= i < |s| ensures IsWhiteSpace(s[i]) <==> IsJsWhiteSpace(s[i]) {
      WhiteSpaceSetsDiffer(s[i]);
    }
  }

  /**
   * Exactly where browser and server disagree: a request the browser finds
   * valid is refused when its query is blank only by the server's reading,
   * and one the server accepts with a cap in 1..1000 is rejected by the
   * browser when its query is blank only by JavaScript's.
   */
  lemma ClientServerDisagreement(r: ClientSearchRequest)
    ensures var created := SearchRequest.Create(Some(r.query), Some(r.path), r.includeSubdirectories,
                                                r.searchInFileNames, r.searchInFileContents, r.maxResults);
      && (Validate(r).isValid && created.Err? <==>
            1 <= r.maxResults <= 1000 && IsBlank(r.query) && !IsJsBlank(r.query))
      && (!Validate(r).isValid && created.Ok? && r.maxResults <= 1000 <==>
            1 <= r.maxResults <= 1000 && !IsBlank(r.query) && IsJsBlank(r.query))
  {
  }

  /** The query "\u0085" passes the browser's check but the server refuses it as empty. */
  lemma NextLineQuery()
    ensures var r := ClientSearchRequest([0x85 as char], "", false, true, false, 100);
      && Validate(r).isValid
      && SearchRequest.Create(Some(r.query), Some(r.path), false, true, false, 100) == Err(SearchRequest.EmptyQuery)
  {
    var q := [0x85 as char];
    assert IsWhiteSpace(q[0]) && !IsJsWhiteSpace(q[0]);
  }

  /** The query "\uFEFF" is accepted by the server but fails the browser's check. */
  lemma ByteOrderMarkQuery()
    ensures var r := ClientSearchRequest([0xFEFF as char], "", false, true, false, 100);
      && !Validate(r).isValid
      && SearchRequest.Create(Some(r.query), Some(r.path), false, true, false, 100).Ok?
  {
    var q := [0xFEFF as char];
    assert !IsWhiteSpace(q[0]) && IsJsWhiteSpace(q[0]);
  }

}

=== FILE: directory_details.dfy ===
/**
 * DirectoryDetails: the result of listing a directory, with its item
 * counts and total size, or the report that it does not exist.
 */
module DirectoryDetails {
  import opened Wrappers
  import opened Exceptions
  import opened FileSystemItem

  datatype DirectoryDetails = DirectoryDetails(
    path: string,
    items: seq<FileSystemItem>,
    fileCount: int,
    directoryCount: int,
    totalSize: int,
    parentPath: Option<string>,
    existing: bool,
    errorMessage: Option<string>)

  /** The file items, in order. */
  function Files(items: seq<FileSystemItem>): (r: seq<FileSystemItem>)
    ensures |r| <= |items|
    ensures forall i :: 0 <= i < |r| ==> r[i].FileItem? && r[i] in items
    ensures forall x :: x in items && x.FileItem? ==> x in r
    decreases |items|
  {
    if items == [] then []
    else (if items[0].FileItem? then [items[0]] else []) + Files(items[1..])
  }

  /** The directory items, in order. */
  function Directories(items: seq<FileSystemItem>): (r: seq<FileSystemItem>)
    ensures |r| <= |items|
    ensures forall i :: 0 <= i < |r| ==> r[i].DirectoryItem? && r[i] in items
    ensures forall x :: x in items && x.DirectoryItem? ==> x in r
    decreases |items|
  {
    if items == [] then []
    else (if items[0].DirectoryItem? then [items[0]] else []) + Directories(items[1..])
  }

  /** The sum of `Size ?? 0` over the items. */
  function SizeSum(items: seq<FileSystemItem>): int
    decreases |items|
  {
    if items == [] then 0 else items[0].Size().GetOr(0) + SizeSum(items[1..])
  }

  /** The counts and total that CreateExisting derives from the items. */
  predicate Tallied(d: DirectoryDetails) {
    && d.fileCount == |Files(d.items)|
    && d.directoryCount == |Directories(d.items)|
    && d.totalSize == SizeSum(Files(d.items))
  }

  /** Either an existing directory without error, or a missing one with a message and nothing else. */
  predicate Consistent(d: DirectoryDetails) {
    && Tallied(d)
    && (d.existing <==> d.errorMessage.None?)
    && (!d.existing ==> d.items == [] && d.parentPath.None?)
  }

  /**
   * CreateExisting: keeps the items in order (null becomes empty) and the
   * parent path as given, and counts files and directories and sums the file
   * sizes; a null path is rejected.
   */
  function CreateExisting(path: Option<string>, items: Option<seq<FileSystemItem>>, parentPath: Option<string>)
    : (r: Result<DirectoryDetails, Exception>)
    ensures r.Ok? <==> path.Some?
    ensures r.Err? ==> r.error == NullArgument("path")
    ensures r.Ok? ==> var d := r.value;
      && d.path == path.value
      && d.items == items.GetOr([])
      && d.parentPath == parentPath
      && d.existing && d.errorMessage.None?
      && d.fileCount + d.directoryCount == |d.items|
      && Consistent(d)
  {
    var list := items.GetOr([]);
    if path.None? then Err(NullArgument("path"))
    else
      CountsPartition(list);
      Ok(DirectoryDetails(path.value, list, |Files(list)|, |Directories(list)|,
                          SizeSum(Files(list)), parentPath, true, None))
  }

  /**
   * CreateNonExistent: no items, zero counts and size, no parent, and the
   * given message; a null path or message is rejected, the path first.
   */
  function CreateNonExistent(path: Option<string>, errorMessage: Option<string>)
    : (r: Result<DirectoryDetails, Exception>)
    ensures r.Ok? <==> path.Some? && errorMessage.Some?
    ensures path.None? ==> r.Err? && r.error == NullArgument("path")
    ensures path.Some? && errorMessage.None? ==> r.Err? && r.error == NullArgument("errorMessage")
    ensures r.Ok? ==> var d := r.value;
      && d.path == path.value
      && d.items == [] && d.fileCount == 0 && d.directoryCount == 0 && d.totalSize == 0
      && d.parentPath.None? && !d.existing
      && d.errorMessage == errorMessage
      && Consistent(d)
  {
    if path.None? then Err(NullArgument("path"))
    else if errorMessage.None? then Err(NullArgument("errorMessage"))
    else Ok(DirectoryDetails(path.value, [], 0, 0, 0, None, false, errorMessage))
  }

  /** Every item is a file or a directory, so the two counts add up to the number of items. */
  lemma {:induction false} CountsPartition(items: seq<FileSystemItem>)
    ensures |Files(items)| + |Directories(items)| == |items|
    decreases |items|
  {
    if items != [] {
      CountsPartition(items[1..]);
    }
  }

  /** Directories contribute nothing: the total over the files equals the total over all items. */
  lemma {:induction false} DirectoriesAddNoSize(items: seq<FileSystemItem>)
    ensures SizeSum(Files(items)) == SizeSum(items)
    decreases |items|
  {
    if items != [] {
      DirectoriesAddNoSize(items[1..]);
      var head := if items[0].FileItem? then [items[0]] else [];
      SizeSumAppend(head, Files(items[1..]));
    }
  }

  /** The total of a concatenation is the sum of the totals. */
  lemma {:induction false} SizeSumAppend(a: seq<FileSystemItem>, b: seq<FileSystemItem>)
    ensures SizeSum(a + b) == SizeSum(a) + SizeSum(b)
    decreases |a|
  {
    if a != [] {
      assert (a + b)[1..] == a[1..] + b;
      SizeSumAppend(a[1..], b);
    } else {
      assert a + b == b;
    }
  }
}

=== FILE: exceptions.dfy ===
/**
 * The exceptions the file store raises, as values: the .NET exception type
 * and its message. Operations that throw in the source return one of these
 * inside a `Result` instead.
 */
module Exceptions {

  datatype Kind =
    | UnauthorizedAccess  // UnauthorizedAccessException: path outside the home directory
    | FileNotFound        // FileNotFoundException: a required file or directory is missing
    | InvalidOperation    // InvalidOperationException: the target already exists
    | ArgumentNull        // ArgumentNullException: a required argument is null
    | Argument            // ArgumentException: an argument has an invalid value
    | IO                  // IOException and other failures of the platform's file API

  datatype Exception = Exception(kind: Kind, message: string)

  /** The one exception that path confinement raises (FileSystemRepository.cs, GetFullPath). */
  const AccessDenied := Exception(UnauthorizedAccess, "Access denied: Path is outside the allowed directory")

  /** The platform's own texts for I/O failures are not modelled; they all carry this one. */
  const IOFailure := Exception(IO, "I/O error")

  /** ArgumentNullException for the named parameter, with the platform's message format. */
  function NullArgument(parameter: string): (e: Exception)
    ensures e.kind == ArgumentNull
  {
    Exception(ArgumentNull, "Value cannot be null. (Parameter '" + parameter + "')")
  }

  /** ArgumentException with a message, for the named parameter. */
  function BadArgument(message: string, parameter: string): (e: Exception)
    ensures e.kind == Argument
  {
    Exception(Argument, message + " (Parameter '" + parameter + "')")
  }
}

=== FILE: file_store.dfy ===
/**
 * The filesystem as a value: a map from canonical paths to nodes. A
 * well-formed store is a tree: every entry's parent is a directory, and the
 * root, when present, is a directory.
 *
 * The platform calls the repository uses (`Directory.Exists`, `File.Exists`,
 * `Directory.CreateDirectory`, deleting and moving a subtree) are modelled
 * here as functions on the map.
 */
module FileStore {
  import opened Wrappers
  import opened Exceptions
  import opened Paths
  import opened FileSystemItem

  /** A file holds its text and last-write time; a directory its last-write time. */
  datatype Node = File(content: string, modified: Timestamp) | Dir(modified: Timestamp)

  type FileSystem = map<Path, Node>

  predicate IsDir(fs: FileSystem, p: Path) {
    p in fs && fs[p].Dir?
  }

  predicate IsFile(fs: FileSystem, p: Path) {
    p in fs && fs[p].File?
  }

  predicate WellFormed(fs: FileSystem) {
    && (forall p :: p in fs ==> ValidPath(p))
    && ([] in fs ==> fs[[]].Dir?)
    && (forall p {:trigger Parent(p)} :: p in fs && p != [] ==> IsDir(fs, Parent(p)))
  }

  /** Directory.Exists on a path text (the empty text never exists). */
  predicate DirectoryExists(fs: FileSystem, s: string) {
    s != [] && IsDir(fs, Segments(s))
  }

  /** File.Exists on a path text (the empty text never exists). */
  predicate FileExists(fs: FileSystem, s: string) {
    s != [] && IsFile(fs, Segments(s))
  }

  /** Every proper ancestor of an entry is a directory. */
  lemma {:induction false} AncestorsAreDirectories(fs: FileSystem, p: Path, n: nat)
    requires WellFormed(fs) && p in fs && n < |p|
    ensures IsDir(fs, p[..n])
    decreases |p| - n
  {
    var parent := Parent(p);
    if n < |p| - 1 {
      AncestorsAreDirectories(fs, parent, n);
      assert parent[..n] == p[..n];
    }
  }

  /** A directory and all of its ancestors are directories. */
  lemma DirectoryAncestors(fs: FileSystem, d: Path)
    requires WellFormed(fs) && IsDir(fs, d)
    ensures forall p :: Under(p, d) ==> IsDir(fs, p)
  {
    forall p | Under(p, d) && p != d
      ensures IsDir(fs, p)
    {
      AncestorsAreDirectories(fs, d, |p|);
    }
  }

  /** Nothing lies at or below a path that is absent. */
  lemma NothingBelowAbsent(fs: FileSystem, p: Path, q: Path)
    requires WellFormed(fs) && p !in fs && Under(p, q)
    ensures q !in fs
  {
    if q in fs && q != p {
      AncestorsAreDirectories(fs, q, |p|);
    }
  }

  /** The directory holding `p`. */
  function Parent(p: Path): (r: Path)
    requires p != []
    ensures |r| == |p| - 1 && Under(r, p)
  {
    p[..|p| - 1]
  }

  /** `p` and all of its ancestors, the root included. */
  function Prefixes(p: Path): (r: set<Path>)
    ensures forall q :: q in r <==> Under(q, p)
  {
    var r := set n | 0 <= n <= |p| :: p[..n];
    assert forall q :: Under(q, p) ==> q == p[..|q|];
    r
  }

  /**
   * Directory.CreateDirectory: creates the directory and every missing
   * ancestor; fails, creating nothing, when the path or an ancestor is a file.
   */
  function CreateDirectories(fs: FileSystem, p: Path, now: Timestamp): (r: Result<FileSystem, Exception>)
    requires WellFormed(fs) && ValidPath(p)
    ensures r.Ok? <==> forall q :: Under(q, p) ==> !IsFile(fs, q)
    ensures r.Err? ==> r.error == IOFailure
    ensures r.Ok? ==> WellFormed(r.value) && forall q :: Under(q, p) ==> IsDir(r.value, q)
    ensures r.Ok? ==> forall q :: q in fs ==> q in r.value && r.value[q] == fs[q]
    ensures r.Ok? ==> forall q :: q in r.value && q !in fs ==> Under(q, p) && r.value[q] == Dir(now)
  {
    if exists q :: q in Prefixes(p) && IsFile(fs, q) then Err(IOFailure)
    else
      var r := fs + map q | q in Prefixes(p) && q !in fs :: Dir(now);
      CreatedTree(fs, p, r, now);
      Ok(r)
  }

  lemma CreatedTree(fs: FileSystem, p: Path, r: FileSystem, now: Timestamp)
    requires WellFormed(fs) && ValidPath(p)
    requires forall q :: Under(q, p) ==> !IsFile(fs, q)
    requires r == fs + map q | q in Prefixes(p) && q !in fs :: Dir(now)
    ensures WellFormed(r)
  {
    forall q | q in r
      ensures ValidPath(q)
      ensures q != [] ==> IsDir(r, Parent(q))
    {
      if q !in fs {
        assert Under(q, p);
        assert forall i :: 0 <= i < |q| ==> q[i] == p[i];
        if q != [] {
          assert Under(Parent(q), p);
        }
      } else if q != [] {
        assert IsDir(fs, Parent(q));
      }
    }
  }

  /** The store without `p` and everything below it. */
  function RemoveTree(fs: FileSystem, p: Path): (r: FileSystem)
    ensures forall q :: q in r <==> q in fs && !Under(p, q)
    ensures forall q :: q in r ==> r[q] == fs[q]
    ensures WellFormed(fs) ==> WellFormed(r)
  {
    var r := map q | q in fs && !Under(p, q) :: fs[q];
    assert forall q :: q in r && q != [] && !Under(p, q) ==> !Under(p, q[..|q| - 1]);
    r
  }

  /** Whether `t` may receive the subtree at `s`: the conditions under which a move succeeds. */
  predicate CanMove(fs: FileSystem, s: Path, t: Path) {
    && s in fs && t !in fs && t != [] && ValidPath(t)
    && IsDir(fs, Parent(t))
    && !Under(s, t)
  }

  /** The entries at and below `s`, re-rooted at `t`: `s + x` becomes `t + x`. */
  function Shifted(fs: FileSystem, s: Path, t: Path): (m: FileSystem)
    ensures forall q :: q in m ==> Under(t, q)
    ensures forall x :: t + x in m <==> s + x in fs
    ensures forall x :: t + x in m ==> m[t + x] == fs[s + x]
  {
    var keys := set q | q in fs && Under(s, q) :: t + q[|s|..];
    ShiftedKeys(fs, s, t, keys);
    map q | q in keys :: fs[s + q[|t|..]]
  }

  lemma ShiftedKeys(fs: FileSystem, s: Path, t: Path, keys: set<Path>)
    requires keys == set q | q in fs && Under(s, q) :: t + q[|s|..]
    ensures forall q :: q in keys ==> Under(t, q) && s + q[|t|..] in fs
    ensures forall x :: t + x in keys <==> s + x in fs
  {
    forall q | q in keys
      ensures Under(t, q) && s + q[|t|..] in fs
    {
      var src :| src in fs && Under(s, src) && q == t + src[|s|..];
      assert q[|t|..] == src[|s|..];
      assert s + src[|s|..] == src;
    }
    forall x
      ensures t + x in keys <==> s + x in fs
    {
      assert (s + x)[|s|..] == x;
      assert (t + x)[|t|..] == x;
    }
  }

  /** The store with the subtree at `s` moved to `t`. */
  function MoveTree(fs: FileSystem, s: Path, t: Path): (r: FileSystem)
    requires WellFormed(fs) && CanMove(fs, s, t)
    ensures s !in r && t in r && r[t] == fs[s]
    ensures forall x :: t + x in r <==> s + x in fs
    ensures forall x :: t + x in r ==> r[t + x] == fs[s + x]
    ensures forall q :: !Under(t, q) ==> (q in r <==> q in fs && !Under(s, q))
    ensures forall q :: q in fs && !Under(s, q) ==> q in r && r[q] == fs[q]
    ensures WellFormed(r)
  {
    var r := RemoveTree(fs, s) + Shifted(fs, s, t);
    MovedTree(fs, s, t);
    r
  }

  lemma MovedTree(fs: FileSystem, s: Path, t: Path)
    requires WellFormed(fs) && CanMove(fs, s, t)
    ensures var r := RemoveTree(fs, s) + Shifted(fs, s, t);
      && s !in r && t in r && r[t] == fs[s]
      && (forall x :: t + x in r <==> s + x in fs)
      && (forall x :: t + x in r ==> r[t + x] == fs[s + x])
      && (forall q :: !Under(t, q) ==> (q in r <==> q in fs && !Under(s, q)))
      && (forall q :: q in fs && !Under(s, q) ==> q in r && r[q] == fs[q])
      && WellFormed(r)
  {
    var kept := RemoveTree(fs, s);
    var moved := Shifted(fs, s, t);
    var r := kept + moved;
    assert s == s + [] && t == t + [];
    // Nothing of the store lies at or below `t`, so the two parts do not overlap.
    forall q | Under(t, q)
      ensures q !in fs
    {
      NothingBelowAbsent(fs, t, q);
    }
    forall x
      ensures t + x in r <==> s + x in fs
      ensures t + x in r ==> r[t + x] == fs[s + x]
    {
      assert Under(t, t + x);
    }
    assert !Under(t, s);
    forall q | q in r
      ensures ValidPath(q)
      ensures q != [] ==> IsDir(r, Parent(q))
    {
      if q in moved {
        MovedEntry(fs, s, t, q);
        if q == t {
          var parent := Parent(t);
          assert !Under(s, parent);
          assert !Under(t, parent);
        }
      } else {
        assert q in fs && !Under(s, q);
        if q != [] {
          var parent := Parent(q);
          assert !Under(s, parent);
          assert !Under(t, parent);
        }
      }
    }
  }

  /** A re-rooted entry is a valid path; its parent is `t`'s parent or itself re-rooted. */
  lemma MovedEntry(fs: FileSystem, s: Path, t: Path, q: Path)
    requires WellFormed(fs) && CanMove(fs, s, t)
    requires q in Shifted(fs, s, t)
    ensures ValidPath(q)
    ensures q == t || (q != [] && IsDir(Shifted(fs, s, t), Parent(q)))
  {
    var x := q[|t|..];
    assert q == t + x;
    var src := s + x;
    assert src in fs;
    assert forall i :: 0 <= i < |x| ==> x[i] == src[|s| + i];
    if x != [] {
      var x' := x[..|x| - 1];
      assert Parent(src) == s + x';
      assert IsDir(fs, s + x');
      assert Parent(q) == t + x';
    } else {
      assert q == t;
    }
  }

  /** A subtree just moved may be moved back. */
  lemma MoveBackAllowed(fs: FileSystem, s: Path, t: Path)
    requires WellFormed(fs) && CanMove(fs, s, t)
    ensures CanMove(MoveTree(fs, s, t), t, s)
  {
    assert s != [];
    var parent := Parent(s);
    assert !Under(s, parent);
    assert !Under(t, s) by {
      if Under(t, s) {
        NothingBelowAbsent(fs, t, s);
      }
    }
    assert ValidPath(s);
    assert !Under(t, parent);
  }

  /** Moving a subtree back to where it came from restores the store. */
  lemma MoveTreeInverse(fs: FileSystem, s: Path, t: Path)
    requires WellFormed(fs) && CanMove(fs, s, t)
    ensures CanMove(MoveTree(fs, s, t), t, s)
    ensures MoveTree(MoveTree(fs, s, t), t, s) == fs
  {
    MoveBackAllowed(fs, s, t);
    var back := MoveTree(MoveTree(fs, s, t), t, s);
    forall q
      ensures q in back <==> q in fs
      ensures q in back ==> back[q] == fs[q]
    {
      MoveBackEntry(fs, s, t, q);
    }
    SameEntries(back, fs);
  }

  /** Two stores with the same entries are the same store. */
  lemma SameEntries(a: FileSystem, b: FileSystem)
    requires forall q :: (q in a <==> q in b) && (q in a ==> a[q] == b[q])
    ensures a == b
  {
  }

  /** One entry of the store after moving there and back. */
  lemma MoveBackEntry(fs: FileSystem, s: Path, t: Path, q: Path)
    requires WellFormed(fs) && CanMove(fs, s, t) && CanMove(MoveTree(fs, s, t), t, s)
    ensures var back := MoveTree(MoveTree(fs, s, t), t, s);
      (q in back <==> q in fs) && (q in back ==> back[q] == fs[q])
  {
    if Under(s, q) {
      UnderSplits(s, q);
      MoveBackInside(fs, s, t, q[|s|..]);
    } else {
      MoveBackOutside(fs, s, t, q);
    }
  }

  /** A path below `s` is `s` followed by the rest of it. */
  lemma UnderSplits(s: Path, q: Path)
    requires Under(s, q)
    ensures q == s + q[|s|..]
  {
  }

  lemma MoveBackInside(fs: FileSystem, s: Path, t: Path, x: Path)
    requires WellFormed(fs) && CanMove(fs, s, t) && CanMove(MoveTree(fs, s, t), t, s)
    ensures var back := MoveTree(MoveTree(fs, s, t), t, s);
      (s + x in back <==> s + x in fs) && (s + x in back ==> back[s + x] == fs[s + x])
  {
  }

  lemma MoveBackOutside(fs: FileSystem, s: Path, t: Path, q: Path)
    requires WellFormed(fs) && CanMove(fs, s, t) && CanMove(MoveTree(fs, s, t), t, s)
    requires !Under(s, q)
    ensures var back := MoveTree(MoveTree(fs, s, t), t, s);
      (q in back <==> q in fs) && (q in back ==> back[q] == fs[q])
  {
    if Under(t, q) {
      NothingBelowAbsent(fs, t, q);
    }
  }
}

=== FILE: file_system_item.dfy ===
/**
 * FileSystemItem: an entry of a directory listing or a search result,
 * either a file (with its size and extension) or a directory. The source's
 * abstract class with the subclasses FileItem and DirectoryItem becomes one
 * tagged datatype. Nullable arguments of the factories are `Option`s.
 */
module FileSystemItem {
  import opened Wrappers
  import opened Exceptions

  /** A last-write time, kept opaque. */
  type Timestamp = int

  datatype FileSystemItem =
    | FileItem(name: string, path: string, fileSize: int, lastModified: Option<Timestamp>, extension: Option<string>)
    | DirectoryItem(name: string, path: string, lastModified: Option<Timestamp>)
  {
    predicate IsDirectory() {
      DirectoryItem?
    }

    /** The `Size` property: a file's size, null for a directory. */
    function Size(): (r: Option<int>)
      ensures r.Some? <==> FileItem?
      ensures FileItem? ==> r == Some(fileSize)
    {
      match this
      case FileItem(_, _, size, _, _) => Some(size)
      case DirectoryItem(_, _, _) => None
    }
  }

  /** The base constructor's null checks: the name is checked before the path. */
  function CheckNames(name: Option<string>, path: Option<string>): (r: Option<Exception>)
    ensures r.None? <==> name.Some? && path.Some?
  {
    if name.None? then Some(NullArgument("name"))
    else if path.None? then Some(NullArgument("path"))
    else None
  }

  /** FileItem.Create: stores every argument unchanged; a null name or path is rejected. */
  function CreateFile(name: Option<string>, path: Option<string>, size: int,
                      lastModified: Option<Timestamp>, extension: Option<string>)
    : (r: Result<FileSystemItem, Exception>)
    ensures r.Ok? <==> name.Some? && path.Some?
    ensures r.Ok? ==> r.value == FileItem(name.value, path.value, size, lastModified, extension)
    ensures r.Ok? ==> r.value.Size() == Some(size)
    ensures r.Err? ==> r.error.kind == ArgumentNull
  {
    match CheckNames(name, path)
    case Some(e) => Err(e)
    case None => Ok(FileItem(name.value, path.value, size, lastModified, extension))
  }

  /** DirectoryItem.Create: stores every argument unchanged; a null name or path is rejected. */
  function CreateDirectory(name: Option<string>, path: Option<string>, lastModified: Option<Timestamp>)
    : (r: Result<FileSystemItem, Exception>)
    ensures r.Ok? <==> name.Some? && path.Some?
    ensures r.Ok? ==> r.value == DirectoryItem(name.value, path.value, lastModified)
    ensures r.Ok? ==> r.value.Size().None?
    ensures r.Err? ==> r.error.kind == ArgumentNull
  {
    match CheckNames(name, path)
    case Some(e) => Err(e)
    case None => Ok(DirectoryItem(name.value, path.value, lastModified))
  }
}

=== FILE: listing.dfy ===
/**
 * Directory listing (GetDirectoryInfoAsync): the immediate subdirectories
 * and files of a directory within home, directories first and each group
 * in name order, with the parent's path; or a report that the directory
 * cannot be listed. The listing never fails: every exception, access
 * denied included, becomes a non-existent result carrying its message.
 */
module Listing {
  import opened Wrappers
  import opened Exceptions
  import opened Text
  import opened Paths
  import opened Ordering
  import opened FileSystemItem
  import opened DirectoryDetails
  import opened FileStore
  import opened Sandbox

  const DirectoryMissing := "Directory does not exist"

  /** The names of the immediate children of `d` that are directories (`dirs`) or files (`!dirs`). */
  function Children(fs: FileSystem, d: Path, dirs: bool): (r: set<string>)
    ensures forall n :: n in r <==> d + [n] in fs && fs[d + [n]].Dir? == dirs
  {
    var r := set q | q in fs && |q| == |d| + 1 && q[..|d|] == d && fs[q].Dir? == dirs :: q[|d|];
    assert forall q :: |q| == |d| + 1 && q[..|d|] == d ==> q == d + [q[|d|]];
    assert forall n :: (d + [n])[|d|] == n && (d + [n])[..|d|] == d;
    r
  }

  /** The listing entry for the child `name` of `d`: a directory item, or a file item with its length and extension. */
  function Entry(home: string, fs: FileSystem, d: Path, name: string): (item: FileSystemItem)
    requires d + [name] in fs
    ensures item.name == name && item.DirectoryItem? == fs[d + [name]].Dir?
    ensures item.FileItem? ==> item.extension == Some(FileInfoExtension(name))
  {
    var path := GetRelativePath(home, Render(d + [name]));
    match fs[d + [name]]
    case Dir(modified) => DirectoryItem(name, path, Some(modified))
    case File(content, modified) => FileItem(name, path, |content|, Some(modified), Some(FileInfoExtension(name)))
  }

  /** The entries for the given children, in the given order. */
  function Entries(home: string, fs: FileSystem, d: Path, names: seq<string>): (items: seq<FileSystemItem>)
    requires forall i :: 0 <= i < |names| ==> d + [names[i]] in fs
    ensures |items| == |names|
    ensures forall i :: 0 <= i < |items| ==> items[i] == Entry(home, fs, d, names[i])
  {
    seq(|names|, i requires 0 <= i < |names| => Entry(home, fs, d, names[i]))
  }

  /** The subdirectories (`dirs`) or the files (`!dirs`) of `d` as entries, in ascending name order. */
  function Group(home: string, fs: FileSystem, d: Path, dirs: bool): (items: seq<FileSystemItem>)
    ensures forall i :: 0 <= i < |items| ==>
      d + [items[i].name] in fs && items[i] == Entry(home, fs, d, items[i].name) && items[i].DirectoryItem? == dirs
    ensures forall i, j :: 0 <= i < j < |items| ==> Below(items[i].name, items[j].name)
  {
    var names := Sorted(Children(fs, d, dirs));
    Entries(home, fs, d, names)
  }

  /** The names of the items, in order. */
  function Names(items: seq<FileSystemItem>): (r: seq<string>)
    ensures |r| == |items| && forall i :: 0 <= i < |items| ==> r[i] == items[i].name
  {
    seq(|items|, i requires 0 <= i < |items| => items[i].name)
  }

  /** Every child of the kind appears in its group. */
  lemma GroupComplete(home: string, fs: FileSystem, d: Path, name: string)
    requires d + [name] in fs
    ensures name in Names(Group(home, fs, d, fs[d + [name]].Dir?))
  {
    var names := Sorted(Children(fs, d, fs[d + [name]].Dir?));
    var k :| 0 <= k < |names| && names[k] == name;
    assert Names(Group(home, fs, d, fs[d + [name]].Dir?))[k] == name;
  }

  /**
   * The items of an existing directory: the subdirectories, then the
   * files, each group in ascending name order (the stable sort at the end
   * of the listing; names within a directory are distinct).
   */
  function Items(home: string, fs: FileSystem, d: Path): (items: seq<FileSystemItem>)
    ensures forall i :: 0 <= i < |items| ==>
      d + [items[i].name] in fs && items[i] == Entry(home, fs, d, items[i].name)
  {
    Group(home, fs, d, true) + Group(home, fs, d, false)
  }

  /** Directories and files kept apart and each ascending by name. */
  predicate Arranged(items: seq<FileSystemItem>) {
    && (forall i, j :: 0 <= i < j < |items| && items[j].DirectoryItem? ==> items[i].DirectoryItem?)
    && (forall i, j :: 0 <= i < j < |items| && items[i].DirectoryItem? == items[j].DirectoryItem?
          ==> Below(items[i].name, items[j].name))
  }

  /** Ascending directories followed by ascending files are arranged. */
  lemma ConcatArranged(ds: seq<FileSystemItem>, fls: seq<FileSystemItem>)
    requires forall i :: 0 <= i < |ds| ==> ds[i].DirectoryItem?
    requires forall i :: 0 <= i < |fls| ==> fls[i].FileItem?
    requires forall i, j :: 0 <= i < j < |ds| ==> Below(ds[i].name, ds[j].name)
    requires forall i, j :: 0 <= i < j < |fls| ==> Below(fls[i].name, fls[j].name)
    ensures Arranged(ds + fls)
  {
    var items := ds + fls;
    assert forall i :: 0 <= i < |ds| ==> items[i] == ds[i];
    assert forall i :: |ds| <= i < |items| ==> items[i] == fls[i - |ds|];
  }

  /** Every directory item precedes every file item, and within each group the names strictly ascend. */
  lemma ItemsOrdered(home: string, fs: FileSystem, d: Path)
    ensures Arranged(Items(home, fs, d))
  {
    var ds, fls := Group(home, fs, d, true), Group(home, fs, d, false);
    assert forall i :: 0 <= i < |ds| ==> ds[i].DirectoryItem?;
    assert forall i :: 0 <= i < |fls| ==> fls[i].FileItem?;
    ConcatArranged(ds, fls);
  }

  /** The names of a concatenation are the names of its parts, concatenated. */
  lemma NamesConcat(a: seq<FileSystemItem>, b: seq<FileSystemItem>)
    ensures Names(a + b) == Names(a) + Names(b)
  {
    assert forall i :: 0 <= i < |a| ==> (a + b)[i] == a[i];
    assert forall i :: |a| <= i < |a| + |b| ==> (a + b)[i] == b[i - |a|];
  }

  /** Each immediate child appears in the listing, by name. */
  lemma ItemsComplete(home: string, fs: FileSystem, d: Path, name: string)
    requires d + [name] in fs
    ensures name in Names(Items(home, fs, d))
  {
    NamesConcat(Group(home, fs, d, true), Group(home, fs, d, false));
    GroupComplete(home, fs, d, name);
  }

  /**
   * The parent's path: none at the filesystem root; relative to home when
   * the parent lies within home, and otherwise the parent's full text.
   */
  function ParentPath(home: string, d: Path): (r: Option<string>)
    ensures r.None? <==> d == []
    ensures r.Some? && !IsPathWithinHomeDirectory(home, Render(Parent(d))) ==> r.value == Render(Parent(d))
    ensures r.Some? && IsPathWithinHomeDirectory(home, Render(Parent(d))) ==>
      r.value == GetRelativePath(home, Render(Parent(d)))
  {
    if d == [] then None
    else
      var parent := Render(Parent(d));
      Some(if IsPathWithinHomeDirectory(home, parent) then GetRelativePath(home, parent) else parent)
  }

  /** The result for a directory that cannot be listed. */
  function Unlisted(path: string, message: string): (r: DirectoryDetails)
    ensures r.path == path && !r.existing && r.items == [] && r.errorMessage == Some(message)
    ensures Consistent(r)
  {
    CreateNonExistent(Some(path), Some(message)).value
  }

  /**
   * GetDirectoryInfoAsync: lists the directory the caller's path resolves
   * to. Never fails: access denied and a missing directory are reported in
   * the result, whose path is always the caller's text.
   */
  function GetDirectoryInfo(home: string, fs: FileSystem, path: string): (r: DirectoryDetails)
    ensures r.path == path && Consistent(r)
    ensures r.existing <==> GetFullPath(home, path).Ok? && DirectoryExists(fs, GetFullPath(home, path).value)
    ensures GetFullPath(home, path).Err? ==> r.errorMessage == Some(AccessDenied.message)
    ensures GetFullPath(home, path).Ok? && !r.existing ==> r.errorMessage == Some(DirectoryMissing)
    ensures r.existing ==> var d := Segments(GetFullPath(home, path).value);
      && r.items == Items(home, fs, d)
      && r.parentPath == ParentPath(home, d)
  {
    match GetFullPath(home, path)
    case Err(e) => Unlisted(path, e.message)
    case Ok(fullPath) =>
      if !DirectoryExists(fs, fullPath) then Unlisted(path, DirectoryMissing)
      else
        var d := Segments(fullPath);
        CreateExisting(Some(path), Some(Items(home, fs, d)), ParentPath(home, d)).value
  }

  /**
   * A listing that succeeds holds exactly the immediate children of the
   * directory, directories before files and each group in name order, with
   * counts that add up to the number of items.
   */
  lemma ListingExact(home: string, fs: FileSystem, path: string)
    requires GetDirectoryInfo(home, fs, path).existing
    ensures var r, d := GetDirectoryInfo(home, fs, path), Segments(GetFullPath(home, path).value);
      && Arranged(r.items)
      && (forall n :: n in Names(r.items) <==> d + [n] in fs)
      && r.fileCount + r.directoryCount == |r.items|
  {
    var r, d := GetDirectoryInfo(home, fs, path), Segments(GetFullPath(home, path).value);
    ItemsExact(home, fs, d);
    CountsPartition(r.items);
  }

  /** The items of a directory are its immediate children, arranged. */
  lemma ItemsExact(home: string, fs: FileSystem, d: Path)
    ensures Arranged(Items(home, fs, d))
    ensures forall n :: n in Names(Items(home, fs, d)) <==> d + [n] in fs
  {
    ItemsOrdered(home, fs, d);
    forall n
      ensures n in Names(Items(home, fs, d)) <==> d + [n] in fs
    {
      if d + [n] in fs {
        ItemsComplete(home, fs, d, n);
      }
    }
  }

  /** Listing home itself keeps the parent's full text, since the parent lies outside home. */
  lemma HomeListingParentIsAbsolute(home: string, fs: FileSystem, path: string)
    requires GetFullPath(home, path) == Ok(Normalize(home))
    requires Segments(home) != [] && IsDir(fs, Segments(home))
    ensures GetDirectoryInfo(home, fs, path).parentPath == Some(Render(Parent(Segments(home))))
  {
    var s := Segments(home);
    SegmentsOfRender(s);
    assert Segments(Normalize(home)) == s;
    SegmentsOfRender(Parent(s));
    RenderLonger(s);
  }

  /** Listing a directory directly inside a canonical home gives the parent path "". */
  lemma ChildListingParentIsEmpty(home: string, fs: FileSystem, path: string)
    requires Normalize(home) == home
    requires GetDirectoryInfo(home, fs, path).existing
    requires var d := Segments(GetFullPath(home, path).value); d != [] && Parent(d) == Segments(home)
    ensures GetDirectoryInfo(home, fs, path).parentPath == Some("")
  {
    var d := Segments(GetFullPath(home, path).value);
    assert Render(Parent(d)) == home;
    HomeRelativeToItself(home);
  }

  /** Home is within itself, and relative to itself it is the empty path. */
  lemma HomeRelativeToItself(home: string)
    ensures IsPathWithinHomeDirectory(home, home) && GetRelativePath(home, home) == []
  {
    StartsWithFolds(home, home);
  }
}

=== FILE: navigation.dfy ===
/**
 * The browser's navigation state (NavigationService): the current path,
 * the search query and whether search mode is on, kept in step with the
 * page address's `path` and `search` parameters, plus the two path helpers
 * used for the "up" button and the breadcrumb trail.
 */
module Navigation {
  import opened Wrappers
  import opened Text

  const Slash := '/'

  /** The two parameters of the page address the service reads and writes; an absent one is `None`. */
  datatype Url = Url(path: Option<string>, search: Option<string>)

  datatype NavigationState = NavigationState(currentPath: string, currentSearchQuery: string, isSearchMode: bool, url: Url)

  /** The object `loadFromUrl` hands back to its caller. */
  datatype Location = Location(path: string, search: string, isSearchMode: bool)

  datatype Loaded = Loaded(state: NavigationState, location: Location)

  /** One breadcrumb: a part of the path and the path up to and including it. */
  datatype Crumb = Crumb(name: string, path: string)

  /** The state a page starts in: at home, not searching. */
  function Initial(url: Url): (n: NavigationState)
    ensures n.currentPath == [] && n.currentSearchQuery == [] && !n.isSearchMode && n.url == url
  {
    NavigationState("", "", false, url)
  }

  /** `params.get(name) || ""`: an absent parameter reads as empty. */
  function Param(value: Option<string>): (r: string)
    ensures value.Some? ==> r == value.value
    ensures value.None? ==> r == []
  {
    value.GetOr("")
  }

  /** loadFromUrl: takes path and query from the address; search mode is on exactly when the query is non-empty. */
  function LoadFromUrl(n: NavigationState): (r: Loaded)
    ensures r.state.currentPath == Param(n.url.path) && r.state.currentSearchQuery == Param(n.url.search)
    ensures r.state.isSearchMode <==> r.state.currentSearchQuery != []
    ensures r.state.url == n.url
    ensures r.location == Location(r.state.currentPath, r.state.currentSearchQuery, r.state.isSearchMode)
  {
    var path, search := Param(n.url.path), Param(n.url.search);
    var state := NavigationState(path, search, search != [], n.url);
    Loaded(state, Location(path, search, state.isSearchMode))
  }

  /** One parameter of updateUrl: `None` leaves it, the empty text deletes it, anything else sets it. */
  function UpdateParam(current: Option<string>, value: Option<string>): (r: Option<string>)
    ensures value.None? ==> r == current
    ensures value.Some? ==> Param(r) == value.value && r != Some([])
  {
    match value
    case None => current
    case Some(v) => if v == [] then None else Some(v)
  }

  /** updateUrl: the address with each given parameter written. */
  function UpdateUrl(url: Url, path: Option<string>, search: Option<string>): (r: Url)
    ensures path.Some? ==> Param(r.path) == path.value
    ensures search.Some? ==> Param(r.search) == search.value
    ensures path.None? ==> r.path == url.path
    ensures search.None? ==> r.search == url.search
  {
    Url(UpdateParam(url.path, path), UpdateParam(url.search, search))
  }

  /** navigateToPath: goes to the path and leaves search mode; the query itself is kept. */
  function NavigateToPath(n: NavigationState, path: string): (r: NavigationState)
    ensures r.currentPath == path && !r.isSearchMode && r.currentSearchQuery == n.currentSearchQuery
    ensures Param(r.url.path) == path && r.url.search.None?
  {
    NavigationState(path, n.currentSearchQuery, false, UpdateUrl(n.url, Some(path), Some("")))
  }

  /** setSearchMode: records the query and enters search mode where it is. */
  function SetSearchMode(n: NavigationState, query: string): (r: NavigationState)
    ensures r.currentPath == n.currentPath && r.currentSearchQuery == query && r.isSearchMode
    ensures Param(r.url.path) == n.currentPath && Param(r.url.search) == query
  {
    NavigationState(n.currentPath, query, true, UpdateUrl(n.url, Some(n.currentPath), Some(query)))
  }

  /** clearSearchMode: forgets the query and leaves search mode where it is. */
  function ClearSearchMode(n: NavigationState): (r: NavigationState)
    ensures r.currentPath == n.currentPath && r.currentSearchQuery == [] && !r.isSearchMode
    ensures Param(r.url.path) == n.currentPath && r.url.search.None?
  {
    NavigationState(n.currentPath, "", false, UpdateUrl(n.url, Some(n.currentPath), Some("")))
  }

  /** getShareableUrl: the address with the path and the query written when they are non-empty. */
  function ShareableUrl(n: NavigationState): (r: Url)
    ensures n.currentPath != [] ==> r.path == Some(n.currentPath)
    ensures n.currentSearchQuery != [] ==> r.search == Some(n.currentSearchQuery)
    ensures n.currentPath == [] ==> r.path == n.url.path
    ensures n.currentSearchQuery == [] ==> r.search == n.url.search
  {
    Url(if n.currentPath != [] then Some(n.currentPath) else n.url.path,
        if n.currentSearchQuery != [] then Some(n.currentSearchQuery) else n.url.search)
  }

  /** Whether reloading the page from its address gives back the same path, query and mode. */
  predicate Reloads(n: NavigationState) {
    var m := LoadFromUrl(n).state;
    m.currentPath == n.currentPath && m.currentSearchQuery == n.currentSearchQuery && m.isSearchMode == n.isSearchMode
  }

  /** A state just loaded from the address reloads as itself. */
  lemma LoadThenReload(n: NavigationState)
    ensures Reloads(LoadFromUrl(n).state)
  {
  }

  /** After navigating, a reload lands on the same path outside search mode; it restores the whole state exactly when no query was kept. */
  lemma NavigateThenReload(n: NavigationState, path: string)
    ensures var m := LoadFromUrl(NavigateToPath(n, path)).state;
      m.currentPath == path && !m.isSearchMode && m.currentSearchQuery == []
    ensures Reloads(NavigateToPath(n, path)) <==> n.currentSearchQuery == []
  {
  }

  /** After entering search mode, a reload restores the state exactly when the query is non-empty. */
  lemma SearchThenReload(n: NavigationState, query: string)
    ensures Reloads(SetSearchMode(n, query)) <==> query != []
  {
  }

  /** After leaving search mode, a reload restores the state. */
  lemma ClearThenReload(n: NavigationState)
    ensures Reloads(ClearSearchMode(n))
  {
  }

  /** Opening the shareable address of a reloadable state gives back its path, query and mode. */
  lemma ShareThenOpen(n: NavigationState)
    requires Reloads(n)
    ensures Reloads(NavigationState(n.currentPath, n.currentSearchQuery, n.isSearchMode, ShareableUrl(n)))
  {
  }

  /**
   * After navigating away from a search, the query is kept, so the
   * shareable address still carries it and opening it enters search mode.
   */
  lemma ShareAfterNavigateSearches(n: NavigationState, path: string)
    requires n.currentSearchQuery != []
    ensures var m := NavigateToPath(n, path);
      !m.isSearchMode && LoadFromUrl(NavigationState(m.currentPath, m.currentSearchQuery, m.isSearchMode, ShareableUrl(m))).state.isSearchMode
  {
  }

  /**
   * getParentPath: the path without its last `/`-separated part; the empty
   * path and a path without a separator have the empty parent.
   */
  function GetParentPath(currentPath: string): (r: string)
    ensures Slash !in currentPath ==> r == []
    ensures Slash in currentPath ==> exists last :: Slash !in last && currentPath == r + [Slash] + last
  {
    if currentPath == [] then []
    else
      var parts := Split(currentPath, Slash);
      ParentSplit(currentPath);
      Join(parts[..|parts| - 1], Slash)
  }

  /**
   * A path without a separator is a single part; one holding a separator is
   * the join of all parts but the last, a separator and the last part.
   */
  lemma ParentSplit(currentPath: string)
    ensures var parts := Split(currentPath, Slash);
      && (Slash !in currentPath ==> parts == [currentPath])
      && (Slash in currentPath ==>
            |parts| >= 2 && currentPath == Join(parts[..|parts| - 1], Slash) + [Slash] + parts[|parts| - 1])
  {
    var parts := Split(currentPath, Slash);
    SplitSingle(currentPath, Slash);
    if Slash !in currentPath {
      SplitWithoutSeparator(currentPath, Slash);
    } else {
      JoinSplit(currentPath, Slash);
      JoinLast(parts, Slash);
    }
  }

  /** The parent of `p + "/" + s` is `p` when `s` holds no separator. */
  lemma {:induction false} ParentOfChild(p: string, s: string)
    requires Slash !in s
    ensures GetParentPath(p + [Slash] + s) == p
  {
    var c := p + [Slash] + s;
    assert c[|p|] == Slash;
    SplitConcat(p, s, Slash);
    SplitWithoutSeparator(s, Slash);
    var parts := Split(c, Slash);
    assert parts[..|parts| - 1] == Split(p, Slash);
    JoinSplit(p, Slash);
  }

  /** The non-empty parts, in order (`filter(part => part.length > 0)`). */
  function NonEmptyParts(parts: seq<string>): (r: seq<string>)
    ensures |r| <= |parts|
    ensures forall i :: 0 <= i < |r| ==> r[i] != []
    ensures forall x :: x in r <==> x in parts && x != []
  {
    if parts == [] then []
    else if parts[0] == [] then NonEmptyParts(parts[1..])
    else [parts[0]] + NonEmptyParts(parts[1..])
  }

  /** Parts that are all non-empty are kept as they are. */
  lemma {:induction false} NonEmptyPartsKeepsAll(parts: seq<string>)
    requires forall i :: 0 <= i < |parts| ==> parts[i] != []
    ensures NonEmptyParts(parts) == parts
  {
    if parts != [] {
      NonEmptyPartsKeepsAll(parts[1..]);
    }
  }

  /**
   * getPathSegments: one crumb per non-empty part, in order; the first
   * crumb's path is its name and each later one's is the previous path, a
   * separator and its name, so each crumb's path joins the parts up to it.
   */
  method GetPathSegments(path: string) returns (segments: seq<Crumb>)
    ensures var parts := NonEmptyParts(Split(path, Slash));
      && |segments| == |parts|
      && (forall i :: 0 <= i < |segments| ==> segments[i].name == parts[i])
      && (forall i :: 0 <= i < |segments| ==> segments[i].path == Join(parts[..i + 1], Slash))
    ensures |segments| > 0 ==> segments[0].path == segments[0].name
    ensures forall i :: 0 < i < |segments| ==> segments[i].path == segments[i - 1].path + [Slash] + segments[i].name
  {
    segments := Crumbs(NonEmptyParts(Split(path, Slash)));
  }

  /** The breadcrumb loop over parts that are all non-empty. */
  method Crumbs(parts: seq<string>) returns (segments: seq<Crumb>)
    requires forall i :: 0 <= i < |parts| ==> parts[i] != []
    ensures |segments| == |parts|
    ensures forall i :: 0 <= i < |segments| ==> segments[i] == Crumb(parts[i], Join(parts[..i + 1], Slash))
    ensures |segments| > 0 ==> segments[0].path == segments[0].name
    ensures forall i :: 0 < i < |segments| ==> segments[i].path == segments[i - 1].path + [Slash] + segments[i].name
  {
    segments := [];
    var currentPath := "";
    var i := 0;
    while i < |parts|
      invariant 0 <= i <= |parts| && |segments| == i
      invariant i == 0 ==> currentPath == []
      invariant i > 0 ==> currentPath != [] && currentPath == Join(parts[..i], Slash)
      invariant forall k :: 0 <= k < i ==> segments[k] == Crumb(parts[k], Join(parts[..k + 1], Slash))
    {
      var part := parts[i];
      currentPath := currentPath + (if currentPath != [] then [Slash] else []) + part;
      JoinPrefixStep(parts, i);
      segments := segments + [Crumb(part, currentPath)];
      i := i + 1;
    }
    forall k | 0 <= k < |segments|
      ensures k == 0 ==> segments[k].path == segments[k].name
      ensures k > 0 ==> segments[k].path == segments[k - 1].path + [Slash] + segments[k].name
    {
      JoinPrefixStep(parts, k);
    }
  }

  /** Joining one more part adds a separator and the part, except after nothing. */
  lemma JoinPrefixStep(parts: seq<string>, i: nat)
    requires i < |parts|
    ensures i == 0 ==> Join(parts[..i + 1], Slash) == parts[0]
    ensures i > 0 ==> Join(parts[..i + 1], Slash) == Join(parts[..i], Slash) + [Slash] + parts[i]
  {
    if i > 0 {
      JoinConcat(parts[..i], [parts[i]], Slash);
      assert parts[..i] + [parts[i]] == parts[..i + 1];
    } else {
      assert parts[..1] == [parts[0]];
    }
  }

  /** For a path without empty parts, the parts the breadcrumb trail ends with join back to the path itself. */
  lemma CrumbTrailEndsAtPath(path: string)
    requires forall i :: 0 <= i < |Split(path, Slash)| ==> Split(path, Slash)[i] != []
    ensures Join(NonEmptyParts(Split(path, Slash)), Slash) == path
  {
    NonEmptyPartsKeepsAll(Split(path, Slash));
    JoinSplit(path, Slash);
  }
}

=== FILE: ordering.dfy ===
/**
 * The order in which names and enumerated paths are arranged: ordinal
 * (character code) lexicographic order on strings, and the sorted sequence
 * of a finite set of strings under it.
 */
module Ordering {

  /** `a` sorts strictly before `b`: a proper prefix, or smaller at the first difference. */
  predicate Below(a: string, b: string)
    decreases |a|
  {
    |b| > 0 && (|a| == 0 || a[0] < b[0] || (a[0] == b[0] && Below(a[1..], b[1..])))
  }

  lemma {:induction false} BelowIrreflexive(a: string)
    ensures !Below(a, a)
    decreases |a|
  {
    if |a| > 0 {
      BelowIrreflexive(a[1..]);
    }
  }

  lemma {:induction false} BelowAsymmetric(a: string, b: string)
    ensures Below(a, b) ==> !Below(b, a)
    decreases |a|
  {
    if |a| > 0 && |b| > 0 {
      BelowAsymmetric(a[1..], b[1..]);
    }
  }

  lemma {:induction false} BelowTransitive(a: string, b: string, c: string)
    requires Below(a, b) && Below(b, c)
    ensures Below(a, c)
    decreases |a|
  {
    if |a| > 0 && a[0] == b[0] && b[0] == c[0] {
      BelowTransitive(a[1..], b[1..], c[1..]);
    }
  }

  lemma {:induction false} BelowTotal(a: string, b: string)
    requires a != b
    ensures Below(a, b) || Below(b, a)
    decreases |a|
  {
    if |a| > 0 && |b| > 0 && a[0] == b[0] {
      assert a == [a[0]] + a[1..] && b == [b[0]] + b[1..];
      BelowTotal(a[1..], b[1..]);
    }
  }

  /** `m` sorts before every other element of `s`. */
  predicate IsLeast(m: string, s: set<string>) {
    m in s && forall x :: x in s && x != m ==> Below(m, x)
  }

  lemma {:induction false} LeastExists(s: set<string>)
    requires s != {}
    ensures exists m :: IsLeast(m, s)
    decreases |s|
  {
    var x :| x in s;
    if s - {x} == {} {
      assert s == {x};
      assert IsLeast(x, s);
    } else {
      LeastExists(s - {x});
      var m :| IsLeast(m, s - {x});
      if Below(x, m) {
        forall y | y in s && y != x
          ensures Below(x, y)
        {
          if y != m {
            BelowTransitive(x, m, y);
          }
        }
        assert IsLeast(x, s);
      } else {
        BelowTotal(x, m);
        assert IsLeast(m, s);
      }
    }
  }

  lemma LeastUnique(m: string, n: string, s: set<string>)
    requires IsLeast(m, s) && IsLeast(n, s)
    ensures m == n
  {
    if m != n {
      BelowAsymmetric(m, n);
    }
  }

  lemma LeastUniqueAll(s: set<string>)
    ensures forall m, n :: IsLeast(m, s) && IsLeast(n, s) ==> m == n
  {
    forall m, n | IsLeast(m, s) && IsLeast(n, s)
      ensures m == n
    {
      LeastUnique(m, n, s);
    }
  }

  /** The element of a non-empty set that sorts first. */
  function Least(s: set<string>): (m: string)
    requires s != {}
    ensures m in s
    ensures forall x :: x in s && x != m ==> Below(m, x)
  {
    LeastExists(s);
    LeastUniqueAll(s);
    var m :| IsLeast(m, s);
    m
  }

  /** The strictly increasing sequence holding exactly the elements of `s`. */
  function Sorted(s: set<string>): (r: seq<string>)
    ensures |r| == |s|
    ensures forall i :: 0 <= i < |r| ==> r[i] in s
    ensures forall x :: x in s ==> x in r
    ensures forall i, j :: 0 <= i < j < |r| ==> Below(r[i], r[j])
    decreases |s|
  {
    if s == {} then []
    else
      var m := Least(s);
      var rest := Sorted(s - {m});
      assert forall i :: 0 <= i < |rest| ==> Below(m, rest[i]);
      [m] + rest
  }

  /** A strictly increasing sequence has no repeated element. */
  lemma IncreasingDistinct(r: seq<string>, i: int, j: int)
    requires forall a, b :: 0 <= a < b < |r| ==> Below(r[a], r[b])
    requires 0 <= i < |r| && 0 <= j < |r| && i != j
    ensures r[i] != r[j]
  {
    if i < j {
      BelowIrreflexive(r[i]);
    } else {
      BelowIrreflexive(r[j]);
    }
  }
}

=== FILE: paths.dfy ===
/**
 * Path text on a Unix-style platform (separator '/') and its canonical form.
 *
 * `Path.Combine`, `Path.GetFullPath`, `Path.GetFileName`,
 * `Path.GetExtension` and `Path.GetDirectoryName` are modelled here.
 * `GetFullPath` is lexical: the text is split on '/', empty and "." parts
 * are dropped and ".." removes the previous segment (never going above the
 * root). The canonical result is kept as its list of segments, a `Path`,
 * and rendered back to text by `Render`.
 */
module Paths {
  import opened Text

  const Separator: char := '/'

  /** A canonical absolute path as its list of segments; [] is the root "/". */
  type Path = seq<string>

  predicate IsRooted(p: string) {
    |p| > 0 && p[0] == Separator
  }

  /** A segment of a canonical path: non-empty, not "." or "..", no separator. */
  predicate ValidSegment(s: string) {
    s != [] && s != "." && s != ".." && Separator !in s
  }

  predicate ValidPath(p: Path) {
    forall i :: 0 <= i < |p| ==> ValidSegment(p[i])
  }

  /** `p` lies at or below `root` in the tree of segments. */
  predicate Under(root: Path, p: Path) {
    |root| <= |p| && p[..|root|] == root
  }

  /** Path.Combine(a, b): a rooted or empty-based `b` replaces `a`; otherwise joined by one separator. */
  function Combine(a: string, b: string): (r: string)
    ensures b == [] ==> r == a
    ensures IsRooted(b) || a == [] ==> r == b
    ensures b != [] && !IsRooted(b) && a != [] ==> StartsWith(r, a) && |r| > |a|
  {
    if b == [] then a
    else if IsRooted(b) || a == [] then b
    else if a[|a| - 1] == Separator then a + b
    else a + [Separator] + b
  }

  /** Applies one part of a path text to the directory reached so far. */
  function Step(at: Path, part: string): Path {
    if part == [] || part == "." then at
    else if part == ".." then (if at == [] then [] else at[..|at| - 1])
    else at + [part]
  }

  /** Applies the parts of a path text left to right, starting at `at`. */
  function Walk(at: Path, parts: seq<string>): (r: Path)
    requires ValidPath(at)
    requires forall i :: 0 <= i < |parts| ==> Separator !in parts[i]
    ensures ValidPath(r)
    decreases |parts|
  {
    if parts == [] then at else Walk(Step(at, parts[0]), parts[1..])
  }

  /** The canonical segments of a path text, read as rooted. */
  function Segments(p: string): (r: Path)
    ensures ValidPath(r)
  {
    Walk([], Split(p, Separator))
  }

  /** The text of a canonical path: "/" followed by the segments joined by "/". */
  function Render(p: Path): (r: string)
    ensures IsRooted(r)
  {
    [Separator] + Join(p, Separator)
  }

  /** Path.GetFullPath: the canonical text of a path text. */
  function Normalize(p: string): string {
    Render(Segments(p))
  }

  /** Path.GetFileName: the text after the last separator. */
  function FileName(p: string): (r: string)
    ensures Separator !in r
  {
    var parts := Split(p, Separator);
    parts[|parts| - 1]
  }

  /**
   * Path.GetExtension: from the last '.' of the file name to its end,
   * empty when the name has no '.' or ends with one.
   */
  function Extension(p: string): (e: string)
    ensures e == [] || (|e| >= 2 && e[0] == '.' && '.' !in e[1..])
    ensures Separator !in e
  {
    var parts := Split(FileName(p), '.');
    SplitKeepsOut(FileName(p), '.', Separator);
    var last := parts[|parts| - 1];
    if |parts| == 1 || last == [] then [] else ['.'] + last
  }

  /**
   * FileSystemInfo.Extension: from the last '.' of the file name to its
   * end, empty when the name has no '.'. Unlike Path.GetExtension, a name
   * ending with '.' has "." as its extension.
   */
  function FileInfoExtension(p: string): (e: string)
    ensures e != [] <==> '.' in FileName(p)
    ensures e != [] ==>
      && e[0] == '.' && '.' !in e[1..]
      && |e| <= |FileName(p)| && FileName(p)[|FileName(p)| - |e|..] == e
  {
    var name := FileName(p);
    var parts := Split(name, '.');
    SplitSingle(name, '.');
    if |parts| == 1 then []
    else
      JoinSplit(name, '.');
      JoinLast(parts, '.');
      ['.'] + parts[|parts| - 1]
  }

  /** Path.GetExtension agrees with FileSystemInfo.Extension except on a name ending with '.'. */
  lemma ExtensionOfFileInfo(p: string)
    ensures Extension(p) == (if FileInfoExtension(p) == "." then "" else FileInfoExtension(p))
  {
    var parts := Split(FileName(p), '.');
    if |parts| > 1 {
      assert FileInfoExtension(p) == ['.'] + parts[|parts| - 1];
    }
  }

  /** "notes." has the extension "." as a file's property, but none as Path.GetExtension reads it. */
  lemma TrailingDotExtension()
    ensures FileInfoExtension("notes.") == "."
    ensures Extension("notes.") == ""
  {
    var name := "notes.";
    SplitWithoutSeparator(name, Separator);
    assert FileName(name) == name;
    assert name[5] == '.';
    var e := FileInfoExtension(name);
    assert e[|e| - 1] == name[5];
    assert |e| == 1;
    ExtensionOfFileInfo(name);
  }

  /** Re-brackets a four-part concatenation (kept apart so the solver sees no recursive definitions). */
  lemma Regroup(a: string, b: string, c: string, d: string)
    ensures a + (b + c + d) == (a + b) + c + d
  {
  }

  /** Walking a concatenation is walking the first part, then the second. */
  lemma {:induction false} WalkConcat(at: Path, a: seq<string>, b: seq<string>)
    requires ValidPath(at)
    requires forall i :: 0 <= i < |a| ==> Separator !in a[i]
    requires forall i :: 0 <= i < |b| ==> Separator !in b[i]
    ensures Walk(at, a + b) == Walk(Walk(at, a), b)
    decreases |a|
  {
    if a == [] {
      assert a + b == b;
    } else {
      assert (a + b)[0] == a[0];
      assert (a + b)[1..] == a[1..] + b;
      WalkConcat(Step(at, a[0]), a[1..], b);
    }
  }

  /** Without ".." parts, walking from `at` only appends to `at`. */
  lemma {:induction false} WalkDescends(at: Path, parts: seq<string>)
    requires ValidPath(at)
    requires forall i :: 0 <= i < |parts| ==> Separator !in parts[i] && parts[i] != ".."
    ensures Walk(at, parts) == at + Walk([], parts)
    decreases |parts|
  {
    if parts != [] {
      var first, rest := Step([], parts[0]), parts[1..];
      StepDescends(at, parts[0]);
      assert forall i :: 0 <= i < |rest| ==> Separator !in rest[i] && rest[i] != ".." by {
        forall i | 0 <= i < |rest| ensures Separator !in rest[i] && rest[i] != ".." {
          assert rest[i] == parts[i + 1];
        }
      }
      var w := Walk([], rest);
      WalkDescends(at + first, rest);
      WalkDescends(first, rest);
      calc {
        Walk(at, parts);
        Walk(at + first, rest);
        (at + first) + w;
        { assert (at + first) + w == at + (first + w); }
        at + (first + w);
        at + Walk(first, rest);
        at + Walk([], parts);
      }
    }
  }

  /** A part other than ".." steps from `at` exactly as it steps from the root, after `at`. */
  lemma StepDescends(at: Path, part: string)
    requires ValidPath(at) && Separator !in part && part != ".."
    ensures Step(at, part) == at + Step([], part)
    ensures ValidPath(Step([], part))
  {
  }

  /** Walking valid segments appends them unchanged. */
  lemma {:induction false} WalkValid(at: Path, p: Path)
    requires ValidPath(at) && ValidPath(p)
    ensures Walk(at, p) == at + p
    decreases |p|
  {
    if p != [] {
      WalkValid(at + [p[0]], p[1..]);
      assert at + [p[0]] + p[1..] == at + p;
    }
  }

  /** The segments of a rendered canonical path are that path. */
  lemma SegmentsOfRender(p: Path)
    requires ValidPath(p)
    ensures Segments(Render(p)) == p
  {
    var j := Join(p, Separator);
    assert Render(p) == [] + [Separator] + j;
    SplitConcat([], j, Separator);
    if p == [] {
      assert Split(Render(p), Separator) == [[], []];
      assert Walk([], [[], []]) == Walk([], [[]]) == Walk([], []) == [];
    } else {
      SplitJoin(p, Separator);
      assert Split(Render(p), Separator) == [[]] + p;
      WalkValid([], p);
    }
  }

  /** GetFullPath is idempotent: canonical text is its own canonical form. */
  lemma NormalizeIdempotent(s: string)
    ensures Normalize(Normalize(s)) == Normalize(s)
  {
    SegmentsOfRender(Segments(s));
  }

  /** Distinct canonical paths render to distinct texts. */
  lemma RenderInjective(p: Path, q: Path)
    requires ValidPath(p) && ValidPath(q)
    requires Render(p) == Render(q)
    ensures p == q
  {
    SegmentsOfRender(p);
    SegmentsOfRender(q);
  }

  /** Combining a relative text continues the walk from the base's canonical form. */
  lemma SegmentsCombine(a: string, b: string)
    requires !IsRooted(b)
    ensures Segments(Combine(a, b)) == Walk(Segments(a), Split(b, Separator))
  {
    if b == [] {
      assert Split(b, Separator) == [[]];
    } else if a == [] {
      assert Split(a, Separator) == [[]];
      assert Walk([], [[]]) == Walk([], []) == [];
    } else if a[|a| - 1] == Separator {
      var a' := a[..|a| - 1];
      assert a == a' + [Separator] + [];
      assert Combine(a, b) == a' + [Separator] + b;
      SplitConcat(a', [], Separator);
      SplitConcat(a', b, Separator);
      WalkConcat([], Split(a', Separator), [[]]);
      WalkConcat([], Split(a', Separator), Split(b, Separator));
    } else {
      SplitConcat(a, b, Separator);
      WalkConcat([], Split(a, Separator), Split(b, Separator));
    }
  }

  /** The text of a path below a non-root `p` extends the text of `p` by a separator. */
  lemma RenderExtends(p: Path, q: Path)
    requires |p| >= 1 && |q| >= 1
    ensures Render(p + q) == Render(p) + [Separator] + Join(q, Separator)
  {
    var pq := p + q;
    var jp, jq, jpq := Join(p, Separator), Join(q, Separator), Join(pq, Separator);
    JoinConcat(p, q, Separator);
    assert jpq == jp + [Separator] + jq;
    assert Render(pq) == [Separator] + jpq;
    assert Render(p) == [Separator] + jp;
    Regroup([Separator], jp, [Separator], jq);
  }

  /** A path's text is a prefix of the text of any path below it. */
  lemma RenderPrefix(p: Path, q: Path)
    ensures StartsWith(Render(p + q), Render(p))
  {
    if q == [] {
      assert p + q == p;
    } else if p == [] {
      assert p + q == q;
    } else {
      RenderExtends(p, q);
    }
  }

  /** A path's text is strictly shorter than the text of any path strictly below it. */
  lemma RenderGrows(p: Path, q: Path)
    requires ValidPath(q) && q != []
    ensures |Render(p)| < |Render(p + q)|
  {
    if p == [] {
      assert p + q == q;
      RenderEnds(q);
    } else {
      RenderExtends(p, q);
    }
  }

  /** A path's text is strictly longer than its parent's. */
  lemma RenderLonger(p: Path)
    requires ValidPath(p) && p != []
    ensures |Render(p[..|p| - 1])| < |Render(p)|
  {
    var parent := p[..|p| - 1];
    assert parent + [p[|p| - 1]] == p;
    if parent != [] {
      RenderExtends(parent, [p[|p| - 1]]);
    }
  }

  /** The text of a non-root canonical path neither ends with a separator nor has its join begin with one. */
  lemma RenderEnds(p: Path)
    requires ValidPath(p) && p != []
    ensures var j := Join(p, Separator); j != [] && j[0] != Separator && !IsRooted(j)
    ensures Render(p)[|Render(p)| - 1] != Separator
  {
    JoinEnds(p, Separator);
    var j := Join(p, Separator);
    var l := p[|p| - 1];
    assert j[0] == p[0][0];
    assert j[|j| - 1] == l[|l| - 1];
    assert Render(p)[|Render(p)| - 1] == j[|j| - 1];
  }

  /** The file name of "dir/name" is `name` when `name` holds no separator. */
  lemma FileNameOfChild(dir: string, name: string)
    requires Separator !in name
    ensures FileName(dir + [Separator] + name) == name
  {
    SplitConcat(dir, name, Separator);
    SplitWithoutSeparator(name, Separator);
  }
}

=== FILE: repository.dfy ===
/**
 * The repository's operations on the store (FileSystemRepository): the
 * existence queries, reading, uploading, creating directories, moving and
 * deleting. Every path is resolved through the sandbox first, so a path
 * outside home fails with access denied before anything is looked at or
 * changed. Each operation returns its result together with the new store.
 */
module Repository {
  import opened Wrappers
  import opened Exceptions
  import opened Paths
  import opened FileSystemItem
  import opened FileStore
  import opened Sandbox

  /** The outcome of an operation and the store after it. */
  datatype Effect<+T> = Effect(result: Result<T, Exception>, fs: FileSystem)

  /** The platform's refusal to open a directory as a file. */
  function PathDenied(fullPath: string): (e: Exception)
    ensures e.kind == UnauthorizedAccess
  {
    Exception(UnauthorizedAccess, "Access to the path '" + fullPath + "' is denied.")
  }

  /** FileExistsAsync: whether the resolved path is a file. */
  function FileExistsAt(home: string, fs: FileSystem, filePath: string): (r: Result<bool, Exception>)
    ensures r.Err? <==> GetFullPath(home, filePath).Err?
    ensures r.Err? ==> r.error == AccessDenied
    ensures r.Ok? ==> (r.value <==> IsFile(fs, Segments(GetFullPath(home, filePath).value)))
  {
    match GetFullPath(home, filePath)
    case Err(e) => Err(e)
    case Ok(fullPath) => Ok(FileExists(fs, fullPath))
  }

  /** DirectoryExistsAsync: whether the resolved path is a directory. */
  function DirectoryExistsAt(home: string, fs: FileSystem, directoryPath: string): (r: Result<bool, Exception>)
    ensures r.Err? <==> GetFullPath(home, directoryPath).Err?
    ensures r.Err? ==> r.error == AccessDenied
    ensures r.Ok? ==> (r.value <==> IsDir(fs, Segments(GetFullPath(home, directoryPath).value)))
  {
    match GetFullPath(home, directoryPath)
    case Err(e) => Err(e)
    case Ok(fullPath) => Ok(DirectoryExists(fs, fullPath))
  }

  /** GetFileStreamAsync: the content of the file at the resolved path; not found unless it is a file. */
  function GetFileStream(home: string, fs: FileSystem, filePath: string): (r: Result<string, Exception>)
    ensures GetFullPath(home, filePath).Err? ==> r == Err(AccessDenied)
    ensures GetFullPath(home, filePath).Ok? ==> var q := Segments(GetFullPath(home, filePath).value);
      && (r.Ok? <==> IsFile(fs, q))
      && (r.Ok? ==> r.value == fs[q].content)
      && (r.Err? ==> r.error == Exception(FileNotFound, "File not found: " + filePath))
  {
    match GetFullPath(home, filePath)
    case Err(e) => Err(e)
    case Ok(fullPath) =>
      if !FileExists(fs, fullPath) then Err(Exception(FileNotFound, "File not found: " + filePath))
      else Ok(fs[Segments(fullPath)].content)
  }

  /**
   * The store with the directory holding `q` made to exist (the
   * GetDirectoryName / Directory.Exists / Directory.CreateDirectory steps);
   * nothing to do at the root, whose directory name is null.
   */
  function EnsureParent(fs: FileSystem, q: Path, now: Timestamp): (r: Result<FileSystem, Exception>)
    requires WellFormed(fs) && ValidPath(q)
    ensures r.Err? ==> r.error == IOFailure
    ensures r.Ok? <==> q == [] || forall p :: Under(p, Parent(q)) ==> !IsFile(fs, p)
    ensures r.Ok? ==> WellFormed(r.value)
    ensures r.Ok? && q != [] ==> IsDir(r.value, Parent(q))
    ensures r.Ok? ==> forall p :: p in fs ==> p in r.value && r.value[p] == fs[p]
    ensures r.Ok? ==> forall p :: p in r.value && p !in fs ==> q != [] && Under(p, Parent(q)) && r.value[p] == Dir(now)
  {
    if q == [] then Ok(fs)
    else if IsDir(fs, Parent(q)) then
      DirectoryAncestors(fs, Parent(q));
      Ok(fs)
    else
      assert ValidPath(Parent(q)) by {
        assert forall i :: 0 <= i < |Parent(q)| ==> Parent(q)[i] == q[i];
      }
      assert Parent(q)[..|Parent(q)|] == Parent(q);
      CreateDirectories(fs, Parent(q), now)
  }

  /**
   * UploadFileAsync: creates the missing directories above the resolved
   * path, then creates or overwrites the file there with the uploaded text.
   */
  function Upload(home: string, fs: FileSystem, filePath: string, data: string, now: Timestamp): (e: Effect<()>)
    requires WellFormed(fs)
    ensures WellFormed(e.fs)
    ensures GetFullPath(home, filePath).Err? ==> e == Effect(Err(AccessDenied), fs)
    ensures e.result.Ok? ==> var q := Segments(GetFullPath(home, filePath).value);
      && q in e.fs && e.fs[q] == File(data, now)
      && (forall p :: Under(p, q) && p != q ==> IsDir(e.fs, p))
      && (forall p :: p in fs && p != q ==> p in e.fs && e.fs[p] == fs[p])
    ensures e.result.Err? ==> e.fs == fs
    ensures GetFullPath(home, filePath).Ok? ==> var q := Segments(GetFullPath(home, filePath).value);
      && (e.result.Ok? <==> q != [] && !IsDir(fs, q) && forall p :: Under(p, Parent(q)) ==> !IsFile(fs, p))
      && (q != [] && !IsDir(fs, q) && !(forall p :: Under(p, Parent(q)) ==> !IsFile(fs, p)) ==> e.result == Err(IOFailure))
      && (q == [] || IsDir(fs, q) ==> e.result == Err(PathDenied(GetFullPath(home, filePath).value)))
  {
    match GetFullPath(home, filePath)
    case Err(err) => Effect(Err(err), fs)
    case Ok(fullPath) =>
      var q := Segments(fullPath);
      match EnsureParent(fs, q, now)
      case Err(err) => Effect(Err(err), fs)
      case Ok(fs1) =>
        if q == [] || IsDir(fs1, q) then
          UploadOntoDirectory(fs, fs1, q, now);
          Effect(Err(PathDenied(fullPath)), fs1)
        else
          assert !IsDir(fs, q);
          UploadKeepsTree(fs1, q, data, now);
          Effect(Ok(()), fs1[q := File(data, now)])
  }

  /**
   * When the target is the root or a directory, making its parent exist
   * changed nothing, so the refused upload leaves the store as it was.
   */
  lemma UploadOntoDirectory(fs: FileSystem, fs1: FileSystem, q: Path, now: Timestamp)
    requires WellFormed(fs) && ValidPath(q) && EnsureParent(fs, q, now) == Ok(fs1)
    requires q == [] || IsDir(fs1, q)
    ensures fs1 == fs && (q == [] || IsDir(fs, q))
  {
    if q != [] {
      assert !Under(q, Parent(q));
      assert IsDir(fs, q);
      assert IsDir(fs, Parent(q));
    }
  }

  /** Uploading over an existing file succeeds and replaces its content with the uploaded text. */
  lemma UploadOverwritesFile(home: string, fs: FileSystem, filePath: string, data: string, now: Timestamp)
    requires WellFormed(fs) && FileExistsAt(home, fs, filePath) == Ok(true)
    ensures var e := Upload(home, fs, filePath, data, now);
      && e.result.Ok?
      && GetFileStream(home, e.fs, filePath) == Ok(data)
  {
    var q := Segments(GetFullPath(home, filePath).value);
    assert q != [] && IsDir(fs, Parent(q));
    DirectoryAncestors(fs, Parent(q));
    UploadThenRead(home, fs, filePath, data, now);
  }

  /**
   * Writing a file whose parent is a directory keeps the store a tree,
   * leaves every other entry alone and has only directories above the file.
   */
  lemma UploadKeepsTree(fs: FileSystem, q: Path, data: string, now: Timestamp)
    requires WellFormed(fs) && ValidPath(q) && q != [] && IsDir(fs, Parent(q)) && !IsDir(fs, q)
    ensures var r := fs[q := File(data, now)];
      && WellFormed(r)
      && (forall p :: Under(p, q) && p != q ==> IsDir(r, p))
      && (forall p :: p in fs && p != q ==> p in r && r[p] == fs[p])
  {
    var r := fs[q := File(data, now)];
    forall p | p in r && p != []
      ensures IsDir(r, Parent(p))
    {
      if p != q {
        assert IsDir(fs, Parent(p));
      }
    }
    DirectoryAncestors(fs, Parent(q));
    forall p | Under(p, q) && p != q
      ensures IsDir(r, p)
    {
      assert Under(p, Parent(q));
    }
  }

  /**
   * CreateDirectoryAsync: fails if the resolved directory already exists;
   * otherwise creates it and any missing ancestors.
   */
  function CreateDirectory(home: string, fs: FileSystem, directoryPath: string, now: Timestamp): (e: Effect<()>)
    requires WellFormed(fs)
    ensures WellFormed(e.fs)
    ensures e.result.Err? ==> e.fs == fs
    ensures GetFullPath(home, directoryPath).Err? ==> e.result == Err(AccessDenied)
    ensures GetFullPath(home, directoryPath).Ok? ==> var q := Segments(GetFullPath(home, directoryPath).value);
      && (IsDir(fs, q) <==> e.result == Err(Exception(InvalidOperation, "Directory already exists: " + directoryPath)))
      && (e.result.Ok? <==> !IsDir(fs, q) && forall p :: Under(p, q) ==> !IsFile(fs, p))
      && (e.result.Ok? ==> IsDir(e.fs, q))
      && (e.result.Ok? ==> forall p :: p in fs ==> p in e.fs && e.fs[p] == fs[p])
      && (e.result.Ok? ==> forall p :: p in e.fs && p !in fs ==> Under(p, q) && e.fs[p] == Dir(now))
  {
    match GetFullPath(home, directoryPath)
    case Err(err) => Effect(Err(err), fs)
    case Ok(fullPath) =>
      if DirectoryExists(fs, fullPath) then
        Effect(Err(Exception(InvalidOperation, "Directory already exists: " + directoryPath)), fs)
      else
        match CreateDirectories(fs, Segments(fullPath), now)
        case Err(err) => Effect(Err(err), fs)
        case Ok(fs1) => Effect(Ok(()), fs1)
  }

  /** The error for a move whose source is missing. */
  function SourceMissing(sourcePath: string): Exception {
    Exception(FileNotFound, "Source path does not exist: " + sourcePath)
  }

  /** The error for a move whose destination is taken. */
  function DestinationTaken(destinationPath: string): Exception {
    Exception(InvalidOperation, "Destination path already exists: " + destinationPath)
  }

  /**
   * MoveAsync: resolves the source, then the destination; fails if the
   * source is missing or the destination exists; creates the destination's
   * directory if needed; then moves the file, or the directory with
   * everything below it. Moving a directory into itself fails after the
   * destination's directory has been created.
   */
  function Move(home: string, fs: FileSystem, sourcePath: string, destinationPath: string, now: Timestamp)
    : (e: Effect<()>)
    requires WellFormed(fs)
    ensures WellFormed(e.fs)
    ensures GetFullPath(home, sourcePath).Err? || GetFullPath(home, destinationPath).Err? ==>
      e == Effect(Err(AccessDenied), fs)
    ensures GetFullPath(home, sourcePath).Ok? && GetFullPath(home, destinationPath).Ok? ==>
      var s, t := Segments(GetFullPath(home, sourcePath).value), Segments(GetFullPath(home, destinationPath).value);
      && (s !in fs ==> e == Effect(Err(SourceMissing(sourcePath)), fs))
      && (s in fs && t in fs ==> e == Effect(Err(DestinationTaken(destinationPath)), fs))
      && (e.result.Ok? ==> s in fs && t !in fs && !Under(s, t) && MovedTo(fs, e.fs, s, t))
  {
    match GetFullPath(home, sourcePath)
    case Err(err) => Effect(Err(err), fs)
    case Ok(fullSource) =>
      match GetFullPath(home, destinationPath)
      case Err(err) => Effect(Err(err), fs)
      case Ok(fullDestination) =>
        var s, t := Segments(fullSource), Segments(fullDestination);
        if !FileExists(fs, fullSource) && !DirectoryExists(fs, fullSource) then
          Effect(Err(SourceMissing(sourcePath)), fs)
        else if FileExists(fs, fullDestination) || DirectoryExists(fs, fullDestination) then
          Effect(Err(DestinationTaken(destinationPath)), fs)
        else
          MoveEntries(fs, s, t, now)
  }

  /**
   * The part of a move after its checks: make the destination's directory
   * exist, then move the file or the directory with everything below it.
   * Moving a directory into itself fails after the destination's directory
   * has been created.
   */
  function MoveEntries(fs: FileSystem, s: Path, t: Path, now: Timestamp): (e: Effect<()>)
    requires WellFormed(fs) && s in fs && t !in fs && ValidPath(t)
    ensures WellFormed(e.fs)
    ensures e.result.Err? ==> e.result.error == IOFailure
    ensures e.result.Ok? <==> t != [] && !Under(s, t) && forall p :: Under(p, Parent(t)) ==> !IsFile(fs, p)
    ensures e.result.Ok? ==> MovedTo(fs, e.fs, s, t)
  {
    match EnsureParent(fs, t, now)
    case Err(err) => Effect(Err(err), fs)
    case Ok(fs1) =>
      if t == [] || Under(s, t) then Effect(Err(IOFailure), fs1)
      else
        var r := MoveTree(fs1, s, t);
        MoveOutcome(fs, fs1, r, s, t, now);
        Effect(Ok(()), r)
  }

  /**
   * After a successful move: the source is gone, the destination holds
   * exactly what the source held (each `s + x` is now at `t + x`, and
   * nothing else is below `t`), the destination's directory exists, every
   * entry outside both subtrees is kept, and the only other new entries are
   * directories above the destination.
   */
  ghost predicate MovedTo(before: FileSystem, after: FileSystem, s: Path, t: Path) {
    && s in before && s !in after && t != [] && t in after && after[t] == before[s]
    && IsDir(after, Parent(t))
    && (forall x :: s + x in before ==> t + x in after && after[t + x] == before[s + x])
    && (forall x :: t + x in after ==> s + x in before)
    && (forall p :: p in before && !Under(s, p) ==> p in after && after[p] == before[p])
    && (forall p :: p in after && !Under(t, p) ==>
          (p in before && !Under(s, p)) || (Under(p, Parent(t)) && after[p].Dir?))
  }

  lemma MoveOutcome(fs: FileSystem, fs1: FileSystem, r: FileSystem, s: Path, t: Path, now: Timestamp)
    requires WellFormed(fs) && WellFormed(fs1) && CanMove(fs1, s, t)
    requires s in fs && t != []
    requires forall p :: p in fs ==> p in fs1 && fs1[p] == fs[p]
    requires forall p :: p in fs1 && p !in fs ==> Under(p, Parent(t)) && fs1[p] == Dir(now)
    requires r == MoveTree(fs1, s, t)
    ensures MovedTo(fs, r, s, t)
  {
    assert Parent(t) in fs1;
    forall x | s + x in fs
      ensures t + x in r && r[t + x] == fs[s + x]
    {
      assert s + x in fs1;
    }
    forall p | p in fs && !Under(s, p)
      ensures p in r && r[p] == fs[p]
    {
      assert p in fs1;
    }
    MoveAddsNothing(fs, fs1, r, s, t, now);
  }

  /** Whatever lies above the parent of `t` and extends `s` has `t` below `s`. */
  lemma ExtensionAboveParent(s: Path, x: Path, t: Path)
    requires t != []
    ensures Under(s + x, Parent(t)) ==> Under(s, t)
  {
    if Under(s + x, Parent(t)) {
      assert forall i :: 0 <= i < |s| ==> t[i] == Parent(t)[i] == (s + x)[i] == s[i];
    }
  }

  /** A move adds nothing but the moved entries and the directories made above the destination. */
  lemma MoveAddsNothing(fs: FileSystem, fs1: FileSystem, r: FileSystem, s: Path, t: Path, now: Timestamp)
    requires WellFormed(fs1) && CanMove(fs1, s, t)
    requires forall p :: p in fs ==> p in fs1 && fs1[p] == fs[p]
    requires forall p :: p in fs1 && p !in fs ==> Under(p, Parent(t)) && fs1[p] == Dir(now)
    requires r == MoveTree(fs1, s, t)
    ensures forall x :: t + x in r ==> s + x in fs
    ensures forall p :: p in r && !Under(t, p) ==> (p in fs && !Under(s, p)) || (Under(p, Parent(t)) && r[p].Dir?)
  {
    forall x | t + x in r
      ensures s + x in fs
    {
      assert s + x in fs1;
      ExtensionAboveParent(s, x, t);
    }
    forall p | p in r && !Under(t, p)
      ensures (p in fs && !Under(s, p)) || (Under(p, Parent(t)) && r[p].Dir?)
    {
      assert p in fs1 && r[p] == fs1[p];
    }
  }

  /**
   * Delete (declared by the repository interface; its behaviour is the one
   * the repository's tests expect): removes the file, or the directory and
   * everything below it; a missing path is not found.
   */
  function Delete(home: string, fs: FileSystem, path: string): (e: Effect<()>)
    requires WellFormed(fs)
    ensures WellFormed(e.fs)
    ensures e.result.Err? ==> e.fs == fs
    ensures GetFullPath(home, path).Err? ==> e.result == Err(AccessDenied)
    ensures GetFullPath(home, path).Ok? ==> var q := Segments(GetFullPath(home, path).value);
      && (e.result.Ok? <==> q in fs)
      && (e.result.Err? ==> e.result.error.kind == FileNotFound)
      && (e.result.Ok? ==> forall p :: p in e.fs <==> p in fs && !Under(q, p))
      && (e.result.Ok? ==> forall p :: p in e.fs ==> e.fs[p] == fs[p])
  {
    match GetFullPath(home, path)
    case Err(err) => Effect(Err(err), fs)
    case Ok(fullPath) =>
      if !FileExists(fs, fullPath) && !DirectoryExists(fs, fullPath) then
        Effect(Err(Exception(FileNotFound, "Path does not exist: " + path)), fs)
      else
        Effect(Ok(()), RemoveTree(fs, Segments(fullPath)))
  }

  /** After a successful upload the path reads back as a file holding the uploaded text. */
  lemma UploadThenRead(home: string, fs: FileSystem, filePath: string, data: string, now: Timestamp)
    requires WellFormed(fs) && Upload(home, fs, filePath, data, now).result.Ok?
    ensures var after := Upload(home, fs, filePath, data, now).fs;
      && FileExistsAt(home, after, filePath) == Ok(true)
      && DirectoryExistsAt(home, after, filePath) == Ok(false)
      && GetFileStream(home, after, filePath) == Ok(data)
  {
  }

  /** After a successful creation the directory exists, and creating it again fails. */
  lemma CreateDirectoryThenExists(home: string, fs: FileSystem, directoryPath: string, now: Timestamp, later: Timestamp)
    requires WellFormed(fs) && CreateDirectory(home, fs, directoryPath, now).result.Ok?
    ensures var after := CreateDirectory(home, fs, directoryPath, now).fs;
      && DirectoryExistsAt(home, after, directoryPath) == Ok(true)
      && CreateDirectory(home, after, directoryPath, later)
         == Effect(Err(Exception(InvalidOperation, "Directory already exists: " + directoryPath)), after)
  {
  }

  /** After a successful deletion the path is neither a file nor a directory, and deleting it again fails. */
  lemma DeleteThenGone(home: string, fs: FileSystem, path: string)
    requires WellFormed(fs) && Delete(home, fs, path).result.Ok?
    ensures var after := Delete(home, fs, path).fs;
      && FileExistsAt(home, after, path) == Ok(false)
      && DirectoryExistsAt(home, after, path) == Ok(false)
      && Delete(home, after, path).result.Err?
  {
  }

  /**
   * Moving the entries back undoes a move: it succeeds, and the store it
   * leaves differs from the original only by the directories the first move
   * created above its destination.
   */
  lemma MoveEntriesBack(fs: FileSystem, s: Path, t: Path, now: Timestamp, later: Timestamp)
    requires WellFormed(fs) && s in fs && t !in fs && ValidPath(t)
    requires MoveEntries(fs, s, t, now).result.Ok?
    ensures var after := MoveEntries(fs, s, t, now).fs;
      t in after && s !in after && ValidPath(s) &&
      var back := MoveEntries(after, t, s, later);
      && back.result.Ok?
      && (forall p :: p in fs ==> p in back.fs && back.fs[p] == fs[p])
      && (forall p :: p in back.fs && p !in fs ==> Under(p, Parent(t)) && back.fs[p] == Dir(now))
  {
    var fs1 := EnsureParent(fs, t, now).value;
    MoveTreeInverse(fs1, s, t);
    var after := MoveTree(fs1, s, t);
    assert MoveEntries(fs, s, t, now).fs == after;
    assert EnsureParent(after, s, later) == Ok(after);
  }

  /**
   * A successful move can be undone: moving the destination back to the
   * source succeeds and restores every entry, leaving only the directories
   * the first move created above its destination.
   */
  lemma MoveThenBack(home: string, fs: FileSystem, sourcePath: string, destinationPath: string, now: Timestamp, later: Timestamp)
    requires WellFormed(fs) && Move(home, fs, sourcePath, destinationPath, now).result.Ok?
    ensures var after := Move(home, fs, sourcePath, destinationPath, now).fs;
      var back := Move(home, after, destinationPath, sourcePath, later);
      && back.result.Ok?
      && (forall p :: p in fs ==> p in back.fs && back.fs[p] == fs[p])
      && (forall p :: p in back.fs && p !in fs ==> back.fs[p] == Dir(now))
  {
    var s := Segments(GetFullPath(home, sourcePath).value);
    var t := Segments(GetFullPath(home, destinationPath).value);
    MoveChecked(home, fs, sourcePath, destinationPath, now);
    MoveEntriesBack(fs, s, t, now, later);
    MoveChecked(home, MoveEntries(fs, s, t, now).fs, destinationPath, sourcePath, later);
  }

  /** A move whose paths resolve, whose source exists and whose destination is free comes down to moving the entries. */
  lemma MoveChecked(home: string, fs: FileSystem, sourcePath: string, destinationPath: string, now: Timestamp)
    requires WellFormed(fs) && GetFullPath(home, sourcePath).Ok? && GetFullPath(home, destinationPath).Ok?
    requires Segments(GetFullPath(home, sourcePath).value) in fs
    requires Segments(GetFullPath(home, destinationPath).value) !in fs
    ensures var s, t := Segments(GetFullPath(home, sourcePath).value), Segments(GetFullPath(home, destinationPath).value);
      ValidPath(t) && Move(home, fs, sourcePath, destinationPath, now) == MoveEntries(fs, s, t, now)
  {
    var fullSource, fullDestination := GetFullPath(home, sourcePath).value, GetFullPath(home, destinationPath).value;
    assert fullSource != [] && fullDestination != [];
  }
}

=== FILE: sandbox.dfy ===
/**
 * The repository's one security boundary: resolving a caller's path against
 * the home directory, refusing what falls outside it, and turning a full
 * path back into one relative to home.
 *
 * The confinement test compares text, not segments: the canonical path must
 * begin, ignoring ASCII case, with the canonical home text. A sibling such
 * as "<home>2" therefore passes. Relativisation uses an exact-case prefix
 * against the home text as configured.
 */
module Sandbox {
  import opened Wrappers
  import opened Exceptions
  import opened Text
  import opened Paths

  /** IsPathWithinHomeDirectory: a case-insensitive prefix test on canonical texts. */
  predicate IsPathWithinHomeDirectory(home: string, path: string) {
    StartsWithIgnoreCase(Normalize(path), Normalize(home))
  }

  /**
   * GetFullPath: canonicalises home combined with the caller's path and
   * refuses it, with access denied, unless it lies within home.
   */
  function GetFullPath(home: string, relativePath: string): (r: Result<string, Exception>)
    ensures r.Ok? <==> StartsWithIgnoreCase(Normalize(Combine(home, relativePath)), Normalize(home))
    ensures r.Ok? ==> r.value == Normalize(Combine(home, relativePath))
    ensures r.Ok? ==> Normalize(r.value) == r.value && StartsWithIgnoreCase(r.value, Normalize(home))
    ensures r.Err? ==> r.error == AccessDenied
  {
    var fullPath := Normalize(Combine(home, relativePath));
    NormalizeIdempotent(Combine(home, relativePath));
    if !IsPathWithinHomeDirectory(home, fullPath) then Err(AccessDenied) else Ok(fullPath)
  }

  /**
   * GetRelativePath: with the exact home prefix, the rest of the text with
   * its leading separators removed; any other text comes back unchanged.
   */
  function GetRelativePath(home: string, fullPath: string): (r: string)
    ensures !StartsWith(fullPath, home) ==> r == fullPath
    ensures StartsWith(fullPath, home) ==>
      && |home| + |r| <= |fullPath|
      && r == fullPath[|fullPath| - |r|..]
      && (forall i :: |home| <= i < |fullPath| - |r| ==> fullPath[i] == Separator)
      && (r == [] || r[0] != Separator)
    ensures fullPath == home ==> r == []
  {
    if StartsWith(fullPath, home) then TrimLeading(fullPath[|home|..], Separator) else fullPath
  }

  /** A relative path without ".." parts resolves below home, segment by segment, and is admitted. */
  lemma ResolveDescendant(home: string, relativePath: string)
    requires !IsRooted(relativePath)
    requires forall i :: 0 <= i < |Split(relativePath, Separator)| ==> Split(relativePath, Separator)[i] != ".."
    ensures GetFullPath(home, relativePath)
         == Ok(Render(Segments(home) + Walk([], Split(relativePath, Separator))))
  {
    var parts := Split(relativePath, Separator);
    SegmentsCombine(home, relativePath);
    WalkDescends(Segments(home), parts);
    var w := Walk([], parts);
    RenderPrefix(Segments(home), w);
    StartsWithFolds(Render(Segments(home) + w), Render(Segments(home)));
  }

  /** The empty path resolves to home itself. */
  lemma ResolveEmpty(home: string)
    ensures GetFullPath(home, "") == Ok(Normalize(home))
  {
    assert Combine(home, "") == home;
    StartsWithFolds(Normalize(home), Normalize(home));
  }

  /** Stepping above home with ".." is refused. */
  lemma ParentOfHomeDenied(home: string)
    requires Segments(home) != []
    ensures GetFullPath(home, "..") == Err(AccessDenied)
  {
    var s := Segments(home);
    SplitWithoutSeparator("..", Separator);
    SegmentsCombine(home, "..");
    assert Walk(s, [".."]) == s[..|s| - 1];
    RenderLonger(s);
  }

  /**
   * Resolving the relative form of any path at or below a canonical home
   * gives that path back.
   */
  lemma ResolveRelativeRoundTrip(home: string, p: Path)
    requires Normalize(home) == home
    requires ValidPath(p) && Under(Segments(home), p)
    ensures GetFullPath(home, GetRelativePath(home, Render(p))) == Ok(Render(p))
  {
    var s := Segments(home);
    var x := p[|s|..];
    assert p == s + x;
    assert ValidPath(x) by {
      forall i | 0 <= i < |x| ensures ValidSegment(x[i]) {
        assert x[i] == p[|s| + i];
      }
    }
    SegmentsOfRender(p);
    RenderPrefix(s, x);
    StartsWithFolds(Render(p), home);
    if x == [] {
      assert p == s;
    } else {
      var j := Join(x, Separator);
      RenderEnds(x);
      if s == [] {
        assert home == [Separator];
        assert GetRelativePath(home, Render(p)) == j;
        assert Combine(home, j) == Render(p);
      } else {
        RenderExtends(s, x);
        RenderEnds(s);
        assert Render(p)[|home|..] == [Separator] + j;
        assert GetRelativePath(home, Render(p)) == j;
        assert Combine(home, j) == Render(p);
      }
    }
  }

  /** The text prefix admits a sibling of home whose name extends home's: "/srv/data" admits "/srv/data2". */
  lemma SiblingAdmitted(home: string, relativePath: string)
    requires home == "/srv/data" && relativePath == "../data2"
    ensures GetFullPath(home, relativePath) == Ok("/srv/data2")
  {
    SampleHome(home);
    SampleSibling(home, relativePath);
    assert StartsWith("/srv/data2", home);
    StartsWithFolds("/srv/data2", home);
  }

  /** "/srv/data" is canonical, with segments "srv" and "data". */
  lemma SampleHome(home: string)
    requires home == "/srv/data"
    ensures Segments(home) == ["srv", "data"] && Normalize(home) == home
  {
    var h := ["srv", "data"];
    assert Render(h) == home by {
      assert Join(["data"], Separator) == "data";
    }
    SegmentsOfRender(h);
  }

  /** "../data2" from "/srv/data" is "/srv/data2". */
  lemma SampleSibling(home: string, relativePath: string)
    requires home == "/srv/data" && relativePath == "../data2"
    ensures Normalize(Combine(home, relativePath)) == "/srv/data2"
  {
    var h, sibling := ["srv", "data"], ["srv", "data2"];
    SampleHome(home);
    SampleSiblingParts(relativePath);
    SegmentsCombine(home, relativePath);
    SampleSiblingWalk(h, Split(relativePath, Separator));
    assert Render(sibling) == "/srv/data2" by {
      assert Join(["data2"], Separator) == "data2";
    }
  }

  /** "../data2" has the parts ".." and "data2". */
  lemma SampleSiblingParts(relativePath: string)
    requires relativePath == "../data2"
    ensures Split(relativePath, Separator) == ["..", "data2"]
  {
    var up, name := "..", "data2";
    assert relativePath == up + [Separator] + name;
    assert Separator !in up && Separator !in name;
    SplitTwo(up, name, Separator);
  }

  /** Two separator-free texts joined by the separator split back into the two. */
  lemma SplitTwo(a: string, b: string, sep: char)
    requires sep !in a && sep !in b
    ensures Split(a + [sep] + b, sep) == [a, b]
  {
    SplitConcat(a, b, sep);
    SplitWithoutSeparator(a, sep);
    SplitWithoutSeparator(b, sep);
  }

  /** From "srv", "data", the parts "..", "data2" lead to "srv", "data2". */
  lemma SampleSiblingWalk(h: Path, parts: seq<string>)
    requires h == ["srv", "data"] && parts == ["..", "data2"]
    ensures Walk(h, parts) == ["srv", "data2"]
  {
    var up, name := parts[0], parts[1];
    assert Step(h, up) == ["srv"];
    assert ValidSegment(name);
    assert Step(["srv"], name) == ["srv", name];
    assert Walk(h, parts) == Walk(["srv"], [name]);
    assert Walk(["srv"], [name]) == Walk(["srv", name], []);
  }

  /** A trailing separator adds an empty part, which the walk skips. */
  lemma TrailingSeparatorSegments(p: string)
    ensures Segments(p + [Separator]) == Segments(p)
  {
    SplitConcat(p, [], Separator);
    assert p + [Separator] + [] == p + [Separator];
    assert Split([], Separator) == [[]];
    WalkConcat([], Split(p, Separator), [[]]);
  }

  /** A caller's path with a trailing separator resolves, and is admitted, exactly as without it. */
  lemma TrailingSeparatorIgnored(home: string, relativePath: string)
    requires relativePath != [] && !IsRooted(relativePath)
    ensures GetFullPath(home, relativePath + [Separator]) == GetFullPath(home, relativePath)
  {
    var r := relativePath;
    assert !IsRooted(r + [Separator]);
    SegmentsCombine(home, r);
    SegmentsCombine(home, r + [Separator]);
    SplitConcat(r, [], Separator);
    assert r + [Separator] + [] == r + [Separator];
    assert Split([], Separator) == [[]];
    WalkConcat(Segments(home), Split(r, Separator), [[]]);
  }

  /** A home text ending with a separator is canonicalised without it: "/srv/data/" reads as "/srv/data". */
  lemma TrailingSeparatorHome(home: string)
    requires home == "/srv/data/"
    ensures Segments(home) == ["srv", "data"] && Normalize(home) == "/srv/data"
  {
    var bare := "/srv/data";
    assert home == bare + [Separator];
    TrailingSeparatorSegments(bare);
    SampleHome(bare);
  }

  /** Under home "/srv/data/", "." is admitted as "/srv/data", which does not start with the home text as written. */
  lemma TrailingHomeAdmitsItself(home: string)
    requires home == "/srv/data/"
    ensures GetFullPath(home, ".") == Ok("/srv/data") && !StartsWith("/srv/data", home)
  {
    TrailingSeparatorHome(home);
    var h := ["srv", "data"];
    SplitWithoutSeparator(".", Separator);
    SegmentsCombine(home, ".");
    assert Walk(h, ["."]) == Walk(h, []);
    SampleHome("/srv/data");
    StartsWithFolds("/srv/data", "/srv/data");
  }

  /**
   * The model cannot tell a home text with a trailing separator from the
   * same text without one: every caller's path resolves, and is admitted,
   * alike under both.
   */
  lemma HomeTrailingSeparatorIgnored(home: string, relativePath: string)
    requires home != [] && home[|home| - 1] != Separator
    ensures GetFullPath(home + [Separator], relativePath) == GetFullPath(home, relativePath)
  {
    TrailingSeparatorSegments(home);
    if relativePath != [] && !IsRooted(relativePath) {
      assert Combine(home + [Separator], relativePath) == Combine(home, relativePath);
    }
  }

  /** Under home "/srv/data/", "../data2" is admitted as "/srv/data2", which does not start with the home text as written. */
  lemma TrailingHomeAdmitsSibling(home: string)
    requires home == "/srv/data/"
    ensures GetFullPath(home, "../data2") == Ok("/srv/data2") && !StartsWith("/srv/data2", home)
  {
    var bare := "/srv/data";
    assert home == bare + [Separator];
    HomeTrailingSeparatorIgnored(bare, "../data2");
    SiblingAdmitted(bare, "../data2");
    assert "/srv/data2"[9] != home[9];
  }

  /**
   * Admission ignores case but relativisation does not: under home
   * "/srv/data", "/SRV/DATA/x" is admitted yet comes back whole.
   */
  lemma CaseMismatchStaysAbsolute(home: string, fullPath: string)
    requires home == "/srv/data" && fullPath == "/SRV/DATA/x"
    ensures IsPathWithinHomeDirectory(home, fullPath)
    ensures GetRelativePath(home, fullPath) == fullPath
  {
    SampleHome(home);
    SampleUpper(fullPath);
    LowerPrefix(fullPath, home);
    assert fullPath[1] != home[1];
  }

  /** "/SRV/DATA/x" is canonical. */
  lemma SampleUpper(fullPath: string)
    requires fullPath == "/SRV/DATA/x"
    ensures Normalize(fullPath) == fullPath
  {
    var upper := ["SRV", "DATA", "x"];
    assert Render(upper) == fullPath by {
      assert Join(["x"], Separator) == "x";
      assert Join(["DATA", "x"], Separator) == "DATA/x";
    }
    SegmentsOfRender(upper);
  }

  /** "/SRV/DATA/x" folds to a text starting with "/srv/data". */
  lemma LowerPrefix(s: string, p: string)
    requires s == "/SRV/DATA/x" && p == "/srv/data"
    ensures LowerAll(s)[..|LowerAll(p)|] == LowerAll(p)
  {
  }
}

=== FILE: search.dfy ===
/**
 * File search (SearchAsync): files below a directory within home whose
 * name, or whose text content, contains the query ignoring ASCII case.
 *
 * Files are enumerated as the platform does, as the search directory's text
 * combined with each file's path below it; the enumeration order is taken
 * to be ascending ordinal order of those texts. The name phase keeps the
 * first `MaxResults` name matches. The content phase looks only at the
 * first `MaxResults` files with an allow-listed extension and adds those
 * whose content matches, skipping any whose relative path is already in
 * the results. The combined list is cut to `MaxResults`.
 */
module Search {
  import opened Wrappers
  import opened Exceptions
  import opened Text
  import opened Paths
  import opened Ordering
  import opened FileSystemItem
  import opened SearchRequest
  import opened FileStore
  import opened Sandbox

  /** The extensions IsTextFile accepts, compared after ASCII lower-casing. */
  const TextExtensions: seq<string> :=
    [".txt", ".md", ".json", ".xml", ".html", ".css", ".js", ".cs", ".py", ".java", ".cpp", ".h", ".log"]

  /** IsTextFile: the lower-cased extension is one of the allow-listed ones. */
  predicate IsTextFile(path: string) {
    LowerAll(Extension(path)) in TextExtensions
  }

  /** Whether a file counts as text depends only on its name. */
  lemma TextFileByName(path: string)
    ensures IsTextFile(path) <==> IsTextFile(FileName(path))
  {
    SplitWithoutSeparator(FileName(path), Separator);
    assert FileName(FileName(path)) == FileName(path);
  }

  /**
   * A text file has an extension, and it is the same whether read by
   * Path.GetExtension or as the file's own property.
   */
  lemma TextFileExtension(path: string)
    ensures IsTextFile(path) ==> Extension(path) != [] && Extension(path) == FileInfoExtension(path)
  {
    ExtensionOfFileInfo(path);
    if |Extension(path)| <= 1 {
      ShortNotText(Extension(path));
    }
  }

  /** No text of at most one character lower-cases to a listed extension. */
  lemma ShortNotText(e: string)
    requires |e| <= 1
    ensures LowerAll(e) !in TextExtensions
  {
    var lowered := LowerAll(e);
    assert |lowered| <= 1;
    forall i | 0 <= i < |TextExtensions| ensures TextExtensions[i] != lowered {
      assert |TextExtensions[i]| >= 2;
    }
  }

  /** Enumerable.Take: the first `n` elements, or all of them when there are fewer. */
  function Take<T>(s: seq<T>, n: int): (r: seq<T>)
    ensures |r| <= |s| && (n <= 0 ==> r == []) && (n > 0 ==> |r| == if n < |s| then n else |s|)
    ensures forall i :: 0 <= i < |r| ==> r[i] == s[i]
  {
    if n <= 0 then [] else if n < |s| then s[..n] else s
  }

  /** Enumerable.Where: the elements satisfying `p`, in order. */
  function Filter(s: seq<string>, p: string -> bool): (r: seq<string>)
    ensures |r| <= |s|
    ensures forall x :: x in r <==> x in s && p(x)
    decreases |s|
  {
    if s == [] then []
    else (if p(s[0]) then [s[0]] else []) + Filter(s[1..], p)
  }

  /** Strictly ascending in ordinal order, hence free of repeats. */
  predicate Increasing(s: seq<string>) {
    forall i, j :: 0 <= i < j < |s| ==> Below(s[i], s[j])
  }

  /** Filtering keeps the order of what it keeps. */
  lemma {:induction false} FilterIncreasing(s: seq<string>, p: string -> bool)
    requires Increasing(s)
    ensures Increasing(Filter(s, p))
    decreases |s|
  {
    if s != [] {
      FilterIncreasing(s[1..], p);
      var rest := Filter(s[1..], p);
      assert forall j :: 0 <= j < |rest| ==> rest[j] in s[1..];
      if p(s[0]) {
        var r := [s[0]] + rest;
        forall i, j | 0 <= i < j < |r|
          ensures Below(r[i], r[j])
        {
          if i > 0 {
            assert r[i] == rest[i - 1] && r[j] == rest[j - 1];
          } else {
            assert r[j] == rest[j - 1];
          }
        }
      }
    }
  }

  /** The text the platform gives a file found at `q` when enumerating from the directory text `dir`. */
  function FoundText(dir: string, d: Path, q: Path): string
    requires Under(d, q)
  {
    Combine(dir, Join(q[|d|..], Separator))
  }

  /** The text of a file strictly below the search directory is the directory's text, a separator, and the rest. */
  lemma FoundTextSegments(dir: string, q: Path)
    requires dir != [] && ValidPath(q) && Under(Segments(dir), q) && q != Segments(dir)
    ensures var x, t := q[|Segments(dir)|..], FoundText(dir, Segments(dir), q);
      && Segments(t) == q
      && t == DirPrefix(dir) + Join(x, Separator)
      && Join(x, Separator) != [] && Join(x, Separator)[0] != Separator
  {
    var d := Segments(dir);
    var x := q[|d|..];
    assert q == d + x;
    assert ValidPath(x) by {
      forall i | 0 <= i < |x| ensures ValidSegment(x[i]) {
        assert x[i] == q[|d| + i];
      }
    }
    RenderEnds(x);
    var j := Join(x, Separator);
    SegmentsCombine(dir, j);
    SplitJoin(x, Separator);
    WalkValid(d, x);
  }

  /** The directory text followed by exactly one separator, as Combine joins it. */
  function DirPrefix(dir: string): (r: string)
    requires dir != []
    ensures StartsWith(r, dir) && |r| <= |dir| + 1
  {
    if dir[|dir| - 1] == Separator then dir else dir + [Separator]
  }

  /** The files the enumeration reaches: all files below `d`, or only its immediate children. */
  predicate Reached(fs: FileSystem, d: Path, q: Path, recursive: bool) {
    && IsFile(fs, q) && Under(d, q) && q != d
    && (recursive || |q| == |d| + 1)
  }

  /**
   * Directory.GetFiles(dir, "*", option): the texts of the reached files,
   * in ascending ordinal order.
   */
  function Enumerate(fs: FileSystem, dir: string, recursive: bool): (r: seq<string>)
    requires WellFormed(fs) && dir != []
    ensures Increasing(r)
    ensures forall i :: 0 <= i < |r| ==> var q := Segments(r[i]);
      && Reached(fs, Segments(dir), q, recursive)
      && r[i] == FoundText(dir, Segments(dir), q)
    ensures forall q :: Reached(fs, Segments(dir), q, recursive) ==> FoundText(dir, Segments(dir), q) in r
  {
    var d := Segments(dir);
    var texts := set q | q in fs && Reached(fs, d, q, recursive) :: FoundText(dir, d, q);
    forall q | q in fs && Reached(fs, d, q, recursive)
      ensures Segments(FoundText(dir, d, q)) == q
    {
      FoundTextSegments(dir, q);
    }
    Sorted(texts)
  }

  /** The search result entry for the file with text `f`. */
  function Found(home: string, fs: FileSystem, f: string): (item: FileSystemItem)
    requires IsFile(fs, Segments(f))
    ensures item.FileItem? && item.path == GetRelativePath(home, f)
    ensures item.name == FileName(f) && item.extension == Some(FileInfoExtension(f))
  {
    var node := fs[Segments(f)];
    FileItem(FileName(f), GetRelativePath(home, f), |node.content|, Some(node.modified), Some(FileInfoExtension(f)))
  }

  /** The paths of the items, in order. */
  function PathsOf(items: seq<FileSystemItem>): (r: seq<string>)
    ensures |r| == |items| && forall i :: 0 <= i < |items| ==> r[i] == items[i].path
  {
    seq(|items|, i requires 0 <= i < |items| => items[i].path)
  }

  /** No two items share a path. */
  predicate DistinctPaths(items: seq<FileSystemItem>) {
    forall i, j :: 0 <= i < j < |items| ==> items[i].path != items[j].path
  }

  /** The file name contains the query, ignoring ASCII case. */
  predicate NameMatch(f: string, query: string) {
    ContainsIgnoreCase(FileName(f), query)
  }

  /** The text names a file whose content contains the query, ignoring ASCII case. */
  predicate ContentMatch(fs: FileSystem, f: string, query: string) {
    IsFile(fs, Segments(f)) && ContainsIgnoreCase(fs[Segments(f)].content, query)
  }

  /** Every text names a file of the store. */
  predicate AllFiles(fs: FileSystem, texts: seq<string>) {
    forall f :: f in texts ==> IsFile(fs, Segments(f))
  }

  /** The relative paths of the texts, in order. */
  function RelativePaths(home: string, texts: seq<string>): (r: seq<string>)
    ensures |r| == |texts| && forall i :: 0 <= i < |texts| ==> r[i] == GetRelativePath(home, texts[i])
  {
    seq(|texts|, i requires 0 <= i < |texts| => GetRelativePath(home, texts[i]))
  }

  /** No two texts have the same relative path. */
  predicate DistinctRelative(home: string, texts: seq<string>) {
    forall i, j :: 0 <= i < j < |texts| ==> GetRelativePath(home, texts[i]) != GetRelativePath(home, texts[j])
  }

  /** The name-phase filter for a query. */
  function NameMatcher(query: string): (p: string -> bool)
    ensures forall f :: p(f) == NameMatch(f, query)
  {
    f => NameMatch(f, query)
  }

  /** The name phase: the first `max` files whose name matches. */
  function NamePhase(files: seq<string>, query: string, max: int): (r: seq<string>)
    ensures forall i :: 0 <= i < |r| ==> r[i] in files && NameMatch(r[i], query)
    ensures max <= 0 ==> r == []
  {
    Take(Filter(files, NameMatcher(query)), max)
  }

  /**
   * The content phase over `texts`: appends, in order, each file whose text
   * matches, unless a file with the same relative path is already chosen.
   */
  function ContentPhase(home: string, fs: FileSystem, texts: seq<string>, query: string, chosen: seq<string>)
    : (r: seq<string>)
    ensures |chosen| <= |r| && r[..|chosen|] == chosen
    ensures forall i :: |chosen| <= i < |r| ==> r[i] in texts && ContentMatch(fs, r[i], query)
    ensures forall f :: f in texts && ContentMatch(fs, f, query) ==> GetRelativePath(home, f) in RelativePaths(home, r)
    decreases |texts|
  {
    if texts == [] then chosen
    else
      var f := texts[0];
      var next := if ContentMatch(fs, f, query) && GetRelativePath(home, f) !in RelativePaths(home, chosen)
                  then chosen + [f] else chosen;
      var r := ContentPhase(home, fs, texts[1..], query, next);
      ContentStep(home, fs, query, texts, chosen, next, r);
      r
  }

  /**
   * One step of the content phase keeps what was chosen, adds only matching
   * files of `texts`, and leaves no matching file of `texts` without a
   * chosen file of the same relative path.
   */
  lemma ContentStep(home: string, fs: FileSystem, query: string, texts: seq<string>, chosen: seq<string>,
                    next: seq<string>, r: seq<string>)
    requires texts != []
    requires next == chosen || (next == chosen + [texts[0]] && ContentMatch(fs, texts[0], query))
    requires ContentMatch(fs, texts[0], query) ==>
      GetRelativePath(home, texts[0]) in RelativePaths(home, chosen) || next == chosen + [texts[0]]
    requires |next| <= |r| && r[..|next|] == next
    requires forall i :: |next| <= i < |r| ==> r[i] in texts[1..] && ContentMatch(fs, r[i], query)
    requires forall f :: f in texts[1..] && ContentMatch(fs, f, query) ==>
      GetRelativePath(home, f) in RelativePaths(home, r)
    ensures |chosen| <= |r| && r[..|chosen|] == chosen
    ensures forall i :: |chosen| <= i < |r| ==> r[i] in texts && ContentMatch(fs, r[i], query)
    ensures forall f :: f in texts && ContentMatch(fs, f, query) ==> GetRelativePath(home, f) in RelativePaths(home, r)
  {
    var f := texts[0];
    if ContentMatch(fs, f, query) {
      var k: int;
      if next == chosen + [f] {
        k := |chosen|;
        assert next[k] == f;
      } else {
        k :| 0 <= k < |chosen| && RelativePaths(home, chosen)[k] == GetRelativePath(home, f);
        assert next[k] == chosen[k];
      }
      assert r[k] == r[..|next|][k] == next[k];
      assert RelativePaths(home, r)[k] == GetRelativePath(home, f);
    }
    forall g | g in texts && ContentMatch(fs, g, query)
      ensures GetRelativePath(home, g) in RelativePaths(home, r)
    {
      if g != f {
        assert g in texts[1..];
      }
    }
    assert r[..|chosen|] == r[..|next|][..|chosen|];
    forall i | |chosen| <= i < |r|
      ensures r[i] in texts && ContentMatch(fs, r[i], query)
    {
      if i < |next| {
        assert r[i] == r[..|next|][i] == texts[0];
      } else {
        assert r[i] in texts[1..];
      }
    }
  }

  /** The content phase never chooses a second file with a relative path already chosen. */
  lemma {:induction false} ContentPhaseDistinct(home: string, fs: FileSystem, texts: seq<string>, query: string,
                                                chosen: seq<string>)
    requires DistinctRelative(home, chosen)
    ensures DistinctRelative(home, ContentPhase(home, fs, texts, query, chosen))
    decreases |texts|
  {
    if texts != [] {
      var f := texts[0];
      var next := if ContentMatch(fs, f, query) && GetRelativePath(home, f) !in RelativePaths(home, chosen)
                  then chosen + [f] else chosen;
      assert DistinctRelative(home, next) by {
        if next != chosen {
          forall i | 0 <= i < |chosen|
            ensures GetRelativePath(home, next[i]) != GetRelativePath(home, f)
          {
            assert RelativePaths(home, chosen)[i] == GetRelativePath(home, chosen[i]);
          }
        }
      }
      ContentPhaseDistinct(home, fs, texts[1..], query, next);
    }
  }

  /**
   * Both phases over the enumerated files: the name hits (when names are
   * searched), then the content hits among the first `MaxResults` text
   * files (when contents are searched).
   */
  function Phases(home: string, fs: FileSystem, files: seq<string>, request: SearchRequest): (r: seq<string>)
    ensures forall i :: 0 <= i < |r| ==> r[i] in files
  {
    var named := if request.searchInFileNames then NamePhase(files, request.query, request.maxResults) else [];
    var textFiles := Take(Filter(files, IsTextFile), request.maxResults);
    if request.searchInFileContents then
      var r := ContentPhase(home, fs, textFiles, request.query, named);
      assert forall i :: 0 <= i < |named| ==> r[i] == named[i];
      assert forall f :: f in textFiles ==> f in files;
      r
    else named
  }

  /** The search from an existing directory `dir`: the files chosen by both phases, cut to `MaxResults`. */
  function Chosen(home: string, fs: FileSystem, dir: string, request: SearchRequest): (r: seq<string>)
    requires WellFormed(fs) && dir != [] && Valid(request)
    ensures |r| <= request.maxResults
    ensures forall i :: 0 <= i < |r| ==> r[i] in Enumerate(fs, dir, request.includeSubdirectories)
  {
    var files := Enumerate(fs, dir, request.includeSubdirectories);
    Take(Phases(home, fs, files, request), request.maxResults)
  }

  /** Enumerated texts name files of the store. */
  lemma EnumeratedFiles(fs: FileSystem, dir: string, recursive: bool, r: seq<string>)
    requires WellFormed(fs) && dir != []
    requires forall i :: 0 <= i < |r| ==> r[i] in Enumerate(fs, dir, recursive)
    ensures AllFiles(fs, r)
  {
    var e := Enumerate(fs, dir, recursive);
    forall f | f in r
      ensures IsFile(fs, Segments(f))
    {
      var k :| 0 <= k < |e| && e[k] == f;
    }
  }

  /** The result entries for the chosen files. */
  function Entries(home: string, fs: FileSystem, chosen: seq<string>): (r: seq<FileSystemItem>)
    requires AllFiles(fs, chosen)
    ensures |r| == |chosen| && forall i :: 0 <= i < |r| ==> r[i] == Found(home, fs, chosen[i])
  {
    seq(|chosen|, i requires 0 <= i < |chosen| => Found(home, fs, chosen[i]))
  }

  /** The directory a request searches: home's own text for an empty path, else the resolved path. */
  function SearchDirectory(home: string, request: SearchRequest): (r: Result<string, Exception>)
    ensures request.path.None? || request.path.value == [] ==> r == Ok(home)
    ensures request.path.Some? && request.path.value != [] ==> r == GetFullPath(home, request.path.value)
  {
    if request.path.None? || request.path.value == [] then Ok(home) else GetFullPath(home, request.path.value)
  }

  /**
   * SearchAsync. Resolving the search path happens before anything else
   * and outside the error handling, so a path outside home fails with
   * access denied; a directory that does not exist gives no results.
   */
  function Search(home: string, fs: FileSystem, request: SearchRequest): (r: Result<seq<FileSystemItem>, Exception>)
    requires WellFormed(fs) && Valid(request)
    ensures r.Err? <==> SearchDirectory(home, request).Err?
    ensures r.Err? ==> r.error == AccessDenied
    ensures r.Ok? && !DirectoryExists(fs, SearchDirectory(home, request).value) ==> r.value == []
    ensures r.Ok? ==> |r.value| <= request.maxResults && forall i :: 0 <= i < |r.value| ==> r.value[i].FileItem?
  {
    match SearchDirectory(home, request)
    case Err(e) => Err(e)
    case Ok(dir) =>
      if !DirectoryExists(fs, dir) then Ok([])
      else Ok(Entries(home, fs, Chosen(home, fs, dir, request)))
  }

  /** The name hits of the request, or none when names are not searched. */
  function NamedOf(files: seq<string>, request: SearchRequest): (r: seq<string>)
    ensures forall i :: 0 <= i < |r| ==> r[i] in files && NameMatch(r[i], request.query)
  {
    if request.searchInFileNames then NamePhase(files, request.query, request.maxResults) else []
  }

  /**
   * The chosen files begin with the name hits; every later one is a text
   * file whose content matches, found when contents are searched.
   */
  lemma ChosenNamesFirst(home: string, fs: FileSystem, dir: string, request: SearchRequest)
    requires WellFormed(fs) && dir != [] && Valid(request)
    ensures var c, files := Chosen(home, fs, dir, request), Enumerate(fs, dir, request.includeSubdirectories);
      var named := NamedOf(files, request);
      forall i :: 0 <= i < |c| ==>
        && (i < |named| ==> c[i] == named[i])
        && (i >= |named| ==> request.searchInFileContents && IsTextFile(c[i]) && ContentMatch(fs, c[i], request.query))
  {
    var files := Enumerate(fs, dir, request.includeSubdirectories);
    var named := NamedOf(files, request);
    var textFiles := Take(Filter(files, IsTextFile), request.maxResults);
    assert forall f :: f in textFiles ==> IsTextFile(f);
    var all := Phases(home, fs, files, request);
    if request.searchInFileContents {
      assert all == ContentPhase(home, fs, textFiles, request.query, named);
    } else {
      assert all == named;
    }
  }

  /**
   * Every chosen file is reached from the search directory and matches:
   * by name when names are searched, or as a text file by content when
   * contents are searched.
   */
  lemma ChosenSound(home: string, fs: FileSystem, dir: string, request: SearchRequest)
    requires WellFormed(fs) && dir != [] && Valid(request)
    ensures var c := Chosen(home, fs, dir, request);
      forall i :: 0 <= i < |c| ==>
        && Reached(fs, Segments(dir), Segments(c[i]), request.includeSubdirectories)
        && ((request.searchInFileNames && NameMatch(c[i], request.query))
            || (request.searchInFileContents && IsTextFile(c[i]) && ContentMatch(fs, c[i], request.query)))
  {
    ChosenNamesFirst(home, fs, dir, request);
  }

  /** When no more files match by name than `MaxResults`, every file that matches by name is chosen. */
  lemma ChosenNamesComplete(home: string, fs: FileSystem, dir: string, request: SearchRequest, q: Path)
    requires WellFormed(fs) && dir != [] && Valid(request) && request.searchInFileNames
    requires |Filter(Enumerate(fs, dir, request.includeSubdirectories), NameMatcher(request.query))|
             <= request.maxResults
    requires Reached(fs, Segments(dir), q, request.includeSubdirectories)
    requires NameMatch(FoundText(dir, Segments(dir), q), request.query)
    ensures FoundText(dir, Segments(dir), q) in Chosen(home, fs, dir, request)
  {
    var files := Enumerate(fs, dir, request.includeSubdirectories);
    var f := FoundText(dir, Segments(dir), q);
    var hits := Filter(files, NameMatcher(request.query));
    assert f in hits;
    assert NamedOf(files, request) == hits;
    var k :| 0 <= k < |hits| && hits[k] == f;
    PhasesKeepNamed(home, fs, files, request);
    TakeKeepsPrefix(Phases(home, fs, files, request), hits, request.maxResults, k);
  }

  /** Cutting a sequence to `max` keeps each element of a prefix no longer than `max`. */
  lemma TakeKeepsPrefix(all: seq<string>, prefix: seq<string>, max: int, k: int)
    requires |prefix| <= |all| && forall i :: 0 <= i < |prefix| ==> all[i] == prefix[i]
    requires 0 <= k < |prefix| <= max
    ensures prefix[k] in Take(all, max)
  {
    assert Take(all, max)[k] == all[k];
  }

  /** Both phases begin with the name hits. */
  lemma PhasesKeepNamed(home: string, fs: FileSystem, files: seq<string>, request: SearchRequest)
    ensures var all, named := Phases(home, fs, files, request), NamedOf(files, request);
      |named| <= |all| && forall i :: 0 <= i < |named| ==> all[i] == named[i]
  {
    var named := NamedOf(files, request);
    if request.searchInFileContents {
      var r := Phases(home, fs, files, request);
      assert forall i :: 0 <= i < |named| ==> r[..|named|][i] == r[i];
    }
  }


  /**
   * Texts sharing a prefix at least as long as home, followed by distinct
   * rests that do not begin with a separator, have distinct relative paths.
   */
  lemma RelativeDistinct(home: string, prefix: string, a: string, b: string)
    requires |home| <= |prefix| && a != b
    requires a == [] || a[0] != Separator
    requires b == [] || b[0] != Separator
    ensures GetRelativePath(home, prefix + a) != GetRelativePath(home, prefix + b)
  {
    assert (prefix + a)[..|home|] == prefix[..|home|] == (prefix + b)[..|home|];
    if StartsWith(prefix, home) {
      var rest := prefix[|home|..];
      assert (prefix + a)[|home|..] == rest + a;
      assert (prefix + b)[|home|..] == rest + b;
      TrimLeadingConcat(rest, a, Separator);
      TrimLeadingConcat(rest, b, Separator);
      var t := TrimLeading(rest, Separator);
      assert (t + a)[|t|..] == a && (t + b)[|t|..] == b;
    } else {
      assert (prefix + a)[|prefix|..] == a && (prefix + b)[|prefix|..] == b;
    }
  }

  /**
   * The home text fits the search directory when it is no longer than the
   * directory's text with its separator, or when the directory is canonical
   * and home's canonical form is no longer than it, as admission ensures.
   */
  predicate HomeFits(home: string, dir: string) {
    dir != [] && (|home| <= |DirPrefix(dir)| || (Normalize(dir) == dir && |Normalize(home)| <= |dir|))
  }

  /**
   * A home text that a found text continues with a separator, past the
   * directory's own text, names a directory strictly below the search
   * directory, so its canonical form is longer than the directory's.
   */
  lemma HomeInsideFound(home: string, dir: string, x: Path)
    requires dir != [] && Normalize(dir) == dir && ValidPath(x) && x != []
    requires |DirPrefix(dir)| < |home|
    ensures var t := DirPrefix(dir) + Join(x, Separator);
      StartsWith(t, home) && |home| < |t| && t[|home|] == Separator ==> |dir| < |Normalize(home)|
  {
    var prefix, j := DirPrefix(dir), Join(x, Separator);
    var t := prefix + j;
    if StartsWith(t, home) && |home| < |t| && t[|home|] == Separator {
      var i := |home| - |prefix|;
      assert j[i] == Separator;
      assert forall k :: 0 <= k < |x| ==> Separator !in x[k];
      JoinSeparatorAt(x, Separator, i);
      var k :| 1 <= k < |x| && j[..i] == Join(x[..k], Separator);
      var d, y := Segments(dir), x[..k];
      assert home == t[..|home|] == prefix + j[..i];
      assert ValidPath(d + y);
      assert (d + y)[..|d|] == d && (d + y)[|d|..] == y;
      FoundTextSegments(dir, d + y);
      assert Normalize(home) == Render(d + y);
      RenderGrows(d, y);
    }
  }

  /**
   * When home is longer than the directory's text with its separator but
   * its canonical form is no longer than the directory, relative paths of
   * distinct enumerated files still differ: home never ends inside a found
   * text just before a separator, so a trimmed relative path never begins
   * with one, while an untrimmed one always does.
   */
  lemma LongHomeDistinct(home: string, fs: FileSystem, dir: string, recursive: bool, f: string, g: string)
    requires WellFormed(fs) && dir != [] && Normalize(dir) == dir && |Normalize(home)| <= |dir|
    requires |DirPrefix(dir)| < |home|
    requires f in Enumerate(fs, dir, recursive) && g in Enumerate(fs, dir, recursive) && f != g
    ensures GetRelativePath(home, f) != GetRelativePath(home, g)
  {
    LongHomeRelative(home, fs, dir, recursive, f);
    LongHomeRelative(home, fs, dir, recursive, g);
    RestsDiffer(home, f, g);
  }

  /** Distinct texts sharing a prefix differ after it. */
  lemma RestsDiffer(prefix: string, f: string, g: string)
    requires f != g
    ensures StartsWith(f, prefix) && StartsWith(g, prefix) ==> f[|prefix|..] != g[|prefix|..]
  {
    if StartsWith(f, prefix) && StartsWith(g, prefix) {
      assert f == prefix + f[|prefix|..] && g == prefix + g[|prefix|..];
    }
  }

  /**
   * Under the same conditions, a found text is rooted, and when home
   * prefixes it, its relative path is all of the rest.
   */
  lemma LongHomeRelative(home: string, fs: FileSystem, dir: string, recursive: bool, f: string)
    requires WellFormed(fs) && dir != [] && Normalize(dir) == dir && |Normalize(home)| <= |dir|
    requires |DirPrefix(dir)| < |home|
    requires f in Enumerate(fs, dir, recursive)
    ensures f != [] && f[0] == Separator
    ensures StartsWith(f, home) ==> GetRelativePath(home, f) == f[|home|..]
  {
    var d := Segments(dir);
    FoundTextSegments(dir, Segments(f));
    var x := Segments(f)[|d|..];
    assert ValidPath(x) by {
      forall i | 0 <= i < |x| ensures ValidSegment(x[i]) {
        assert x[i] == Segments(f)[|d| + i];
      }
    }
    HomeInsideFound(home, dir, x);
    assert dir == Render(d);
    assert DirPrefix(dir)[0] == dir[0];
    RelativeOfLonger(home, f);
  }

  /** A text that home prefixes and that does not continue with a separator keeps all of its rest as relative path. */
  lemma RelativeOfLonger(home: string, t: string)
    ensures StartsWith(t, home) && (|home| == |t| || t[|home|] != Separator) ==> GetRelativePath(home, t) == t[|home|..]
  {
  }

  /** Distinct enumerated files have distinct relative paths when home fits the search directory. */
  lemma EnumeratedRelativeDistinct(home: string, fs: FileSystem, dir: string, recursive: bool, f: string, g: string)
    requires WellFormed(fs) && HomeFits(home, dir)
    requires f in Enumerate(fs, dir, recursive) && g in Enumerate(fs, dir, recursive) && f != g
    ensures GetRelativePath(home, f) != GetRelativePath(home, g)
  {
    if |home| <= |DirPrefix(dir)| {
      var d := Segments(dir);
      FoundTextSegments(dir, Segments(f));
      FoundTextSegments(dir, Segments(g));
      var jf, jg := Join(Segments(f)[|d|..], Separator), Join(Segments(g)[|d|..], Separator);
      RelativeDistinct(home, DirPrefix(dir), jf, jg);
    } else {
      LongHomeDistinct(home, fs, dir, recursive, f, g);
    }
  }

  /** Strictly ascending enumerated files all have distinct relative paths. */
  lemma IncreasingRelativeDistinct(home: string, fs: FileSystem, dir: string, recursive: bool, texts: seq<string>)
    requires WellFormed(fs) && HomeFits(home, dir)
    requires Increasing(texts)
    requires forall f :: f in texts ==> f in Enumerate(fs, dir, recursive)
    ensures DistinctRelative(home, texts)
  {
    forall i, j | 0 <= i < j < |texts|
      ensures GetRelativePath(home, texts[i]) != GetRelativePath(home, texts[j])
    {
      IncreasingDistinct(texts, i, j);
      EnumeratedRelativeDistinct(home, fs, dir, recursive, texts[i], texts[j]);
    }
  }

  /** The chosen files have distinct relative paths when home fits the search directory. */
  lemma ChosenDistinct(home: string, fs: FileSystem, dir: string, request: SearchRequest)
    requires WellFormed(fs) && dir != [] && Valid(request) && HomeFits(home, dir)
    ensures DistinctRelative(home, Chosen(home, fs, dir, request))
  {
    var files := Enumerate(fs, dir, request.includeSubdirectories);
    FilterIncreasing(files, NameMatcher(request.query));
    var named := NamedOf(files, request);
    IncreasingRelativeDistinct(home, fs, dir, request.includeSubdirectories, named);
    var textFiles := Take(Filter(files, IsTextFile), request.maxResults);
    if request.searchInFileContents {
      ContentPhaseDistinct(home, fs, textFiles, request.query, named);
    }
    var all := Phases(home, fs, files, request);
    assert DistinctRelative(home, all);
  }

  /**
   * Each search result is the entry of a file below the search directory
   * (directly inside it unless subdirectories are searched) that matches by
   * name, or, when contents are searched, is a text file whose content
   * matches.
   */
  lemma SearchSound(home: string, fs: FileSystem, request: SearchRequest, i: nat)
    requires WellFormed(fs) && Valid(request)
    requires Search(home, fs, request).Ok? && i < |Search(home, fs, request).value|
    ensures var dir, item := SearchDirectory(home, request).value, Search(home, fs, request).value[i];
      exists f :: && Reached(fs, Segments(dir), Segments(f), request.includeSubdirectories)
                  && item == Found(home, fs, f)
                  && ((request.searchInFileNames && NameMatch(f, request.query))
                      || (request.searchInFileContents && IsTextFile(f) && ContentMatch(fs, f, request.query)))
  {
    var dir := SearchDirectory(home, request).value;
    ChosenSound(home, fs, dir, request);
    var f := Chosen(home, fs, dir, request)[i];
    assert Search(home, fs, request).value[i] == Found(home, fs, f);
  }

  /** No two search results share a path. */
  lemma SearchDistinctPaths(home: string, fs: FileSystem, request: SearchRequest)
    requires WellFormed(fs) && Valid(request)
    requires Search(home, fs, request).Ok?
    ensures DistinctPaths(Search(home, fs, request).value)
  {
    var dir := SearchDirectory(home, request).value;
    if DirectoryExists(fs, dir) {
      if request.path.None? || request.path.value == [] {
        assert dir == home && |home| <= |DirPrefix(dir)|;
      } else {
        assert |LowerAll(dir)| >= |LowerAll(Normalize(home))|;
      }
      ChosenDistinct(home, fs, dir, request);
    }
  }

  /**
   * When contents are searched, a text file among the first `MaxResults`
   * enumerated text files whose content matches is chosen (itself, or a
   * file of the same relative path), provided the final cut to `MaxResults`
   * drops nothing.
   */
  lemma ChosenContentsComplete(home: string, fs: FileSystem, dir: string, request: SearchRequest, f: string)
    requires WellFormed(fs) && dir != [] && Valid(request) && request.searchInFileContents
    requires f in Take(Filter(Enumerate(fs, dir, request.includeSubdirectories), IsTextFile), request.maxResults)
    requires ContentMatch(fs, f, request.query)
    requires |Phases(home, fs, Enumerate(fs, dir, request.includeSubdirectories), request)| <= request.maxResults
    ensures GetRelativePath(home, f) in RelativePaths(home, Chosen(home, fs, dir, request))
  {
    var files := Enumerate(fs, dir, request.includeSubdirectories);
    PhasesContentsComplete(home, fs, files, request, f);
    TakeWhole(home, Phases(home, fs, files, request), request.maxResults, GetRelativePath(home, f));
  }

  /** Cutting to `max` a sequence no longer than `max` keeps every relative path. */
  lemma TakeWhole(home: string, all: seq<string>, max: int, x: string)
    requires |all| <= max && x in RelativePaths(home, all)
    ensures x in RelativePaths(home, Take(all, max))
  {
    assert Take(all, max) == all;
  }

  /** When contents are searched, every matching file among the text files the content phase reads is covered by both phases. */
  lemma PhasesContentsComplete(home: string, fs: FileSystem, files: seq<string>, request: SearchRequest, f: string)
    requires request.searchInFileContents
    requires f in Take(Filter(files, IsTextFile), request.maxResults) && ContentMatch(fs, f, request.query)
    ensures GetRelativePath(home, f) in RelativePaths(home, Phases(home, fs, files, request))
  {
    var textFiles := Take(Filter(files, IsTextFile), request.maxResults);
    assert Phases(home, fs, files, request) == ContentPhase(home, fs, textFiles, request.query, NamedOf(files, request));
  }

  /**
   * When contents are searched, a text file among the first `MaxResults`
   * enumerated text files whose content matches is in the results (itself,
   * or a file of the same relative path), provided the final cut to
   * `MaxResults` drops nothing.
   */
  lemma SearchContentsComplete(home: string, fs: FileSystem, request: SearchRequest, f: string)
    requires WellFormed(fs) && Valid(request) && request.searchInFileContents
    requires Search(home, fs, request).Ok?
    requires var dir := SearchDirectory(home, request).value;
      && DirectoryExists(fs, dir)
      && f in Take(Filter(Enumerate(fs, dir, request.includeSubdirectories), IsTextFile), request.maxResults)
      && ContentMatch(fs, f, request.query)
      && |Phases(home, fs, Enumerate(fs, dir, request.includeSubdirectories), request)| <= request.maxResults
    ensures GetRelativePath(home, f) in PathsOf(Search(home, fs, request).value)
  {
    var dir := SearchDirectory(home, request).value;
    ChosenContentsComplete(home, fs, dir, request, f);
    EnumeratedFiles(fs, dir, request.includeSubdirectories, Chosen(home, fs, dir, request));
    EntriesPaths(home, fs, Chosen(home, fs, dir, request), GetRelativePath(home, f));
  }

  /** The result entries carry exactly the relative paths of the chosen files. */
  lemma EntriesPaths(home: string, fs: FileSystem, chosen: seq<string>, x: string)
    requires AllFiles(fs, chosen)
    ensures x in PathsOf(Entries(home, fs, chosen)) <==> x in RelativePaths(home, chosen)
  {
    var items := Entries(home, fs, chosen);
    assert PathsOf(items) == RelativePaths(home, chosen);
  }

  /** When names are searched and at most `MaxResults` files match by name, every such file is in the results. */
  lemma SearchNamesComplete(home: string, fs: FileSystem, request: SearchRequest, q: Path)
    requires WellFormed(fs) && Valid(request) && request.searchInFileNames
    requires Search(home, fs, request).Ok?
    requires var dir := SearchDirectory(home, request).value;
      && dir != []
      && |Filter(Enumerate(fs, dir, request.includeSubdirectories), NameMatcher(request.query))| <= request.maxResults
      && Reached(fs, Segments(dir), q, request.includeSubdirectories)
      && NameMatch(FoundText(dir, Segments(dir), q), request.query)
    ensures var dir := SearchDirectory(home, request).value;
      Found(home, fs, FoundText(dir, Segments(dir), q)) in Search(home, fs, request).value
  {
    var dir := SearchDirectory(home, request).value;
    var f := FoundText(dir, Segments(dir), q);
    assert IsDir(fs, Segments(dir)) by {
      AncestorsAreDirectories(fs, q, |Segments(dir)|);
    }
    ChosenNamesComplete(home, fs, dir, request, q);
    var c := Chosen(home, fs, dir, request);
    var k :| 0 <= k < |c| && c[k] == f;
    assert Search(home, fs, request).value[k] == Found(home, fs, f);
  }
}

=== FILE: search_request.dfy ===
/**
 * SearchRequest: validated search criteria (query, start path, and the
 * subdirectory, file-name and file-content switches, and a result cap).
 */
module SearchRequest {
  import opened Wrappers
  import opened Exceptions
  import opened Text

  datatype SearchRequest = SearchRequest(
    query: string,
    path: Option<string>,
    includeSubdirectories: bool,
    searchInFileNames: bool,
    searchInFileContents: bool,
    maxResults: int)

  /** What every created request satisfies: a non-empty query without surrounding white space, a positive cap. */
  predicate Valid(r: SearchRequest) {
    && r.query != [] && !IsWhiteSpace(r.query[0]) && !IsWhiteSpace(r.query[|r.query| - 1])
    && r.maxResults >= 1
  }

  const EmptyQuery := BadArgument("Search query cannot be empty", "query")
  const NonPositiveMaxResults := BadArgument("Max results must be greater than zero", "maxResults")

  /**
   * SearchRequest.Create: rejects a null or blank query, then a cap of zero
   * or less; stores the query and the path trimmed and the switches and the
   * cap unchanged.
   */
  function Create(query: Option<string>, path: Option<string>, includeSubdirectories: bool,
                  searchInFileNames: bool, searchInFileContents: bool, maxResults: int)
    : (r: Result<SearchRequest, Exception>)
    ensures r.Ok? <==> query.Some? && !IsBlank(query.value) && maxResults > 0
    ensures query.None? || IsBlank(query.value) ==> r == Err(EmptyQuery)
    ensures query.Some? && !IsBlank(query.value) && maxResults <= 0 ==> r == Err(NonPositiveMaxResults)
    ensures r.Ok? ==> var s := r.value;
      && s.query == Trim(query.value)
      && s.path == (if path.Some? then Some(Trim(path.value)) else None)
      && s.includeSubdirectories == includeSubdirectories
      && s.searchInFileNames == searchInFileNames
      && s.searchInFileContents == searchInFileContents
      && s.maxResults == maxResults
      && Valid(s)
  {
    if query.None? || IsBlank(query.value) then Err(EmptyQuery)
    else if maxResults <= 0 then Err(NonPositiveMaxResults)
    else
      var p := if path.Some? then Some(Trim(path.value)) else None;
      Ok(SearchRequest(Trim(query.value), p, includeSubdirectories, searchInFileNames, searchInFileContents, maxResults))
  }

  /** Create with its default arguments: no path, subdirectories and file names on, contents off, 100 results. */
  function CreateWithDefaults(query: Option<string>): (r: Result<SearchRequest, Exception>)
    ensures r.Ok? <==> query.Some? && !IsBlank(query.value)
    ensures r.Ok? ==> var s := r.value;
      && s.query == Trim(query.value) && s.path.None?
      && s.includeSubdirectories && s.searchInFileNames && !s.searchInFileContents
      && s.maxResults == 100
  {
    Create(query, None, true, true, false, 100)
  }
}

=== FILE: service.dfy ===
/**
 * The application service over the repository (FileSystemService): it
 * composes the upload target and turns the repository's outcome into an
 * upload report, reports whether home exists, and forwards every other
 * request to the repository unchanged.
 */
module Service {
  import opened Wrappers
  import opened Exceptions
  import opened Paths
  import opened FileSystemItem
  import DirectoryDetails
  import opened SearchRequest
  import opened UploadResult
  import opened FileStore
  import opened Sandbox
  import opened Listing
  import opened Search
  import opened Repository

  /** A file sent by a client: its name, its declared length and its content. */
  datatype FileUpload = FileUpload(fileName: string, length: int, content: string)

  /** What the service reports about home. */
  datatype HomeDirectoryResult = HomeDirectoryResult(path: string, existing: bool, errorMessage: Option<string>)

  /** An upload report together with the store after the upload. */
  datatype Uploaded = Uploaded(report: UploadResult, fs: FileSystem)

  const HomeMissing := "Home directory does not exist"

  /** String.Replace(from, to) on single characters. */
  function ReplaceChar(s: string, from: char, to: char): (r: string)
    ensures |r| == |s|
    ensures from != to ==> from !in r
    ensures from !in s ==> r == s
    ensures forall i :: 0 <= i < |s| && s[i] != from ==> r[i] == s[i]
  {
    seq(|s|, i requires 0 <= i < |s| => if s[i] == from then to else s[i])
  }

  /** The path an upload is written to: the file name combined with the target directory, back-slashes turned into slashes. */
  function UploadTarget(targetPath: string, fileName: string): (r: string)
    ensures '\\' !in r
    ensures '\\' !in targetPath && '\\' !in fileName && fileName != [] && !IsRooted(fileName)
            && targetPath != [] && targetPath[|targetPath| - 1] != Separator
            ==> r == targetPath + [Separator] + fileName
    ensures '\\' !in fileName && (IsRooted(fileName) || targetPath == []) ==> r == fileName
  {
    ReplaceChar(Combine(targetPath, fileName), '\\', Separator)
  }

  /** A file named in a directory lands directly inside it. */
  lemma UploadTargetInDirectory(targetPath: string, fileName: string)
    requires targetPath == "/test/path" && fileName == "test.txt"
    ensures UploadTarget(targetPath, fileName) == "/test/path/test.txt"
  {
  }

  /**
   * UploadFileAsync: uploads to the composed target; success reports the
   * target and the declared length with the default message, and any
   * failure of the repository becomes a failed report carrying its message.
   * The upload itself never fails.
   */
  function UploadFile(home: string, fs: FileSystem, file: FileUpload, targetPath: string, now: Timestamp): (u: Uploaded)
    requires WellFormed(fs)
    ensures WellFormed(u.fs) && Consistent(u.report)
    ensures var e := Upload(home, fs, UploadTarget(targetPath, file.fileName), file.content, now);
      && u.fs == e.fs
      && (u.report.success <==> e.result.Ok?)
      && (e.result.Ok? ==> u.report == UploadResult(true, DefaultSuccessMessage,
                                                    Some(UploadTarget(targetPath, file.fileName)), Some(file.length)))
      && (e.result.Err? ==> u.report == UploadResult(false, e.result.error.message, None, None))
  {
    var target := UploadTarget(targetPath, file.fileName);
    var e := Upload(home, fs, target, file.content, now);
    match e.result
    case Ok(_) => Uploaded(CreateSuccess(target, file.length, None), e.fs)
    case Err(ex) => Uploaded(CreateFailure(Some(ex.message)).value, e.fs)
  }

  /** A reported upload can be downloaded again from the reported path, with the uploaded content. */
  lemma UploadThenDownload(home: string, fs: FileSystem, file: FileUpload, targetPath: string, now: Timestamp)
    requires WellFormed(fs) && UploadFile(home, fs, file, targetPath, now).report.success
    ensures var u := UploadFile(home, fs, file, targetPath, now);
      && u.report.filePath.Some?
      && DownloadFile(home, u.fs, u.report.filePath.value) == Ok(file.content)
  {
    UploadThenRead(home, fs, UploadTarget(targetPath, file.fileName), file.content, now);
  }

  /** GetHomeDirectoryAsync: home, whether it is a directory, and an error message exactly when it is not. */
  function GetHomeDirectory(home: string, fs: FileSystem): (r: HomeDirectoryResult)
    ensures r.path == home
    ensures r.existing <==> DirectoryExists(fs, home)
    ensures r.errorMessage.None? <==> r.existing
    ensures !r.existing ==> r.errorMessage == Some(HomeMissing)
  {
    var existing := DirectoryExists(fs, home);
    HomeDirectoryResult(home, existing, if existing then None else Some(HomeMissing))
  }

  /** Home is reported to exist exactly when browsing the empty path lists it. */
  lemma HomeReportMatchesBrowse(home: string, fs: FileSystem)
    requires home != []
    ensures GetHomeDirectory(home, fs).existing <==> BrowseDirectory(home, fs, "").existing
  {
    ResolveEmpty(home);
    SegmentsOfRender(Segments(home));
  }

  /** BrowseDirectoryAsync: the repository's listing of the same path. */
  function BrowseDirectory(home: string, fs: FileSystem, path: string): (r: DirectoryDetails.DirectoryDetails)
    ensures r == GetDirectoryInfo(home, fs, path)
  {
    GetDirectoryInfo(home, fs, path)
  }

  /** SearchFilesAsync: the repository's search results, in the same order. */
  function SearchFiles(home: string, fs: FileSystem, request: SearchRequest): (r: Result<seq<FileSystemItem>, Exception>)
    requires WellFormed(fs) && Valid(request)
    ensures r == Search.Search(home, fs, request)
  {
    Search.Search(home, fs, request)
  }

  /** DownloadFileAsync: the repository's content of the same path. */
  function DownloadFile(home: string, fs: FileSystem, filePath: string): (r: Result<string, Exception>)
    ensures r == GetFileStream(home, fs, filePath)
  {
    GetFileStream(home, fs, filePath)
  }

  /** CreateDirectoryAsync: the repository's creation of the same path. */
  function CreateDirectoryAt(home: string, fs: FileSystem, directoryPath: string, now: Timestamp): (e: Effect<()>)
    requires WellFormed(fs)
    ensures e == Repository.CreateDirectory(home, fs, directoryPath, now)
  {
    Repository.CreateDirectory(home, fs, directoryPath, now)
  }

  /** MoveAsync: the repository's move of the same source to the same destination. */
  function MoveEntry(home: string, fs: FileSystem, sourcePath: string, destinationPath: string, now: Timestamp)
    : (e: Effect<()>)
    requires WellFormed(fs)
    ensures e == Move(home, fs, sourcePath, destinationPath, now)
  {
    Move(home, fs, sourcePath, destinationPath, now)
  }

  /** DeleteAsync: the repository's deletion of the same path. */
  function DeleteEntry(home: string, fs: FileSystem, path: string): (e: Effect<()>)
    requires WellFormed(fs)
    ensures e == Delete(home, fs, path)
  {
    Delete(home, fs, path)
  }
}

=== FILE: text.dfy ===
/**
 * Character and string helpers: white space, trimming, ASCII case folding,
 * ordinal and case-insensitive comparison, and splitting on a separator.
 *
 * Case folding (`ToLowerInvariant`, `StringComparison.OrdinalIgnoreCase`) is
 * modelled on ASCII letters only; the platform's Unicode case tables are not
 * part of this model. White space is the platform's set, listed by code point.
 */
module Text {

  /**
   * The white space both .NET and JavaScript recognise: tab, line feed,
   * vertical tab, form feed, carriage return, the space separators of
   * Unicode (category Zs), and the line and paragraph separators.
   */
  predicate IsUnicodeSpace(c: char) {
    var n := c as int;
    || 9 <= n <= 13 || n == 0x20 || n == 0xA0 || n == 0x1680 || 0x2000 <= n <= 0x200A
    || n == 0x2028 || n == 0x2029 || n == 0x202F || n == 0x205F || n == 0x3000
  }

  /** `char.IsWhiteSpace`: the shared set and the next-line character U+0085. */
  predicate IsWhiteSpace(c: char) {
    IsUnicodeSpace(c) || c as int == 0x85
  }

  /** Every character is white space (`string.IsNullOrWhiteSpace` for a non-null string). */
  predicate IsBlank(s: string) {
    forall i :: 0 <= i < |s| ==> IsWhiteSpace(s[i])
  }

  /** The number of white-space characters `s` starts with. */
  function LeadingBlanks(s: string): (n: nat)
    ensures n <= |s|
    ensures forall i :: 0 <= i < n ==> IsWhiteSpace(s[i])
    ensures n < |s| ==> !IsWhiteSpace(s[n])
    decreases |s|
  {
    if s != [] && IsWhiteSpace(s[0]) then 1 + LeadingBlanks(s[1..]) else 0
  }

  /** The number of white-space characters `s` ends with. */
  function TrailingBlanks(s: string): (n: nat)
    ensures n <= |s|
    ensures forall i :: |s| - n <= i < |s| ==> IsWhiteSpace(s[i])
    ensures n < |s| ==> !IsWhiteSpace(s[|s| - n - 1])
    decreases |s|
  {
    if s != [] && IsWhiteSpace(s[|s| - 1]) then 1 + TrailingBlanks(s[..|s| - 1]) else 0
  }

  /** Drops leading white space. */
  function TrimStart(s: string): (r: string)
    ensures |r| <= |s| && r == s[|s| - |r|..]
    ensures IsBlank(s[..|s| - |r|])
    ensures r == [] || !IsWhiteSpace(r[0])
  {
    s[LeadingBlanks(s)..]
  }

  /** Drops trailing white space. */
  function TrimEnd(s: string): (r: string)
    ensures |r| <= |s| && r == s[..|r|]
    ensures IsBlank(s[|r|..])
    ensures r == [] || !IsWhiteSpace(r[|r| - 1])
  {
    s[..|s| - TrailingBlanks(s)]
  }

  /**
   * Drops white space at both ends: the result is the slice of `s` that
   * starts at the first and ends at the last non-blank character.
   */
  function Trim(s: string): (r: string)
    ensures var k := |s| - |TrimStart(s)|;
      && k + |r| <= |s| && r == s[k..k + |r|]
      && IsBlank(s[..k]) && IsBlank(s[k + |r|..])
    ensures r == [] || (!IsWhiteSpace(r[0]) && !IsWhiteSpace(r[|r| - 1]))
    ensures r == [] <==> IsBlank(s)
  {
    TrimParts(s);
    TrimEnd(TrimStart(s))
  }

  /** The two trimming steps leave the middle slice of `s`, with blank text on either side. */
  lemma TrimParts(s: string)
    ensures var t := TrimStart(s); var r := TrimEnd(t); var k := |s| - |t|;
      && k + |r| <= |s| && r == s[k..k + |r|]
      && IsBlank(s[..k]) && IsBlank(s[k + |r|..])
      && (r == [] <==> IsBlank(s))
  {
    var t := TrimStart(s);
    var r := TrimEnd(t);
    var k := |s| - |t|;
    SliceOfSuffix(s, k, |r|);
    TrimEmpty(s);
  }

  /** A prefix of a suffix is a middle slice. */
  lemma SliceOfSuffix(s: string, k: nat, n: nat)
    requires k + n <= |s|
    ensures s[k..][..n] == s[k..k + n] && s[k..][n..] == s[k + n..]
  {
  }

  /** Trimming leaves nothing exactly when the text is blank. */
  lemma TrimEmpty(s: string)
    ensures TrimEnd(TrimStart(s)) == [] <==> IsBlank(s)
  {
    var t := TrimStart(s);
    var k := |s| - |t|;
    if TrimEnd(t) == [] {
      assert t == t[0..];
      assert s == s[..k] + t;
      BlankConcat(s[..k], t);
    } else {
      assert t[0] == s[k];
    }
  }

  /** Blank texts concatenate to a blank text. */
  lemma BlankConcat(a: string, b: string)
    requires IsBlank(a) && IsBlank(b)
    ensures IsBlank(a + b)
  {
    forall i | 0 <= i < |a + b|
      ensures IsWhiteSpace((a + b)[i])
    {
      if i < |a| {
        assert (a + b)[i] == a[i];
      } else {
        assert (a + b)[i] == b[i - |a|];
      }
    }
  }

  /** Trimming twice trims nothing more. */
  lemma TrimIdempotent(s: string)
    ensures Trim(Trim(s)) == Trim(s)
  {
    TrimmedUnchanged(Trim(s));
  }

  /** A text with no white space at either end is its own trim. */
  lemma TrimmedUnchanged(t: string)
    requires t == [] || (!IsWhiteSpace(t[0]) && !IsWhiteSpace(t[|t| - 1]))
    ensures Trim(t) == t
  {
    assert LeadingBlanks(t) == 0;
    assert t[0..] == t;
    assert TrailingBlanks(t) == 0;
    assert t[..|t|] == t;
  }

  /** Drops every leading occurrence of the character `c` (`TrimStart(c)`). */
  function TrimLeading(s: string, c: char): (r: string)
    ensures |r| <= |s| && r == s[|s| - |r|..]
    ensures forall i :: 0 <= i < |s| - |r| ==> s[i] == c
    ensures r == [] || r[0] != c
    decreases |s|
  {
    if s != [] && s[0] == c then TrimLeading(s[1..], c) else s
  }

  /** Trimming leading `c` from `a + b`, where `b` does not begin with `c`, trims only within `a`. */
  lemma {:induction false} TrimLeadingConcat(a: string, b: string, c: char)
    requires b == [] || b[0] != c
    ensures TrimLeading(a + b, c) == TrimLeading(a, c) + b
    decreases |a|
  {
    if a == [] {
      assert a + b == b;
    } else if a[0] == c {
      assert (a + b)[1..] == a[1..] + b;
      TrimLeadingConcat(a[1..], b, c);
    }
  }

  /** ASCII lower-casing of one character. */
  function Lower(c: char): char {
    if 'A' <= c <= 'Z' then (c as int + 32) as char else c
  }

  /** ASCII lower-casing of a string, character by character. */
  function LowerAll(s: string): (r: string)
    ensures |r| == |s|
    ensures forall i :: 0 <= i < |s| ==> r[i] == Lower(s[i])
  {
    seq(|s|, i requires 0 <= i < |s| => Lower(s[i]))
  }

  /** Ordinal prefix test: the model's reading of `s.StartsWith(p)`, which .NET compares culture-sensitively. */
  predicate StartsWith(s: string, p: string) {
    |p| <= |s| && s[..|p|] == p
  }

  /** Case-insensitive prefix test, `s.StartsWith(p, OrdinalIgnoreCase)`. */
  predicate StartsWithIgnoreCase(s: string, p: string) {
    StartsWith(LowerAll(s), LowerAll(p))
  }

  /** Ordinal substring test, `s.Contains(q)`. */
  predicate Contains(s: string, q: string)
    decreases |s|
  {
    StartsWith(s, q) || (s != [] && Contains(s[1..], q))
  }

  /** Case-insensitive substring test, `s.Contains(q, OrdinalIgnoreCase)`. */
  predicate ContainsIgnoreCase(s: string, q: string) {
    Contains(LowerAll(s), LowerAll(q))
  }

  /** An ordinal prefix is also a case-insensitive prefix. */
  lemma StartsWithFolds(s: string, p: string)
    requires StartsWith(s, p)
    ensures StartsWithIgnoreCase(s, p)
  {
    assert LowerAll(s)[..|p|] == LowerAll(p);
  }

  /** `Contains` holds exactly when `q` occurs at some position of `s`. */
  lemma {:induction false} ContainsOccurrence(s: string, q: string)
    ensures Contains(s, q) <==> exists i :: 0 <= i <= |s| - |q| && StartsWith(s[i..], q)
    decreases |s|
  {
    assert s[0..] == s;
    if s != [] {
      ContainsOccurrence(s[1..], q);
      if Contains(s[1..], q) {
        var i :| 0 <= i <= |s[1..]| - |q| && StartsWith(s[1..][i..], q);
        assert s[1..][i..] == s[i + 1..];
      }
      if exists i :: 0 <= i <= |s| - |q| && StartsWith(s[i..], q) {
        var i :| 0 <= i <= |s| - |q| && StartsWith(s[i..], q);
        if i > 0 {
          assert s[1..][i - 1..] == s[i..];
        }
      }
    }
  }

  /**
   * Splits on every occurrence of `sep`, keeping empty parts, as
   * JavaScript's `split` and .NET's `Split(char)` do: "" gives [""] and
   * "a//b" gives ["a", "", "b"].
   */
  function Split(s: string, sep: char): (parts: seq<string>)
    ensures |parts| >= 1
    ensures forall i :: 0 <= i < |parts| ==> sep !in parts[i]
    decreases |s|
  {
    if s == [] then [[]]
    else
      var rest := Split(s[1..], sep);
      if s[0] == sep then [[]] + rest
      else [[s[0]] + rest[0]] + rest[1..]
  }

  /** Joins the parts with `sep` between consecutive ones. */
  function Join(parts: seq<string>, sep: char): string
    decreases |parts|
  {
    if |parts| == 0 then []
    else if |parts| == 1 then parts[0]
    else parts[0] + [sep] + Join(parts[1..], sep)
  }

  /** A character absent from `s` is absent from every part of its split. */
  lemma {:induction false} SplitKeepsOut(s: string, sep: char, x: char)
    requires x !in s
    ensures forall i :: 0 <= i < |Split(s, sep)| ==> x !in Split(s, sep)[i]
    decreases |s|
  {
    if s != [] {
      SplitKeepsOut(s[1..], sep, x);
    }
  }

  /** Joining a concatenation puts one separator between the joins of the two halves. */
  lemma {:induction false} JoinConcat(p: seq<string>, q: seq<string>, sep: char)
    requires |p| >= 1 && |q| >= 1
    ensures Join(p + q, sep) == Join(p, sep) + [sep] + Join(q, sep)
    decreases |p|
  {
    assert (p + q)[1..] == p[1..] + q;
    if |p| > 1 {
      JoinConcat(p[1..], q, sep);
    }
  }

  /** Joining the parts of a split gives back the original string. */
  lemma {:induction false} JoinSplit(s: string, sep: char)
    ensures Join(Split(s, sep), sep) == s
    decreases |s|
  {
    if s != [] {
      JoinSplit(s[1..], sep);
      var rest := Split(s[1..], sep);
      if s[0] == sep {
        assert Split(s, sep) == [[]] + rest;
        assert ([[]] + rest)[1..] == rest;
      } else if |rest| > 1 {
        var r := Split(s, sep);
        assert r[1..] == rest[1..];
        assert Join(rest, sep) == rest[0] + [sep] + Join(rest[1..], sep);
      }
    }
  }

  /** A string without the separator splits into itself alone. */
  lemma {:induction false} SplitWithoutSeparator(s: string, sep: char)
    requires sep !in s
    ensures Split(s, sep) == [s]
    decreases |s|
  {
    if s != [] {
      SplitWithoutSeparator(s[1..], sep);
      assert [s[0]] + s[1..] == s;
    }
  }

  /** Splitting distributes over a separator: the parts of the two sides are concatenated. */
  lemma {:induction false} SplitConcat(a: string, b: string, sep: char)
    ensures Split(a + [sep] + b, sep) == Split(a, sep) + Split(b, sep)
    decreases |a|
  {
    if a == [] {
      SplitCons(sep, b, sep);
      assert a + [sep] + b == [sep] + b;
    } else {
      var c, tail := a[0], a[1..] + [sep] + b;
      assert a + [sep] + b == [c] + tail;
      assert a == [c] + a[1..];
      SplitConcat(a[1..], b, sep);
      var ra, rb := Split(a[1..], sep), Split(b, sep);
      SplitCons(c, tail, sep);
      SplitCons(c, a[1..], sep);
      SplitPrepend(c, ra, rb, sep);
    }
  }

  /** The list-level step of SplitConcat: prepending a character before concatenating. */
  lemma SplitPrepend(c: char, ra: seq<string>, rb: seq<string>, sep: char)
    requires |ra| >= 1
    ensures var rest := ra + rb;
      (if c == sep then [[]] + rest else [[c] + rest[0]] + rest[1..])
      == (if c == sep then [[]] + ra else [[c] + ra[0]] + ra[1..]) + rb
  {
    if c != sep {
      assert (ra + rb)[0] == ra[0];
      assert (ra + rb)[1..] == ra[1..] + rb;
    }
  }

  /** Splitting a text with a known first character. */
  lemma SplitCons(c: char, t: string, sep: char)
    ensures var rest := Split(t, sep);
      Split([c] + t, sep) == if c == sep then [[]] + rest else [[c] + rest[0]] + rest[1..]
  {
    assert ([c] + t)[0] == c && ([c] + t)[1..] == t;
  }

  /** Splitting a join of separator-free parts gives the parts back. */
  lemma {:induction false} SplitJoin(parts: seq<string>, sep: char)
    requires |parts| >= 1
    requires forall i :: 0 <= i < |parts| ==> sep !in parts[i]
    ensures Split(Join(parts, sep), sep) == parts
    decreases |parts|
  {
    if |parts| == 1 {
      SplitWithoutSeparator(parts[0], sep);
    } else {
      SplitWithoutSeparator(parts[0], sep);
      SplitJoin(parts[1..], sep);
      SplitConcat(parts[0], Join(parts[1..], sep), sep);
      assert [parts[0]] + parts[1..] == parts;
    }
  }

  /** A join begins with its first part and ends with its last. */
  lemma {:induction false} JoinEnds(parts: seq<string>, sep: char)
    requires |parts| >= 1
    ensures var j, f, l := Join(parts, sep), parts[0], parts[|parts| - 1];
      && |f| <= |j| && j[..|f|] == f
      && |l| <= |j| && j[|j| - |l|..] == l
    decreases |parts|
  {
    if |parts| > 1 {
      JoinEnds(parts[1..], sep);
      var rest := Join(parts[1..], sep);
      var l := parts[|parts| - 1];
      assert Join(parts, sep) == (parts[0] + [sep]) + rest;
      assert (parts[0] + [sep] + rest)[|parts[0] + [sep] + rest| - |l|..] == rest[|rest| - |l|..];
    }
  }

  /** Distinct non-empty lists of separator-free parts join to distinct strings. */
  lemma JoinInjective(p: seq<string>, q: seq<string>, sep: char)
    requires |p| >= 1 && |q| >= 1
    requires forall i :: 0 <= i < |p| ==> sep !in p[i]
    requires forall i :: 0 <= i < |q| ==> sep !in q[i]
    requires Join(p, sep) == Join(q, sep)
    ensures p == q
  {
    SplitJoin(p, sep);
    SplitJoin(q, sep);
  }

  /** A text holding the separator splits into at least two parts. */
  lemma {:induction false} SplitSeparatorParts(s: string, sep: char)
    requires sep in s
    ensures |Split(s, sep)| >= 2
    decreases |s|
  {
    if s[0] != sep {
      assert sep in s[1..];
      SplitSeparatorParts(s[1..], sep);
    }
  }

  /** A text splits into a single part exactly when it holds no separator. */
  lemma SplitSingle(s: string, sep: char)
    ensures |Split(s, sep)| == 1 <==> sep !in s
  {
    if sep !in s {
      SplitWithoutSeparator(s, sep);
    } else {
      SplitSeparatorParts(s, sep);
    }
  }

  /** A join of two or more parts is the join of all but the last, a separator and the last. */
  lemma JoinLast(parts: seq<string>, sep: char)
    requires |parts| >= 2
    ensures Join(parts, sep) == Join(parts[..|parts| - 1], sep) + [sep] + parts[|parts| - 1]
  {
    var n := |parts|;
    var init, last := parts[..n - 1], parts[n - 1];
    assert init + [last] == parts;
    JoinConcat(init, [last], sep);
    assert Join([last], sep) == last;
  }

  /** A join of at most one part holds no separator when its parts hold none. */
  lemma JoinShort(parts: seq<string>, sep: char)
    requires forall k :: 0 <= k < |parts| ==> sep !in parts[k]
    ensures |parts| <= 1 ==> sep !in Join(parts, sep)
  {
  }

  /** Each separator in a join ends a join of a leading run of its parts. */
  lemma {:induction false} JoinSeparatorAt(parts: seq<string>, sep: char, i: int)
    requires forall k :: 0 <= k < |parts| ==> sep !in parts[k]
    requires 0 <= i < |Join(parts, sep)| && Join(parts, sep)[i] == sep
    ensures exists k :: 1 <= k < |parts| && Join(parts, sep)[..i] == Join(parts[..k], sep)
    decreases |parts|
  {
    JoinShort(parts, sep);
    var first, rest := parts[0], Join(parts[1..], sep);
    assert Join(parts, sep) == first + [sep] + rest;
    assert sep !in first;
    if i == |first| {
      assert Join(parts, sep)[..i] == first == Join(parts[..1], sep);
    } else {
      var i' := i - |first| - 1;
      assert rest[i'] == sep;
      JoinSeparatorAt(parts[1..], sep, i');
      var k' :| 1 <= k' < |parts[1..]| && rest[..i'] == Join(parts[1..][..k'], sep);
      var init := parts[..k' + 1];
      assert init[0] == first && init[1..] == parts[1..][..k'];
      assert Join(parts, sep)[..i] == first + [sep] + rest[..i'];
      assert Join(parts, sep)[..i] == Join(init, sep);
    }
  }
}

=== FILE: upload_result.dfy ===
/** UploadResult: the outcome of an upload as reported to the caller. */
module UploadResult {
  import opened Wrappers
  import opened Exceptions

  datatype UploadResult = UploadResult(success: bool, message: string, filePath: Option<string>, fileSize: Option<int>)

  const DefaultSuccessMessage := "File uploaded successfully"

  /** A failed upload reports neither a path nor a size; a successful one reports both. */
  predicate Consistent(u: UploadResult) {
    u.success <==> u.filePath.Some? && u.fileSize.Some?
  }

  /** CreateSuccess: the given path and size, and the given message or the default one. */
  function CreateSuccess(filePath: string, fileSize: int, message: Option<string>): (r: UploadResult)
    ensures r.success && r.filePath == Some(filePath) && r.fileSize == Some(fileSize)
    ensures message.Some? ==> r.message == message.value
    ensures message.None? ==> r.message == DefaultSuccessMessage
    ensures Consistent(r)
  {
    UploadResult(true, message.GetOr(DefaultSuccessMessage), Some(filePath), Some(fileSize))
  }

  /** CreateFailure: the given message with no path and no size; a null message is rejected. */
  function CreateFailure(errorMessage: Option<string>): (r: Result<UploadResult, Exception>)
    ensures r.Ok? <==> errorMessage.Some?
    ensures r.Err? ==> r.error == NullArgument("errorMessage")
    ensures r.Ok? ==> !r.value.success && r.value.message == errorMessage.value
    ensures r.Ok? ==> r.value.filePath.None? && r.value.fileSize.None? && Consistent(r.value)
  {
    match errorMessage
    case None => Err(NullArgument("errorMessage"))
    case Some(m) => Ok(UploadResult(false, m, None, None))
  }
}

=== FILE: wrappers.dfy ===
/** Failure-aware value wrappers shared by every module of the model. */
module Wrappers {

  /** A value that may be absent; stands for a nullable reference. */
  datatype Option<+T> = None | Some(value: T) {

    /** The wrapped value, or `default` when absent (the `??` operator). */
    function GetOr(default: T): T {
      match this
      case Some(v) => v
      case None => default
    }
  }

  /** The outcome of an operation that either returns a value or raises an error. */
  datatype Result<+T, +E> = Ok(value: T) | Err(error: E)
}
